=== FILE: README.md ===
# Codexa client core in Dafny

This project models the logic of the Codexa React client, a coding-practice web app. It covers:

- the `fetch`-based API client;
- submission polling;
- problem filtering and pagination, in the dashboard helpers, the mock service and the real service;
- the problem-set page state;
- the mock authentication context, the route guards and the three auth forms;
- the theme manager's persistence in `localStorage`;
- the helpers of the profile page and the coding page: initials, upload checks, hints, editor templates, problem selection, shortcuts and tabs.

React state is modelled as immutable records, and every handler is a pure function from the old state and its inputs to the new state.

Anything outside the program becomes a parameter:

- the network: a `Transport`, or the result of a service call;
- timers: ticks;
- `Date.now()`: a `now: nat`;
- `matchMedia`: a `prefersDark` flag;
- `JSON.stringify` / `JSON.parse`: a `Json.Codec` pair, with the round-trip law `Json.Lawful` required wherever a proof relies on it;
- URLSearchParams percent-encoding: an `enc` function;
- zod's `.email()` check: an `emailAccepted` flag.

`localStorage` and the element's inline style are finite maps of strings.

Shared modules:

- `Wrappers`: `Option`.
- `Text`: ASCII case mapping, `includes`, `split`/`join`, decimal rendering, and `parseInt` with white-space, sign and `0x` handling.
- `Seqs`: filter and subsequence.
- `Paging`: `Array.prototype.slice` clamping, `Math.ceil` division, and page windows.
- `Json`: JSON values, JS truthiness, and property reads that may throw.
- `Storage`: the key/value store.
- `Errors`: the `err?.response?.data?.message || err?.message || fallback` chain.

Each source file has one module: `ApiClient`, `Submissions`, `ProblemUtils`, `DashboardTypes` (the filter stages and paging shared by both dashboard services), `MockDashboard`, `DashboardService`, `ProblemSet`, `AuthContext`, `RouteGuards`, `ForgotPassword`, `RoleRedirect` (the post-login redirect shared by both forms), `SignupForm`, `LoginForm`, `ThemeManager`, `Profile`, `Hints`, `CodeEditor`, `CodePage` and `ProblemStatement`.

The model follows the code as written:

- The request URL is always `baseURL + endpoint`; there is no special case for absolute endpoints.
- No bearer token is attached: the token helpers in `src/api/client.ts:91-99` are commented out.
- The real dashboard service forces every problem's status to `"unsolved"`. Its status filter compares exactly and skips only `"all"`, whereas the mock lower-cases the status and skips `"All"`.
- Problem ids are numbers at run time, even though the dashboard type declares them as strings.

## Model

| member | source | states |
|---|---|---|
| ApiClient.NewClient | src/api/client.ts:8-11 | a new client keeps the configured base URL and the 10000 ms default timeout |
| ApiClient.QueryString | src/api/client.ts:23-31 | the encoded query string is empty exactly when no parameter was kept |
| ApiClient.MergeHeaders | src/api/client.ts:40-43 | the headers are the caller's keys plus `Content-Type`; caller values win, and `Content-Type` defaults to `application/json` |
| ApiClient.BodyText | src/api/client.ts:44 | a body is sent exactly when one is given and is truthy, and it is that value's JSON text |
| ApiClient.EffectiveTimeout | src/api/client.ts:20 | the per-call timeout wins over the client's |
| ApiClient.Settle | src/api/client.ts:37-68 | an abort before the response gives "Request timeout"; success holds exactly for an in-time ok response with a parsable body, and returns that body; otherwise a rejection gives its rethrown message, a non-ok response its error-body message, and an unparsable ok body its syntax error |
| ApiClient.Request | src/api/client.ts:13-69 | the request has the final URL, the verb, the merged headers and the body text; the timer is armed with the effective timeout and then cleared, a second time exactly when the `try` block throws after `fetch` resolved; the outcome is the settled result |
| ApiClient.FinalUrl | src/api/client.ts:19-32 | the URL extends `baseURL + endpoint`, equals it exactly when no parameter is kept, and otherwise continues with `?` |
| ApiClient.KeptParams | src/api/client.ts:23-30 | no parameters give no pairs, and never more pairs than entries |
| ApiClient.StatusLine | src/api/client.ts:52 | the line starts with "HTTP " and ends with ": " and the status text |
| ApiClient.StatusLineReadsStatus | src/api/client.ts:52 | `parseInt` of the line after "HTTP " gives back a non-negative status |
| ApiClient.HttpErrorMessage | src/api/client.ts:50-52 | a `null` error body gives the TypeError text; an object with a truthy `message` gives that message as a string; an unreadable body, or any other body, gives the status line |
| ApiClient.Rethrown | src/api/client.ts:57-67 | an AbortError becomes "Request timeout", any other Error keeps its message, and a non-Error gives "An unknown error occurred" |
| ApiClient.TimerDelay | src/api/client.ts:35 | a timeout within the signed 32-bit range is waited as given, a negative one in that range as 0; the wait never exceeds 2^31-1 ms and is 0 or congruent to the timeout modulo 2^32 |
| ApiClient.TimesOut | src/api/client.ts:34-46 | a fetch that never settles times out; for a timeout within the 32-bit range, a fetch times out exactly when it settles no earlier than the timeout |
| ApiClient.HugeTimeoutFiresAtOnce | src/api/client.ts:35 | a timeout of 2^31 ms wraps to a zero delay, so every call ends in "Request timeout" |
| ApiClient.Get | src/api/client.ts:71-73 | GET carries no body and defaults the options |
| ApiClient.Post | src/api/client.ts:75-77 | POST forwards its body and options |
| ApiClient.Put | src/api/client.ts:79-81 | PUT forwards its body and options |
| ApiClient.Patch | src/api/client.ts:83-85 | PATCH forwards its body and options |
| ApiClient.Delete | src/api/client.ts:87-89 | DELETE carries no body and defaults the options |
| ApiClient.UrlExtendsBase | src/api/client.ts:19-32 | every final URL starts with `baseURL + endpoint` |
| ApiClient.QueryOnlyWhenDefined | src/api/client.ts:24-32 | the URL stays bare exactly when every parameter is `undefined` or `null` |
| ApiClient.KeptParamsAreDefinedEntries | src/api/client.ts:24-30 | the appended pairs are the defined entries, in entry order and stringified; they form a subsequence of the parameters |
| ApiClient.UndefinedParamsAreInvisible | src/api/client.ts:26-27 | removing the undefined or null parameters beforehand does not change the URL |
| ApiClient.NoParamsNoQuery | src/api/client.ts:24-32 | with no parameters, or an empty set of them, there is no `?` |
| ApiClient.BodilessVerbs | src/api/client.ts:71-89 | GET and DELETE never send a body |
| ApiClient.FalsyBodyNotSent | src/api/client.ts:44 | a falsy body (null, false, 0, "") is not sent |
| ApiClient.NeverSettlingTimesOut | src/api/client.ts:34-63 | a fetch that never settles ends in "Request timeout", and the timer is cleared |
| ApiClient.ErrorBodyMessage | src/api/client.ts:50-52 | an in-time error response of any status whose JSON body has a truthy `message` rejects with that message |
| ApiClient.ErrorStatusLine | src/api/client.ts:50-52 | an in-time error response of any status whose body is unreadable, or is not `null` and has no truthy `message`, rejects with `HTTP <status>: <statusText>`, from which `parseInt` recovers the status |
| ApiClient.NullErrorBody | src/api/client.ts:50-52 | an in-time error response whose body is `null` rejects with the TypeError of reading `message` |
| ApiClient.ErrorStatusNeverSucceeds | src/api/client.ts:50-53 | a non-ok response always fails |
| ApiClient.TransportErrorKeepsMessage | src/api/client.ts:57-65 | an `Error` that is not an abort is rethrown with its message |
| ApiClient.EchoRoundTrip | src/api/client.ts:44-56 | under a lawful codec, a truthy body is sent as text that parses back to it; echoed by the server, it is the call's data |
| Errors.Describe | src/hooks/api/use-submissions.ts:94 | one of the response message, the error message and the fallback; a present response message always wins; the fallback is used only when both messages are missing; never empty when the fallback is not |
| Errors.DescribePlain | src/app/auth/forgot-password/components/forgot-password-form-3.tsx:80 | a present error message always wins, else the fallback; never empty when the fallback is not |
| Submissions.Fetch | src/hooks/api/use-submissions.ts:84-100 | a falsy id does nothing; otherwise loading ends, and a found submission is stored and returned; a throw records the described error and rethrows |
| Submissions.Poll | src/hooks/api/use-submissions.ts:103-106 | no session exactly when the id is falsy; the defaults are 2000 ms and 30 attempts; polling starts at zero attempts |
| Submissions.Tick | src/hooks/api/use-submissions.ts:107-122 | a stopped poller is unchanged; otherwise the attempt count rises by one; a rethrow stops silently; a final status toasts "evaluated" and stops; reaching the limit toasts "timed out" and stops |
| Submissions.Teardown | src/hooks/api/use-submissions.ts:124 | the returned cleanup stops the poller and keeps its count and toasts |
| Submissions.PendingPrefix | src/hooks/api/use-submissions.ts:107-118 | k pending ticks under the limit leave k attempts, still running, with no toast |
| Submissions.RunSnoc | src/hooks/api/use-submissions.ts:107-122 | running one more tick is a tick after the run |
| Submissions.RunStopped | src/hooks/api/use-submissions.ts:112-120 | once stopped, further ticks change nothing |
| Submissions.RunAppend | src/hooks/api/use-submissions.ts:107-122 | running two batches of ticks equals running them one after the other |
| Submissions.AlwaysPendingTimesOut | src/hooks/api/use-submissions.ts:108-118 | never-final results stop after exactly `maxAttempts` ticks with the single timed-out toast |
| Submissions.TerminalStopsPolling | src/hooks/api/use-submissions.ts:111-114 | the first final status before the limit stops polling at that tick with only the evaluated toast |
| Submissions.TerminalOnLastAttemptFiresBoth | src/hooks/api/use-submissions.ts:111-118 | a final status on the last allowed attempt gives both toasts, evaluated first |
| Submissions.LookupErrorStopsSilently | src/hooks/api/use-submissions.ts:119-121 | a failed lookup stops polling with no toast |
| Submissions.TeardownBeforeFirstTick | src/hooks/api/use-submissions.ts:124 | cleanup before the first tick means no lookup is ever counted |
| Submissions.PendingPendingAccepted | src/hooks/api/use-submissions.ts:107-118 | PENDING, PENDING, ACCEPTED with 30 attempts stops at attempt 3 with one evaluated toast |
| Submissions.RunKeepsInvariant | src/hooks/api/use-submissions.ts:106-122 | attempts never pass the limit; a running poller has toasted nothing; the toasts are one of the four allowed sequences |
| Submissions.SubmitStart | src/hooks/api/use-submissions.ts:51-54 | submitting clears the id and the error and sets loading |
| Submissions.SubmitSettle | src/hooks/api/use-submissions.ts:55-67 | loading ends; success stores the new id; failure records "Failed to submit code" or the thrown message |
| Submissions.SubmitReplacesId | src/hooks/api/use-submissions.ts:51-67 | after a submission the previous id is never kept |
| ProblemUtils.FilterProblems | src/app/dashboard/utils/problem-utils.ts:3-18 | at most the input's length; every kept problem meets all four criteria: search, category, difficulty and lower-cased status |
| ProblemUtils.FilterProblemsIsSubsequence | src/app/dashboard/utils/problem-utils.ts:10-17 | the result keeps the input's order |
| ProblemUtils.FilterProblemsMembership | src/app/dashboard/utils/problem-utils.ts:10-17 | a problem is kept exactly when it is in the input and passes search, category, difficulty and lower-cased status |
| ProblemUtils.NoCriteriaKeepsAll | src/app/dashboard/utils/problem-utils.ts:11-16 | an empty search and "All" everywhere keep every problem |
| ProblemUtils.SearchCaseIrrelevant | src/app/dashboard/utils/problem-utils.ts:11 | lower-casing the search term first never changes which problems are kept |
| ProblemUtils.StatusCaseIrrelevant | src/app/dashboard/utils/problem-utils.ts:14 | for a status other than "All", lower-casing the status first never changes which problems are kept |
| ProblemUtils.CaseOfSearchAndStatusIrrelevant | src/app/dashboard/utils/problem-utils.ts:11-14 | lower-casing the search term first never changes the result, and for a status other than "All" lower-casing the status first does not either |
| ProblemUtils.Paginate | src/app/dashboard/utils/problem-utils.ts:20-29 | start and end are zero-based page times size; the total pages are the ceiling; a page holds at most `pageSize`; in range, it is the slice between start and end |
| ProblemUtils.PagesReassemble | src/app/dashboard/utils/problem-utils.ts:20-29 | the first k pages that `paginateProblems` returns, concatenated, are the first k generic page windows joined |
| Paging.PagesPrefix | src/app/dashboard/utils/problem-utils.ts:21-24 | the first k page windows joined are the list's first min(k·size, length) items |
| ProblemUtils.PagesCoverList | src/app/dashboard/utils/problem-utils.ts:20-29 | concatenating all `totalPages` pages gives back the whole list |
| ProblemUtils.StatusColor | src/app/dashboard/utils/problem-utils.ts:40-51 | green exactly for "solved", yellow exactly for "attempted", muted for everything else |
| DashboardTypes.SearchStage | src/api/mock/dashboard-service.ts:55-60 | never lengthens the list, and every kept problem meets the search criterion (SearchStageFilters: exactly those, in order) |
| DashboardTypes.CategoryStage | src/api/mock/dashboard-service.ts:62-64 | never lengthens the list, and every kept problem meets the category criterion (CategoryStageFilters: exactly those, in order) |
| DashboardTypes.DifficultyStage | src/api/mock/dashboard-service.ts:66-68 | never lengthens the list, and every kept problem meets the difficulty criterion (DifficultyStageFilters: exactly those, in order) |
| DashboardTypes.SearchStageFilters | src/api/mock/dashboard-service.ts:55-60 | the search stage keeps the problems whose title or any tag contains the term, or everything when no term is given |
| DashboardTypes.CategoryStageFilters | src/api/mock/dashboard-service.ts:62-64 | the category stage filters by exact category unless the category is absent, empty or "All" |
| DashboardTypes.DifficultyStageFilters | src/api/mock/dashboard-service.ts:66-68 | the difficulty stage filters by exact difficulty unless it is absent, empty or "All" |
| DashboardTypes.SharedStagesAreOneFilter | src/api/mock/dashboard-service.ts:55-68 | the three stages in a row are one filter by their conjunction |
| DashboardTypes.PageOf | src/api/mock/dashboard-service.ts:75-88 | the total count is the list length; the page is echoed; total pages are the ceiling; `hasMore` holds exactly when page < totalPages; at most `pageSize` items |
| DashboardTypes.PageContents | src/api/mock/dashboard-service.ts:78-80 | the items are the one-based window `[(page-1)·size, page·size)` clamped to the list |
| DashboardTypes.OneBasedPagesCover | src/api/mock/dashboard-service.ts:76-80 | pages 1..totalPages together give back the whole list |
| DashboardTypes.PagesArePaging | src/api/mock/dashboard-service.ts:76-80 | one-based pages 1..k agree with the zero-based slices 0..k-1 |
| MockDashboard.MockResponse | src/api/mock/dashboard-service.ts:23-28 | a mock response is successful, carries the data and has no error |
| MockDashboard.GetProblems | src/api/mock/dashboard-service.ts:40-89 | always successful; the page defaults to 1; the count is that of the filtered catalogue; `hasMore` holds exactly when page < totalPages; the message is "Retrieved N problems" for the page's N |
| MockDashboard.StatusStage | src/api/mock/dashboard-service.ts:70-73 | never lengthens the list, and every kept problem has the lower-cased status unless the status is absent or "All" |
| MockDashboard.Filtered | src/api/mock/dashboard-service.ts:52-73 | never longer than the catalogue, and every listed problem meets the status criterion (FilteredMembership: exactly the problems meeting all four) |
| MockDashboard.FilteredIsOneFilter | src/api/mock/dashboard-service.ts:52-73 | the four stages equal one filter by the combined criterion |
| MockDashboard.FilteredMembership | src/api/mock/dashboard-service.ts:52-73 | a problem survives exactly when it is in the catalogue and meets every given criterion |
| MockDashboard.GetProblemsPage | src/api/mock/dashboard-service.ts:75-88 | the returned problems are the requested one-based window of the filtered catalogue |
| MockDashboard.DefaultRequest | src/api/mock/dashboard-service.ts:43-50 | with no parameters: page 1, size 10, no filtering |
| MockDashboard.FindById | src/api/mock/dashboard-service.ts:118 | none exactly when no problem has the id; otherwise a catalogue problem with that id |
| MockDashboard.GetProblemById | src/api/mock/dashboard-service.ts:115-130 | failure with "Problem not found" exactly when no problem has the id; otherwise success with that problem |
| DashboardService.NewService | src/api/services/dashboard.ts:20-22 | the mode starts as configured |
| DashboardService.SetMockMode | src/api/services/dashboard.ts:284-290 | the mode reads back as set |
| DashboardService.IsMockMode | src/api/services/dashboard.ts:288-290 | true exactly for the service in mock mode, the flag NewService and SetMockMode set |
| DashboardService.ErrorText | src/api/services/dashboard.ts:158-159 | an `Error` gives its message; anything else gives the fallback |
| DashboardService.IdOf | src/api/services/dashboard.ts:95 | `parseInt(id) \|\| 0`: the parsed value, or 0 |
| DashboardService.Transform | src/api/services/dashboard.ts:94-103 | throws exactly when `tags` is not a list: V8's "of undefined (reading '0')" TypeError when it is missing, the "of null" one when it is `null` |
| DashboardService.TransformFields | src/api/services/dashboard.ts:94-103 | a tagged record keeps title, difficulty and tags, gets the parsed id and status "unsolved", and is filed under its first tag when that is non-empty, else "General" |
| DashboardService.TransformAll | src/api/services/dashboard.ts:94-103 | succeeds exactly when every record has a tag list; then it has the input's length and each element is the transform of the record at the same index; otherwise it throws one of the two TypeErrors |
| DashboardService.FirstUntaggedDecides | src/api/services/dashboard.ts:94-103 | `map` stops at the first record without a tag list, and that record's missing or `null` tags decide the error text |
| DashboardService.OrDefault | src/api/services/dashboard.ts:128-129 | `x \|\| d` is never 0 unless the default is |
| DashboardService.ProblemsFailure | src/api/services/dashboard.ts:147-162 | failure carries the message, an empty page 1, zero counts and no more pages |
| DashboardService.GetProblems | src/api/services/dashboard.ts:77-163 | mock mode delegates; a failed fetch, a non-array or a record without a tag list gives the failure response with the matching message; success is the page of the filtered transform |
| DashboardService.UntaggedRecordFails | src/api/services/dashboard.ts:94-103 | a list whose first record without a tag list has missing tags fails with the "of undefined" text, one with `null` tags with the "of null" text |
| DashboardService.BackendPage | src/api/services/dashboard.ts:127-146 | a successful real fetch returns the one-based window with the count, the ceiling page total and `hasMore` |
| DashboardService.StatusStage | src/api/services/dashboard.ts:123-125 | never lengthens the list, and every kept problem has exactly the given status unless it is absent or "all" |
| DashboardService.FilteredBackend | src/api/services/dashboard.ts:105-126 | never lengthens the list, and every listed problem meets the backend's status criterion |
| DashboardService.FilteredBackendIsOneFilter | src/api/services/dashboard.ts:105-126 | the four backend stages equal one filter by the three shared criteria and the exact status criterion, in order |
| DashboardService.FilteredBackendMembership | src/api/services/dashboard.ts:105-126 | a problem is listed exactly when it is in the input and meets every criterion |
| DashboardService.TransformedAreUnsolved | src/api/services/dashboard.ts:100 | every transformed problem is "unsolved" |
| DashboardService.OtherStatusFindsNothing | src/api/services/dashboard.ts:123-125 | a status filter other than "all" and "unsolved" removes everything |
| DashboardService.ForcedStatusEmptiesOtherFilters | src/api/services/dashboard.ts:94-146 | such a request succeeds with no problems, a zero count and zero pages |
| DashboardService.StatusAllDiffers | src/api/services/dashboard.ts:123-125 | "All" is no filter for the mock but matches nothing for the real service |
| DashboardService.GetDashboardStats | src/api/services/dashboard.ts:24-75 | mock mode delegates; the real call succeeds exactly when `me` does, with the placeholder arithmetic; failure gives zero stats and the described error |
| DashboardService.AcceptanceRatePlaceholder | src/api/services/dashboard.ts:38 | the acceptance rate is 75 exactly when something was solved, else 0 |
| DashboardService.Recent | src/api/services/dashboard.ts:221-230 | id, status and time are copied; the runtime defaults to "0ms"; the memory is rendered `NKB`, or "0KB" when absent or 0 |
| DashboardService.GetRecentSubmissions | src/api/services/dashboard.ts:206-248 | mock mode delegates; success exactly when the listing succeeds, with the first five mapped; otherwise an empty list and the described error |
| DashboardService.GetProblemById | src/api/services/dashboard.ts:250-281 | mock mode delegates; success exactly when the fetch succeeds and has tags, giving the transformed unsolved problem; otherwise no data, with the described fetch error, or the "of undefined" or "of null" TypeError text when a fetched problem's tags are missing or `null` |
| ProblemSet.ToQuery | src/app/dashboard/components/problem-set.tsx:46-53 | page and size are passed as given; the search is omitted exactly when empty, and category, difficulty and status exactly when "All"; a passed status is lower-cased, the other filters are passed verbatim |
| ProblemSet.Step | src/app/dashboard/components/problem-set.tsx:150-321 | a filter or page-size change returns to page 1; navigation changes nothing but the page, and nothing at all when its button is disabled |
| ProblemSet.StepKeepsPageInRange | src/app/dashboard/components/problem-set.tsx:286-321 | the initial page is in range, and no event takes the page below 1 or past the last page (1 when there are no pages) |
| ProblemSet.StatusStagesAgree | src/app/dashboard/components/problem-set.tsx:52 | a lower-case status other than "all" is filtered alike by the mock and the real service |
| ProblemSet.NavigationMoves | src/app/dashboard/components/problem-set.tsx:286-321 | enabled first, previous, next and last go to 1, page-1, page+1 and totalPages |
| ProblemSet.RangeMatchesPage | src/app/dashboard/components/problem-set.tsx:254-256 | on a non-empty page, "Showing a to b of n" counts exactly the rows shown |
| ProblemSet.ShowingFrom | src/app/dashboard/components/problem-set.tsx:254 | on a valid page the first row number is at least 1 |
| ProblemSet.ShowingTo | src/app/dashboard/components/problem-set.tsx:255 | the last row number is the page's end or the total count, whichever is smaller |
| ProblemSet.RangesAdjoin | src/app/dashboard/components/problem-set.tsx:254-255 | while the count reaches the page, its range starts right after the previous page's range ends |
| ProblemSet.OfferedPageSizesArePositive | src/app/dashboard/components/problem-set.tsx:274 | every offered page size is positive, so a page holds at most that many rows and the range line counts them |
| ProblemSet.OfferedStatusesFilterAlike | src/app/dashboard/components/problem-set.tsx:22-52 | for the offered statuses, the mock and real status filters agree |
| ProblemSet.Notice | src/app/dashboard/components/problem-set.tsx:329-345 | "No problems found" exactly for an empty list with a zero count; "No problems on this page" exactly for an empty list with a positive count |
| ProblemSet.MissingListShowsNothing | src/app/dashboard/components/problem-set.tsx:329 | with no list at all, no notice is shown |
| ProblemSet.IntendedNotice | src/app/dashboard/components/problem-set.tsx:329-337 | under the evidently intended grouping, a missing or empty list with a zero count shows "No problems found" |
| ProblemSet.NoticeReadingsDiffer | src/app/dashboard/components/problem-set.tsx:329-345 | the two readings differ exactly for a missing list with a zero count |
| AuthContext.Mount | src/contexts/auth-context.tsx:26-28 | the provider mounts loading and signed out, over the browser's storage |
| AuthContext.IsAuthenticated | src/contexts/auth-context.tsx:30 | signed in only with a non-null user, and always with an object user |
| AuthContext.CheckAuthStatus | src/contexts/auth-context.tsx:37-53 | loading ends; without both keys nothing changes; a parsable user is restored; an unparsable one removes both keys |
| AuthContext.MockUser | src/contexts/auth-context.tsx:64-69 | the user object is truthy, with id "1", the email, the name and role "user" |
| AuthContext.MockToken | src/contexts/auth-context.tsx:71 | the token is non-empty and starts with `mock-jwt-token-` |
| AuthContext.Establish | src/contexts/auth-context.tsx:73-75 | the user is set, and `user` and `token` are written |
| AuthContext.Login | src/contexts/auth-context.tsx:55-87 | succeeds exactly when email and password are non-empty; the name is the email before the first `@`; on failure the state and the store are unchanged |
| AuthContext.Signup | src/contexts/auth-context.tsx:89-121 | succeeds exactly when email, password and name are non-empty; on failure nothing changes |
| AuthContext.Logout | src/contexts/auth-context.tsx:123-127 | no user, both keys removed, every other key kept |
| AuthContext.LoginNameIsEmailPrefix | src/contexts/auth-context.tsx:67 | the stored name is a prefix of the email with no `@` |
| AuthContext.LoginThenRestore | src/contexts/auth-context.tsx:37-87 | after a login, a fresh mount restores the same user |
| AuthContext.SignupThenRestore | src/contexts/auth-context.tsx:89-121 | after a signup, a fresh mount restores the same user |
| AuthContext.LogoutThenRestore | src/contexts/auth-context.tsx:123-127 | after a logout, a fresh mount is not authenticated |
| AuthContext.FailedRestoreIsFinal | src/contexts/auth-context.tsx:45-49 | a failed restore leaves no keys behind, so the next mount does nothing |
| RouteGuards.ProtectedRoute | src/components/router/protected-route.tsx:10-28 | spinner exactly while loading; the page exactly when signed in; otherwise a redirect to sign-in that remembers the location |
| RouteGuards.PublicRoute | src/components/router/protected-route.tsx:34-51 | spinner exactly while loading; the page exactly when signed out; otherwise a redirect to the dashboard |
| RouteGuards.ExactlyOneGuardRenders | src/components/router/protected-route.tsx:10-51 | once loaded, exactly one of the two guards shows its page |
| ForgotPassword.OnSubmit | src/app/auth/forgot-password/components/forgot-password-form-3.tsx:57-86 | loading ends; the step advances by at most one; email goes to OTP exactly when the request succeeds; a failed verification shows "Invalid OTP"; success needs the verification, both passwords and the reset |
| ForgotPassword.PasswordsAgree | src/app/auth/forgot-password/components/forgot-password-form-3.tsx:27-35 | the refinement holds exactly when the two password fields are equal |
| ForgotPassword.HandleSubmit | src/app/auth/forgot-password/components/forgot-password-form-3.tsx:22-35 | nothing happens unless the email is accepted and the passwords agree |
| ForgotPassword.ResendOtp | src/app/auth/forgot-password/components/forgot-password-form-3.tsx:88-98 | the step is kept; the error is cleared, or set to the message or "Failed to resend OTP" |
| ForgotPassword.StepsOnlyAdvance | src/app/auth/forgot-password/components/forgot-password-form-3.tsx:57-86 | over any run of actions the step never goes back and advances at most once per action |
| ForgotPassword.SuccessNeedsTwoActions | src/app/auth/forgot-password/components/forgot-password-form-3.tsx:62-74 | reaching success from the start takes at least two submissions |
| RoleRedirect.AfterAuth | src/app/auth/sign-in/components/login-form-3.tsx:59-66 | no saved user goes to the user dashboard; the admin dashboard exactly for role "ADMIN"; a throw exactly when the saved user is unparsable or null |
| RoleRedirect.SavedRoleDecides | src/app/auth/sign-in/components/login-form-3.tsx:59-66 | for a stored truthy user, the saved role alone decides the redirect |
| SignupForm.EmailValid | src/app/auth/sign-up/components/signup-form-3.tsx:66 | a passing address has at least five characters, an `@` and a `.` |
| SignupForm.MatchImpliesShape | src/app/auth/sign-up/components/signup-form-3.tsx:66 | a match of the email pattern has the local@domain.tld shape |
| SignupForm.ShapeImpliesMatch | src/app/auth/sign-up/components/signup-form-3.tsx:66 | that shape matches the pattern at the split points found |
| SignupForm.EmailValidIff | src/app/auth/sign-up/components/signup-form-3.tsx:66 | the pattern test holds exactly for that shape |
| SignupForm.DigitsOnly | src/app/auth/sign-up/components/signup-form-3.tsx:277 | the OTP field keeps only digits and grows no longer |
| SignupForm.DigitsOnlyIdempotent | src/app/auth/sign-up/components/signup-form-3.tsx:277 | the filter is idempotent, keeps digit-only input unchanged and keeps the input's order |
| SignupForm.FullName | src/app/auth/sign-up/components/signup-form-3.tsx:114 | the first name, one space, then the last name |
| SignupForm.SendOtp | src/app/auth/sign-up/components/signup-form-3.tsx:68-95 | an invalid email does nothing; otherwise loading ends; the code counts as sent once the service says so, which clears the OTP field |
| SignupForm.OnSubmit | src/app/auth/sign-up/components/signup-form-3.tsx:97-144 | no code sent or an empty OTP requires verification; a length other than 6 is invalid; navigation exactly on success with a redirect; a failure reports it |
| SignupForm.SchemaOk | src/app/auth/sign-up/components/signup-form-3.tsx:26-37 | an accepted form has an accepted email, accepted terms, matching passwords of at least 8 characters, and a full name of at least 5 characters |
| SignupForm.HandleSubmit | src/app/auth/sign-up/components/signup-form-3.tsx:26-37 | nothing is submitted unless the schema accepts the values |
| SignupForm.RegistrationNeedsSentCode | src/app/auth/sign-up/components/signup-form-3.tsx:97-110 | without a successful OTP send, no submission navigates |
| LoginForm.OnSubmit | src/app/auth/sign-in/components/login-form-3.tsx:49-81 | submitting ends; a rejection or a throw reports the message; navigation exactly on success with a redirect; no saved user goes to the user dashboard |
| LoginForm.SchemaOk | src/app/auth/sign-in/components/login-form-3.tsx:25-28 | an accepted form has an accepted email and a non-empty password |
| LoginForm.HandleSubmit | src/app/auth/sign-in/components/login-form-3.tsx:25-28 | nothing is submitted unless the schema accepts the values |
| LoginForm.ProviderLoginGoesToUserDashboard | src/app/auth/sign-in/components/login-form-3.tsx:49-66 | against the mock provider, every accepted login lands on the user dashboard |
| ThemeManager.KeysDistinct | src/hooks/use-theme-manager.ts:9-16 | proof helper: the six storage keys are pairwise distinct, which the frame conditions of the theme operations rely on |
| ThemeManager.IsDarkMode | src/hooks/use-theme-manager.ts:26-30 | "dark" is dark, "light" is light, anything else follows the system preference |
| ThemeManager.Save | src/hooks/use-theme-manager.ts:77-87 | null and "" remove the key; anything else stores its JSON; other keys are untouched |
| ThemeManager.SaveCssVariables | src/hooks/use-theme-manager.ts:38-45 | always stores the JSON of an empty object |
| ThemeManager.StripDashes | src/hooks/use-theme-manager.ts:194 | a leading `--` is removed |
| ThemeManager.SetProperties | src/hooks/use-theme-manager.ts:58-62 | each property is set to its value, an empty value removes it, and other properties are untouched |
| ThemeManager.SetVariables | src/hooks/use-theme-manager.ts:218-220 | each non-empty variable is set under its `--` name, an empty one removes it, and every other property is kept |
| ThemeManager.DeriveBrand | src/hooks/use-theme-manager.ts:190-199 | a brand colour is present exactly when listed and its stripped name has a non-empty value, which it takes |
| ThemeManager.ResetTheme | src/hooks/use-theme-manager.ts:89-188 | the brand is emptied; all six keys are removed and other keys kept; no custom property remains and other properties are kept |
| ThemeManager.UpdateBrandColors | src/hooks/use-theme-manager.ts:190-204 | the derived brand is shown and persisted |
| ThemeManager.FindTheme | src/hooks/use-theme-manager.ts:208 | none exactly when no catalogue entry has the value; otherwise the first catalogue entry with that value |
| ThemeManager.ResetAndApply | src/hooks/use-theme-manager.ts:211-223 | afterwards the custom properties are exactly the chosen variables with non-empty values, every other property is kept, and the brand is derived from the variables |
| ThemeManager.ResetAndApplyStores | src/hooks/use-theme-manager.ts:181-223 | after the reset and the brand update, the brand colours are stored, the other five keys are absent, and keys outside the six are untouched |
| ThemeManager.SaveSelection | src/hooks/use-theme-manager.ts:226-229 | each of the three writes reads back as saving left it, the CSS variables hold an empty object, and no other key changes |
| ThemeManager.SaveImported | src/hooks/use-theme-manager.ts:290-294 | the imported theme reads back, both other selections are removed, brand and CSS variables are stored, and the radius and keys outside the six are untouched |
| ThemeManager.ApplyTheme | src/hooks/use-theme-manager.ts:206-237 | an unknown value changes nothing; otherwise the style is reset to the chosen mode's variables and the brand derived from them; storage then holds the selection, the brand and an empty CSS-variable object, has no tweakcn, imported or radius entry, and keeps every other key |
| ThemeManager.ApplyTweakcnTheme | src/hooks/use-theme-manager.ts:239-267 | the style is reset to the preset's chosen mode and the brand derived from it; storage holds the preset, the brand and the CSS variables, has no other selection and no radius, and keeps every other key |
| ThemeManager.ApplyImportedTheme | src/hooks/use-theme-manager.ts:269-297 | the imported mode's variables are laid over the style without a reset and the brand derived from them; storage holds the imported theme, the brand and the CSS variables, has no other selection, and keeps the radius and every other key |
| ThemeManager.ApplyRadius | src/hooks/use-theme-manager.ts:299-306 | `--radius` is set, or removed when empty, and persisted; the CSS variables hold an empty object; nothing else on the style, in the brand or in storage changes |
| ThemeManager.HandleColorChange | src/hooks/use-theme-manager.ts:308-322 | one property and one brand entry change; the whole brand is persisted and the CSS variables hold an empty object; no other storage key changes |
| ThemeManager.ApplyLeavesOneSelection | src/hooks/use-theme-manager.ts:206-297 | after any of the three applies, at most one theme selection is stored |
| ThemeManager.GetPersistedThemeData | src/hooks/use-theme-manager.ts:325-353 | with no stored keys the defaults are "", "", null and "0.5rem" |
| ThemeManager.ResetReadsDefaults | src/hooks/use-theme-manager.ts:181-185 | after a reset, every persisted field reads as its default |
| ThemeManager.SelectionReadsBack | src/hooks/use-theme-manager.ts:325-343 | a store holding the JSON of a non-empty `v` as the selected theme and no tweakcn, imported or radius entry reads back as `v`, "", null and "0.5rem" |
| ThemeManager.ApplyThemeReadsBack | src/hooks/use-theme-manager.ts:206-237 | after `applyTheme(v)` the persisted data is v, "", null and the default radius |
| ThemeManager.ColorChangePersists | src/hooks/use-theme-manager.ts:312-318 | the stored brand colours decode to exactly the colours shown |
| ThemeManager.LoadPersistedTheme | src/hooks/use-theme-manager.ts:48-75 | the store is never changed; with nothing saved nothing changes; saved variables that do not parse, or parse to `null`, stop the load with nothing shown |
| ThemeManager.NullVariablesStopLoad | src/hooks/use-theme-manager.ts:54-72 | variables saved as `null` make the load throw before the brand colours, so nothing changes |
| ThemeManager.ColorChangeSurvivesReload | src/hooks/use-theme-manager.ts:308-322 | what a colour change saved is what the next load shows |
| Profile.Heads | src/app/settings/profile/page.tsx:162-165 | one character at most per word |
| Profile.HeadsSkipEmpty | src/app/settings/profile/page.tsx:162-165 | empty words from repeated spaces contribute nothing; the result is one character per non-empty word |
| Profile.GetInitials | src/app/settings/profile/page.tsx:161-168 | the upper-cased heads cut to their first two characters: upper-case, a prefix of the upper-cased heads, and exactly as long as the heads when there are fewer than two, else two long |
| Profile.InitialsCount | src/app/settings/profile/page.tsx:161-168 | one initial per non-empty word, up to two, for every name: a one-word name gives one, an empty or all-space name none |
| Profile.InitialOfOneWord | src/app/settings/profile/page.tsx:161-168 | a single word gives its upper-cased first letter |
| Profile.InitialsOfWords | src/app/settings/profile/page.tsx:161-168 | for words joined by single spaces, the upper-cased first letters of the first two words |
| Profile.FallbackName | src/app/settings/profile/page.tsx:200 | the form name, else the user's name, else "U"; never empty |
| Profile.CheckFile | src/app/settings/profile/page.tsx:108-121 | no file does nothing; more than 819200 bytes is rejected before the type is checked; only the four image types are accepted |
| Profile.HandleFileChange | src/app/settings/profile/page.tsx:108-151 | a missing or rejected file changes nothing; an accepted one leaves the default icon; the server URL, or null, replaces the preview; a throw keeps the preview and reports |
| Profile.HandleReset | src/app/settings/profile/page.tsx:153-159 | no image and the default icon |
| Profile.RejectedAfterResetKeepsDefault | src/app/settings/profile/page.tsx:108-159 | after a reset, a rejected file leaves the default icon |
| Hints.HintEntries | src/app/code/components/hints.tsx:32-36 | one entry per hint, in order, titled "Hint k" for k from 1, not marked as tags |
| Hints.AllHints | src/app/code/components/hints.tsx:26-37 | the tags entry first, then the hints; length 1 + the number of hints; missing lists count as empty |
| Hints.Render | src/app/code/components/hints.tsx:14-37 | no problem shows the notice; otherwise the entry list |
| Hints.EntriesNeverEmpty | src/app/code/components/hints.tsx:26-51 | the list is never empty, so the empty branch is unreachable; only the first entry is marked as tags |
| Hints.HintTitlesDistinct | src/app/code/components/hints.tsx:33 | two hints never share a title |
| CodeEditor.Template | src/app/code/components/code-editor.tsx:32-53 | exactly javascript, python, java and cpp have a template |
| CodeEditor.StarterCode | src/app/code/components/code-editor.tsx:62 | the template, else "// Your code here" |
| CodeEditor.Initial | src/app/code/components/code-editor.tsx:56-58 | JavaScript with its template, not copied |
| CodeEditor.ChangeLanguage | src/app/code/components/code-editor.tsx:60-64 | the language is set and its starter code replaces the buffer |
| CodeEditor.Reset | src/app/code/components/code-editor.tsx:66-69 | the current language's starter code; the language is unchanged |
| CodeEditor.Edit | src/app/code/components/code-editor.tsx:138 | typing replaces the code only |
| CodeEditor.Copy | src/app/code/components/code-editor.tsx:71-79 | a successful copy sets `copied`; a failed one changes nothing |
| CodeEditor.CopyTimerFires | src/app/code/components/code-editor.tsx:75 | the timer clears `copied` |
| CodeEditor.UntemplatedLanguages | src/app/code/components/code-editor.tsx:21-53 | among the offered languages, typescript, c, go and rust, and only they, start from the fallback |
| CodeEditor.ResetUndoesEdits | src/app/code/components/code-editor.tsx:60-69 | after any edits, reset restores the last chosen language's starter code |
| CodeEditor.EditAllKeepsLanguage | src/app/code/components/code-editor.tsx:138 | typing never changes the language |
| CodePage.Initial | src/app/code/page.tsx:19-22 | no selection, loading, the "code" tab, not running |
| CodePage.FindProblem | src/app/code/page.tsx:26 | the first problem whose id equals the parsed id; none for NaN or no match |
| CodePage.SelectionEffect | src/app/code/page.tsx:24-30 | the selection changes only once loaded, with a list and an id; loading follows the list |
| CodePage.RenderedIdSelects | src/app/code/page.tsx:24-30 | a link carrying a problem's decimal id selects a problem with that id |
| CodePage.UnparsableIdSelectsNothing | src/app/code/page.tsx:26 | a non-numeric id selects nothing |
| CodePage.HandleRun | src/app/code/page.tsx:32-39 | running starts and the test-case tab opens |
| CodePage.RunTimerFires | src/app/code/page.tsx:36-38 | the simulated run ends |
| CodePage.HandleAddTest | src/app/code/page.tsx:46-49 | only the tab changes, to test cases |
| CodePage.HandleKeyDown | src/app/code/page.tsx:53-66 | default prevented exactly for Ctrl/Meta with `'` or Enter; `'` runs only when not running; Enter submits |
| CodePage.RunShortcutIgnoredWhileRunning | src/app/code/page.tsx:55-65 | while running, no key changes the state, and submit answers as usual |
| CodePage.HasProblemId | src/app/code/page.tsx:72 | the id query parameter is present and JavaScript-truthy |
| CodePage.Render | src/app/code/page.tsx:72-81 | "No Problem Selected" exactly when the id is missing or empty |
| ProblemStatement.ActiveTab | src/app/code/components/problem-statement.tsx:67-70 | a truthy external tab wins, else the internal one |
| ProblemStatement.Render | src/app/code/components/problem-statement.tsx:80-123 | skeleton, then error, then not found, then content, each exactly under its condition |
| ProblemStatement.HandleTabChange | src/app/code/components/problem-statement.tsx:71-78 | with a callback the internal tab is untouched and the value is passed on; otherwise the internal tab is set |
| ProblemStatement.TabChangeShows | src/app/code/components/problem-statement.tsx:67-78 | uncontrolled, a click shows its tab; controlled, the shown tab waits for the parent |
| ProblemStatement.DifficultyColor | src/app/code/components/problem-statement.tsx:125-134 | defined exactly for Easy, Medium and Hard |
| ProblemStatement.DifficultyColorsDistinct | src/app/code/components/problem-statement.tsx:125-134 | proof helper: the three difficulties get three different colours |

## Findings

| source | as written | input that shows it | evidently intended | confidence | as-written member | corrected member |
|---|---|---|---|---|---|---|
| src/app/dashboard/components/problem-set.tsx:329 | `!problems \|\| problems.length === 0 && totalCount === 0 && (notice)` groups as `!problems \|\| (… && notice)`, so a missing list renders `true`, which shows nothing | `problems = null`, `totalCount = 0` | `(!problems \|\| problems.length === 0) && totalCount === 0 && (notice)` | low, not executed | ProblemSet.MissingListShowsNothing | ProblemSet.IntendedNotice |

## Left out

- Networking and timing: the real `fetch`, `AbortController`, `setTimeout`, `setInterval` and the poll interval's clock are not modelled. Outcomes, ticks and timer firings are inputs. Only the delay `setTimeout` waits is modelled (ApiClient.TimerDelay); the HTML Standard's 4 ms clamp for deeply nested timers does not arise here.
- DashboardService.GetProblems: backend records are assumed to be objects; a `null` entry in the list, whose `p.id` read throws "of null (reading 'id')", is not representable. DashboardService.GetProblemById likewise assumes the fetched problem is an object, not `null`.
- ApiClient.KeptParams: query parameter values are strings, numbers, booleans, `undefined` or `null`; arrays and objects, which `String(value)` also renders, are not modelled.
- Numbers are integers: `Json.JNum`, timeouts, ids, counts and the submission memory are `int`. Fractional values (a memory of 12.5 KB, a 1.5 ms timeout, whose WebIDL conversion truncates) and `NaN`/`Infinity` are not modelled.
- Poll ticks may overlap when a lookup outlasts the interval. That is concurrency, and it is not modelled.
- Thin wrappers are not modelled: `src/api/services/auth.ts`, `problem.ts`, `submission.ts` (only its status names are used), `use-problems.ts`, `use-dashboard.ts` and `api/index.ts` only forward calls and copy fields into state. `config.ts` constants appear as parameters or constants.
- Library internals are represented by parameters:
  - JSON encoding is the `Codec` pair.
  - URLSearchParams percent-encoding (the `application/x-www-form-urlencoded` serializer of the WHATWG URL Standard, section 5.2) is the `enc` function.
  - zod's `.email()` is the `emailAccepted` flag, and react-hook-form is not modelled.
  - The thrown `SyntaxError` text of `JSON.parse` is the `syntaxError` parameter.
- `Date.now()`, `toISOString` timestamps, toasts' exact wording and `console` output are not modelled. `Date.now()` appears only as `now`.
- Mock data sets, the mock stats/performance/streak endpoints and the real service's placeholder performance and streak endpoints return constants and are left out.
- `getDifficultyBadgeClass` in `problem-utils.ts` is a constant lookup and is left out.
- The profile page's `fetchProfile` and profile-form `onSubmit` only copy service answers into the form and are not modelled.
- The signup form calls `signup(fullName, email, password, otp)` and `sendVerificationOTP` on a context that declares `signup(email, password, name)` and no `sendVerificationOTP`. Both calls are therefore answered by inputs, and no provider behaviour is assumed.
- String lengths count Unicode code points, while JavaScript's `.length` counts UTF-16 code units. A character outside the Basic Multilingual Plane counts once here and twice in the browser, so the signup form's length rules (two-character first and last names, an eight-character password, a six-character code), `getInitials`' two-character cut and every `slice` can differ on such text.
- `Text.Lower` and `Text.Upper` map ASCII letters only; `toLowerCase`/`toUpperCase` on other scripts, and length-changing case maps, are not modelled.
- Profile.HandleFileChange: the `FileReader` preview is taken to land before the upload settles; the other order is concurrency.
- CodeEditor.Template: only the offered language values are looked up; inherited object keys such as `constructor` cannot reach the lookup from the selector and are not modelled.
- ThemeManager.Save: errors thrown by `localStorage.setItem` (quota) are not modelled.
- ThemeManager.LoadPersistedTheme: it is weaker than the source. Saved brand colours keep only their string-valued fields, while the source stores whatever object was parsed. A saved variable whose name the browser does not accept as a CSS property is recorded on the style, while `setProperty` ignores it.
- ThemeManager.ResetTheme: the explicit list of names it removes first is not written out, since every name on it starts with `--` and the sweep that follows removes all such properties.
- ProblemUtils.Paginate: requires a non-zero page size; with 0 the source divides by zero and reports an infinite or NaN page count.
- DashboardTypes.PageOf: requires a non-zero page size, for the same reason.
- MockDashboard.GetProblems: requires a page size that is absent or non-zero, for the same reason. The real service maps 0 to 10 through `||`.

=== FILE: api_client.dfy ===
/**
 * The request client (src/api/client.ts): one JSON-over-HTTP call with a base
 * URL, a query string, merged headers, an optional JSON body, a deadline, and
 * every failure reduced to one message string.
 *
 * `fetch` is an input: a `Transport` says when (if ever) the network call
 * settles and with what. The deadline timer races it; the percent-encoding of
 * URLSearchParams is the parameter `enc`; JSON text goes through a `Codec`.
 */
module ApiClient {
  import opened Wrappers
  import Text
  import Seqs
  import opened Json

  /** API_CONFIG.TIMEOUT, the client's default deadline in milliseconds. */
  const DefaultTimeout: int := 10000

  const TimeoutMessage: string := "Request timeout"
  const UnknownMessage: string := "An unknown error occurred"

  /** What V8 says when `errorData.message` is read off a `null` error body. */
  const NullBodyMessage: string := "Cannot read properties of null (reading 'message')"

  datatype Method = GET | POST | PUT | PATCH | DELETE

  /** A value of the `params` record. */
  datatype ParamValue = PUndefined | PNull | PStr(s: string) | PNum(n: int) | PBool(b: bool)

  /** The per-call options; every field may be left out. */
  datatype RequestOptions = RequestOptions(
    headers: Option<map<string, string>>,
    params: Option<seq<(string, ParamValue)>>,
    timeout: Option<int>)

  const NoOptions := RequestOptions(None, None, None)

  /** The single client instance: base URL and default deadline. */
  datatype Client = Client(baseURL: string, timeout: int)

  /** `new ApiClient()`: the configured base URL and the default deadline. */
  function NewClient(baseURL: string): (c: Client)
    ensures c.baseURL == baseURL && c.timeout == 10000
  {
    Client(baseURL, DefaultTimeout)
  }

  /** What is handed to `fetch`. */
  datatype FetchRequest = FetchRequest(url: string, verb: Method, headers: map<string, string>, body: Option<string>)

  /** A value thrown by `fetch` or by a body read. */
  datatype ThrownValue = ErrorObject(name: string, message: string) | NonError

  /** Reading the response body with `response.json()`. */
  datatype BodyRead = Parsed(json: Json) | Unparsable(syntaxError: string)

  /** How the network call settles when nothing cancels it. */
  datatype FetchResult =
    | Response(ok: bool, status: int, statusText: string, body: BodyRead)
    | Rejected(thrown: ThrownValue)

  /** When the network call would settle (`None`: never), and with what. */
  datatype Transport = Transport(settlesAfter: Option<nat>, result: FetchResult)

  /** The resolved payload, or the message of the rejected promise. */
  datatype Outcome = Success(data: Json) | Failure(message: string)

  /** Timer operations issued during one call. */
  datatype TimerOp = Arm(ms: int) | Clear

  datatype Call = Call(request: FetchRequest, timers: seq<TimerOp>, outcome: Outcome)

  // ---- URL and query string -------------------------------------------------

  /** A parameter survives unless it is `undefined` or `null`. */
  predicate Defined(p: (string, ParamValue)) {
    !p.1.PUndefined? && !p.1.PNull?
  }

  /** `String(value)` for a defined parameter value. */
  function ParamString(v: ParamValue): string {
    match v
    case PStr(s) => s
    case PNum(n) => Text.IntToString(n)
    case PBool(b) => if b then "true" else "false"
    case _ => ""
  }

  function Stringified(p: (string, ParamValue)): (string, string) {
    (p.0, ParamString(p.1))
  }

  /** The `searchParams.append(key, String(value))` calls, in entry order. */
  function KeptParams(params: Option<seq<(string, ParamValue)>>): (r: seq<(string, string)>)
    ensures params.None? ==> r == []
    ensures params.Some? ==> |r| <= |params.value|
  {
    match params
    case None => []
    case Some(ps) => Seqs.Map(Seqs.Filter(ps, Defined), Stringified)
  }

  /** `searchParams.toString()`: `enc(key)=enc(value)` pairs joined by `&`. */
  function QueryString(kept: seq<(string, string)>, enc: string -> string): (q: string)
    ensures q == "" <==> |kept| == 0
  {
    if |kept| == 0 then ""
    else
      var pair := enc(kept[0].0) + "=" + enc(kept[0].1);
      if |kept| == 1 then pair else pair + "&" + QueryString(kept[1..], enc)
  }

  /** The URL handed to `fetch`: base URL, endpoint, and `?query` only when the query is non-empty. */
  function FinalUrl(baseURL: string, endpoint: string, params: Option<seq<(string, ParamValue)>>, enc: string -> string): (r: string)
    ensures baseURL + endpoint <= r
    ensures r == baseURL + endpoint <==> |KeptParams(params)| == 0
    ensures r != baseURL + endpoint ==> r[|baseURL + endpoint|] == '?'
  {
    var url := baseURL + endpoint;
    var q := QueryString(KeptParams(params), enc);
    if q != "" then url + "?" + q else url
  }

  // ---- headers and body -----------------------------------------------------

  /** `{ 'Content-Type': 'application/json', ...headers }`: the caller wins on a clash. */
  function MergeHeaders(caller: map<string, string>): (h: map<string, string>)
    ensures h.Keys == caller.Keys + {"Content-Type"}
    ensures forall k :: k in caller ==> h[k] == caller[k]
    ensures "Content-Type" !in caller ==> h["Content-Type"] == "application/json"
  {
    map["Content-Type" := "application/json"] + caller
  }

  /** `body ? JSON.stringify(body) : undefined`. */
  function BodyText(body: Option<Json>, codec: Codec): (r: Option<string>)
    ensures r.Some? <==> body.Some? && Truthy(body.value)
    ensures r.Some? ==> r.value == codec.stringify(body.value)
  {
    if body.Some? && Truthy(body.value) then Some(codec.stringify(body.value)) else None
  }

  /** `timeout = this.timeout`: the per-call deadline when given, else the client's. */
  function EffectiveTimeout(c: Client, options: RequestOptions): (t: int)
    ensures options.timeout.Some? ==> t == options.timeout.value
    ensures options.timeout.None? ==> t == c.timeout
  {
    options.timeout.GetOr(c.timeout)
  }

  // ---- settling -------------------------------------------------------------

  /** `HTTP <status>: <statusText>`. */
  function StatusLine(status: int, statusText: string): (r: string)
    ensures "HTTP " <= r
    ensures |r| >= 5 + 2 + |statusText| && r[|r| - |statusText| - 2..] == ": " + statusText
  {
    "HTTP " + Text.IntToString(status) + ": " + statusText
  }

  /** `parseInt` of the status line after "HTTP " gives back the status. */
  lemma StatusLineReadsStatus(status: nat, statusText: string)
    ensures Text.ParseInt(StatusLine(status, statusText)[5..]) == Some(status)
  {
    var digits := Text.NatToString(status);
    var rest := ": " + statusText;
    assert StatusLine(status, statusText)[5..] == digits + rest;
    Text.ParseIntDigitsThen(status, rest);
  }

  /**
   * The message thrown for a non-ok response: the error body's truthy `message`,
   * else the status line. An unreadable body counts as `{}`; a `null` body makes
   * the read of `message` itself throw.
   */
  function HttpErrorMessage(status: int, statusText: string, body: BodyRead): (r: string)
    ensures body.Parsed? && body.json.JNull? ==> r == NullBodyMessage
    ensures body.Parsed? && body.json.JObj? && "message" in body.json.fields && Truthy(body.json.fields["message"]) ==>
              r == JsString(body.json.fields["message"])
    ensures body.Unparsable? ==> r == StatusLine(status, statusText)
    ensures body.Parsed? && !body.json.JNull? && !(body.json.JObj? && "message" in body.json.fields && Truthy(body.json.fields["message"])) ==>
              r == StatusLine(status, statusText)
  {
    var errorData := if body.Parsed? then body.json else JObj(map[]);
    match GetProp(errorData, "message")
    case ThrowsTypeError => NullBodyMessage
    case Value(m) => if Truthy(m) then JsString(m) else StatusLine(status, statusText)
    case Undefined => StatusLine(status, statusText)
  }

  /** The `catch` block: an abort becomes the timeout message, other Errors keep their message. */
  function Rethrown(t: ThrownValue): (r: string)
    ensures t.NonError? ==> r == UnknownMessage
    ensures t.ErrorObject? && t.name == "AbortError" ==> r == TimeoutMessage
    ensures t.ErrorObject? && t.name != "AbortError" ==> r == t.message
  {
    match t
    case ErrorObject(name, message) => if name == "AbortError" then TimeoutMessage else message
    case NonError => UnknownMessage
  }

  const Int32Max: int := 0x7FFF_FFFF

  /**
   * The delay `setTimeout` actually waits: the argument goes through the WebIDL
   * `long` conversion (wrapped modulo 2^32 into the signed 32-bit range), and a
   * negative result counts as 0, as the HTML Standard's timer initialisation
   * steps (section 8.6) say.
   */
  function TimerDelay(ms: int): (d: nat)
    ensures 0 <= ms <= Int32Max ==> d == ms
    ensures -Int32Max - 1 <= ms < 0 ==> d == 0
    ensures d <= Int32Max
    ensures d == 0 || (ms - d) % 0x1_0000_0000 == 0
  {
    var m := ms % 0x1_0000_0000;
    var w := if m > Int32Max then m - 0x1_0000_0000 else m;
    if w < 0 then 0 else w
  }

  /** The deadline fires first unless the network call settles strictly before the timer's delay. */
  predicate TimesOut(deadline: int, transport: Transport): (r: bool)
    ensures transport.settlesAfter.None? ==> r
    ensures 0 <= deadline <= Int32Max && transport.settlesAfter.Some? ==> (r <==> transport.settlesAfter.value >= deadline)
  {
    transport.settlesAfter.None? || transport.settlesAfter.value >= TimerDelay(deadline)
  }

  /** A timeout past the 32-bit range wraps: 2^31 ms becomes a delay of 0, so every call times out at once. */
  lemma HugeTimeoutFiresAtOnce(t: Transport)
    ensures TimesOut(Int32Max + 1, t)
    ensures Settle(Int32Max + 1, t) == Failure(TimeoutMessage)
  {
    assert TimerDelay(Int32Max + 1) == 0;
  }

  /**
   * Whether the `try` block throws after `fetch` resolved, so that
   * `clearTimeout` runs a second time in the `catch`: a non-ok response, or an
   * ok one whose body does not parse.
   */
  predicate ThrowsAfterFetch(deadline: int, transport: Transport) {
    !TimesOut(deadline, transport) && transport.result.Response?
    && (!transport.result.ok || transport.result.body.Unparsable?)
  }

  /** How one call settles, given the deadline and the transport. */
  function Settle(deadline: int, transport: Transport): (o: Outcome)
    ensures TimesOut(deadline, transport) ==> o == Failure(TimeoutMessage)
    ensures o.Success? <==>
              !TimesOut(deadline, transport) && transport.result.Response?
              && transport.result.ok && transport.result.body.Parsed?
    ensures o.Success? ==> o.data == transport.result.body.json
    ensures !TimesOut(deadline, transport) && transport.result.Rejected? ==> o == Failure(Rethrown(transport.result.thrown))
    ensures !TimesOut(deadline, transport) && transport.result.Response? && !transport.result.ok ==>
              o == Failure(HttpErrorMessage(transport.result.status, transport.result.statusText, transport.result.body))
    ensures !TimesOut(deadline, transport) && transport.result.Response? && transport.result.ok && transport.result.body.Unparsable? ==>
              o == Failure(transport.result.body.syntaxError)
  {
    if TimesOut(deadline, transport) then Failure(TimeoutMessage)
    else match transport.result
      case Rejected(t) => Failure(Rethrown(t))
      case Response(ok, status, statusText, body) =>
        if !ok then Failure(HttpErrorMessage(status, statusText, body))
        else match body
          case Parsed(j) => Success(j)
          case Unparsable(msg) => Failure(msg)
  }

  /**
   * `ApiClient.request`: build the request, arm the deadline, settle, and clear
   * the deadline, a second time when the `try` block throws after `fetch` resolved.
   */
  function Request(c: Client, endpoint: string, verb: Method, body: Option<Json>, options: RequestOptions,
                   enc: string -> string, codec: Codec, transport: Transport): (call: Call)
    ensures call.request.url == FinalUrl(c.baseURL, endpoint, options.params, enc)
    ensures call.request.verb == verb
    ensures call.request.headers == MergeHeaders(options.headers.GetOr(map[]))
    ensures call.request.body == BodyText(body, codec)
    ensures |call.timers| >= 2 && call.timers[0] == Arm(EffectiveTimeout(c, options))
    ensures forall i :: 1 <= i < |call.timers| ==> call.timers[i] == Clear
    ensures |call.timers| == 3 <==> ThrowsAfterFetch(EffectiveTimeout(c, options), transport)
    ensures |call.timers| <= 3
    ensures call.outcome == Settle(EffectiveTimeout(c, options), transport)
  {
    var deadline := EffectiveTimeout(c, options);
    Call(
      FetchRequest(FinalUrl(c.baseURL, endpoint, options.params, enc), verb,
                   MergeHeaders(options.headers.GetOr(map[])), BodyText(body, codec)),
      [Arm(deadline), Clear] + (if ThrowsAfterFetch(deadline, transport) then [Clear] else []),
      Settle(deadline, transport))
  }

  // ---- the verb helpers -----------------------------------------------------

  function Get(c: Client, endpoint: string, options: Option<RequestOptions>, enc: string -> string,
               codec: Codec, transport: Transport): (call: Call)
    ensures call.request.verb == GET && call.request.body.None?
    ensures call == Request(c, endpoint, GET, None, options.GetOr(NoOptions), enc, codec, transport)
  {
    Request(c, endpoint, GET, None, options.GetOr(NoOptions), enc, codec, transport)
  }

  function Post(c: Client, endpoint: string, body: Option<Json>, options: Option<RequestOptions>,
                enc: string -> string, codec: Codec, transport: Transport): (call: Call)
    ensures call.request.verb == POST
    ensures call == Request(c, endpoint, POST, body, options.GetOr(NoOptions), enc, codec, transport)
  {
    Request(c, endpoint, POST, body, options.GetOr(NoOptions), enc, codec, transport)
  }

  function Put(c: Client, endpoint: string, body: Option<Json>, options: Option<RequestOptions>,
               enc: string -> string, codec: Codec, transport: Transport): (call: Call)
    ensures call.request.verb == PUT
    ensures call == Request(c, endpoint, PUT, body, options.GetOr(NoOptions), enc, codec, transport)
  {
    Request(c, endpoint, PUT, body, options.GetOr(NoOptions), enc, codec, transport)
  }

  function Patch(c: Client, endpoint: string, body: Option<Json>, options: Option<RequestOptions>,
                 enc: string -> string, codec: Codec, transport: Transport): (call: Call)
    ensures call.request.verb == PATCH
    ensures call == Request(c, endpoint, PATCH, body, options.GetOr(NoOptions), enc, codec, transport)
  {
    Request(c, endpoint, PATCH, body, options.GetOr(NoOptions), enc, codec, transport)
  }

  function Delete(c: Client, endpoint: string, options: Option<RequestOptions>, enc: string -> string,
                  codec: Codec, transport: Transport): (call: Call)
    ensures call.request.verb == DELETE && call.request.body.None?
    ensures call == Request(c, endpoint, DELETE, None, options.GetOr(NoOptions), enc, codec, transport)
  {
    Request(c, endpoint, DELETE, None, options.GetOr(NoOptions), enc, codec, transport)
  }

  // ---- properties -----------------------------------------------------------

  /** The URL always starts with base URL followed by endpoint; there is no absolute-URL case. */
  lemma UrlExtendsBase(baseURL: string, endpoint: string, params: Option<seq<(string, ParamValue)>>, enc: string -> string)
    ensures baseURL + endpoint <= FinalUrl(baseURL, endpoint, params, enc)
  {
  }

  /** A `?` is appended exactly when some parameter is neither `undefined` nor `null`. */
  lemma {:induction false} QueryOnlyWhenDefined(baseURL: string, endpoint: string, ps: seq<(string, ParamValue)>, enc: string -> string)
    ensures FinalUrl(baseURL, endpoint, Some(ps), enc) == baseURL + endpoint
            <==> forall i :: 0 <= i < |ps| ==> !Defined(ps[i])
  {
    var kept := Seqs.Filter(ps, Defined);
    if forall i :: 0 <= i < |ps| ==> !Defined(ps[i]) {
      Seqs.FilterNone(ps, Defined);
    } else {
      var i :| 0 <= i < |ps| && Defined(ps[i]);
      Seqs.FilterMembership(ps, Defined, ps[i]);
      assert |kept| > 0;
      var url := FinalUrl(baseURL, endpoint, Some(ps), enc);
      assert |url| > |baseURL + endpoint|;
    }
  }

  /** The appended pairs are the defined entries, stringified, in their original order. */
  lemma KeptParamsAreDefinedEntries(ps: seq<(string, ParamValue)>)
    ensures KeptParams(Some(ps)) == Seqs.Map(Seqs.Filter(ps, Defined), Stringified)
    ensures Seqs.IsSubseq(Seqs.Filter(ps, Defined), ps)
    ensures forall p :: p in Seqs.Filter(ps, Defined) <==> p in ps && Defined(p)
  {
    Seqs.FilterIsSubseq(ps, Defined);
    forall p ensures p in Seqs.Filter(ps, Defined) <==> p in ps && Defined(p) {
      Seqs.FilterMembership(ps, Defined, p);
    }
  }

  /** Dropping the `undefined` and `null` entries beforehand does not change the URL. */
  lemma UndefinedParamsAreInvisible(baseURL: string, endpoint: string, ps: seq<(string, ParamValue)>, enc: string -> string)
    ensures FinalUrl(baseURL, endpoint, Some(Seqs.Filter(ps, Defined)), enc) == FinalUrl(baseURL, endpoint, Some(ps), enc)
  {
    Seqs.FilterIdempotent(ps, Defined);
    assert KeptParams(Some(Seqs.Filter(ps, Defined))) == KeptParams(Some(ps));
  }

  /** With no params, or only empty ones, the URL is exactly base URL plus endpoint. */
  lemma NoParamsNoQuery(baseURL: string, endpoint: string, enc: string -> string)
    ensures FinalUrl(baseURL, endpoint, None, enc) == baseURL + endpoint
    ensures FinalUrl(baseURL, endpoint, Some([]), enc) == baseURL + endpoint
  {
  }

  /** GET and DELETE never carry a body, whatever the options. */
  lemma BodilessVerbs(c: Client, endpoint: string, options: Option<RequestOptions>, enc: string -> string,
                      codec: Codec, transport: Transport)
    ensures Get(c, endpoint, options, enc, codec, transport).request.body == None
    ensures Delete(c, endpoint, options, enc, codec, transport).request.body == None
  {
  }

  /** A falsy body (null, false, 0, "") is not sent, whatever the verb. */
  lemma FalsyBodyNotSent(c: Client, endpoint: string, verb: Method, body: Json, options: RequestOptions,
                         enc: string -> string, codec: Codec, transport: Transport)
    requires !Truthy(body)
    ensures Request(c, endpoint, verb, Some(body), options, enc, codec, transport).request.body == None
  {
  }

  /** A transport that never settles ends in the timeout message, with the timer cleared. */
  lemma NeverSettlingTimesOut(c: Client, endpoint: string, verb: Method, body: Option<Json>, options: RequestOptions,
                              enc: string -> string, codec: Codec, r: FetchResult)
    ensures var call := Request(c, endpoint, verb, body, options, enc, codec, Transport(None, r));
            call.outcome == Failure("Request timeout") && call.timers[|call.timers| - 1] == Clear
  {
  }

  /** An error response, of any status, whose JSON body has a truthy `message` rejects with that message. */
  lemma ErrorBodyMessage(deadline: int, t: Transport)
    requires !TimesOut(deadline, t) && t.result.Response? && !t.result.ok
    requires t.result.body.Parsed? && t.result.body.json.JObj?
    requires "message" in t.result.body.json.fields && Truthy(t.result.body.json.fields["message"])
    ensures Settle(deadline, t) == Failure(JsString(t.result.body.json.fields["message"]))
  {
  }

  /**
   * An error response, of any status, whose body does not parse, or parses to
   * something other than `null` without a truthy `message`, rejects with the
   * status line; that line names the status.
   */
  lemma ErrorStatusLine(deadline: int, t: Transport)
    requires !TimesOut(deadline, t) && t.result.Response? && !t.result.ok && t.result.status >= 0
    requires t.result.body.Unparsable? || (!t.result.body.json.JNull? &&
               !(t.result.body.json.JObj? && "message" in t.result.body.json.fields && Truthy(t.result.body.json.fields["message"])))
    ensures Settle(deadline, t) == Failure(StatusLine(t.result.status, t.result.statusText))
    ensures Text.ParseInt(Settle(deadline, t).message[5..]) == Some(t.result.status)
  {
    StatusLineReadsStatus(t.result.status, t.result.statusText);
  }

  /** An error response whose body is the JSON `null` rejects with the TypeError of reading `message` off it. */
  lemma NullErrorBody(deadline: int, t: Transport)
    requires !TimesOut(deadline, t) && t.result.Response? && !t.result.ok && t.result.body == Parsed(JNull)
    ensures Settle(deadline, t) == Failure(NullBodyMessage)
  {
  }

  /** A non-ok response never resolves, whatever its body says. */
  lemma ErrorStatusNeverSucceeds(deadline: int, t: Transport)
    requires t.result.Response? && !t.result.ok
    ensures Settle(deadline, t).Failure?
  {
  }

  /** Any `Error` whose name is not AbortError is rethrown with its message unchanged. */
  lemma TransportErrorKeepsMessage(deadline: int, after: nat, name: string, message: string)
    requires after < TimerDelay(deadline) && name != "AbortError"
    ensures Settle(deadline, Transport(Some(after), Rejected(ErrorObject(name, message)))) == Failure(message)
  {
  }

  /** The echo round trip: a body sent through the codec and echoed back arrives unchanged. */
  lemma EchoRoundTrip(c: Client, endpoint: string, verb: Method, body: Json, options: RequestOptions,
                      enc: string -> string, codec: Codec, after: nat)
    requires Lawful(codec) && Truthy(body)
    requires after < TimerDelay(EffectiveTimeout(c, options))
    ensures var sent := Request(c, endpoint, verb, Some(body), options, enc, codec, Transport(None, Rejected(NonError))).request.body;
            sent.Some? && codec.parse(sent.value) == Some(body)
            && Request(c, endpoint, verb, Some(body), options, enc, codec,
                       Transport(Some(after), Response(true, 200, "OK", Parsed(codec.parse(sent.value).value)))).outcome
               == Success(body)
  {
  }
}

=== FILE: auth_context.dfy ===
/**
 * The session provider (src/contexts/auth-context.tsx): restore on load,
 * mock login and signup, logout, over `localStorage` as a map. The clock
 * reading behind the mock token is a parameter.
 */
module AuthContext {
  import opened Wrappers
  import opened Json
  import Text
  import Storage

  const UserKey: string := "user"
  const TokenKey: string := "token"

  /** `user` holds whatever `JSON.parse` gave back (`JNull` for null). */
  datatype AuthState = AuthState(user: Json, isLoading: bool, store: Storage.Store)

  /** The provider on mount: no user, loading, and the browser's storage. */
  function Mount(store: Storage.Store): (r: AuthState)
    ensures r.isLoading && !IsAuthenticated(r) && r.store == store
  {
    AuthState(JNull, true, store)
  }

  /** `isAuthenticated = !!user`. */
  predicate IsAuthenticated(s: AuthState): (r: bool)
    ensures r ==> !s.user.JNull?
    ensures s.user.JObj? || s.user.JArr? ==> r
  {
    Truthy(s.user)
  }

  /** `checkAuthStatus`: restore the saved user when both keys hold; a parse failure clears both. */
  function CheckAuthStatus(c: Codec, s: AuthState): (r: AuthState)
    ensures !r.isLoading
    ensures !(Storage.Holds(s.store, UserKey) && Storage.Holds(s.store, TokenKey)) ==>
              r.user == s.user && r.store == s.store
    ensures Storage.Holds(s.store, UserKey) && Storage.Holds(s.store, TokenKey) && c.parse(s.store[UserKey]).Some? ==>
              r.user == c.parse(s.store[UserKey]).value && r.store == s.store
    ensures Storage.Holds(s.store, UserKey) && Storage.Holds(s.store, TokenKey) && c.parse(s.store[UserKey]).None? ==>
              r.user == s.user && r.store == s.store - {UserKey, TokenKey}
  {
    if Storage.Holds(s.store, UserKey) && Storage.Holds(s.store, TokenKey) then
      match c.parse(s.store[UserKey])
      case Some(u) => s.(user := u, isLoading := false)
      case None => s.(isLoading := false, store := Storage.RemoveItem(Storage.RemoveItem(s.store, UserKey), TokenKey))
    else s.(isLoading := false)
  }

  /** The mock user record `{ id: '1', email, name, role: 'user' }`. */
  function MockUser(email: string, name: string): (u: Json)
    ensures Truthy(u)
    ensures GetProp(u, "email") == Value(JStr(email)) && GetProp(u, "name") == Value(JStr(name))
    ensures GetProp(u, "role") == Value(JStr("user")) && GetProp(u, "id") == Value(JStr("1"))
  {
    JObj(map["id" := JStr("1"), "email" := JStr(email), "name" := JStr(name), "role" := JStr("user")])
  }

  /** `'mock-jwt-token-' + Date.now()`. */
  function MockToken(now: nat): (t: string)
    ensures t != "" && "mock-jwt-token-" <= t
  {
    "mock-jwt-token-" + Text.NatToString(now)
  }

  /** Sign a user in: set the user and store the record and a token. */
  function Establish(c: Codec, s: AuthState, u: Json, now: nat): (r: AuthState)
    ensures r.user == u && !r.isLoading
    ensures r.store == s.store[UserKey := c.stringify(u)][TokenKey := MockToken(now)]
  {
    AuthState(u, false, s.store[UserKey := c.stringify(u)][TokenKey := MockToken(now)])
  }

  /** `login(email, password)`: succeeds iff both are non-empty; the name is the text before the first '@'. */
  function Login(c: Codec, s: AuthState, email: string, password: string, now: nat): (r: (AuthState, bool))
    ensures r.1 <==> email != "" && password != ""
    ensures !r.0.isLoading
    ensures r.1 ==> r.0 == Establish(c, s, MockUser(email, Text.Split(email, '@')[0]), now)
    ensures !r.1 ==> r.0.user == s.user && r.0.store == s.store
  {
    if email != "" && password != "" then
      (Establish(c, s, MockUser(email, Text.Split(email, '@')[0]), now), true)
    else (s.(isLoading := false), false)
  }

  /** `signup(email, password, name)`: succeeds iff all three are non-empty. */
  function Signup(c: Codec, s: AuthState, email: string, password: string, name: string, now: nat): (r: (AuthState, bool))
    ensures r.1 <==> email != "" && password != "" && name != ""
    ensures !r.0.isLoading
    ensures r.1 ==> r.0 == Establish(c, s, MockUser(email, name), now)
    ensures !r.1 ==> r.0.user == s.user && r.0.store == s.store
  {
    if email != "" && password != "" && name != "" then (Establish(c, s, MockUser(email, name), now), true)
    else (s.(isLoading := false), false)
  }

  /** `logout`: no user, and both keys gone. */
  function Logout(s: AuthState): (r: AuthState)
    ensures r.user == JNull && !IsAuthenticated(r)
    ensures UserKey !in r.store && TokenKey !in r.store
    ensures forall k :: k != UserKey && k != TokenKey ==> Storage.GetItem(r.store, k) == Storage.GetItem(s.store, k)
  {
    s.(user := JNull, store := Storage.RemoveItem(Storage.RemoveItem(s.store, UserKey), TokenKey))
  }

  /** The login name is the part of the email before the first '@': a prefix free of '@'. */
  lemma LoginNameIsEmailPrefix(c: Codec, s: AuthState, email: string, password: string, now: nat)
    requires email != "" && password != ""
    ensures var name := GetProp(Login(c, s, email, password, now).0.user, "name");
            name.Value? && name.v.JStr? && name.v.s <= email
            && (forall j :: 0 <= j < |name.v.s| ==> name.v.s[j] != '@')
            && (|name.v.s| < |email| ==> email[|name.v.s|] == '@')
  {
    Text.SplitFirst(email, '@');
  }

  /** A session survives a reload: restoring after a successful login gives back the same user. */
  lemma LoginThenRestore(c: Codec, s: AuthState, email: string, password: string, now: nat)
    requires Lawful(c)
    requires email != "" && password != ""
    ensures var after := Login(c, s, email, password, now).0;
            var restored := CheckAuthStatus(c, Mount(after.store));
            restored.user == after.user && IsAuthenticated(restored) && restored.store == after.store
  {
    var u := MockUser(email, Text.Split(email, '@')[0]);
    assert c.parse(c.stringify(u)) == Some(u) && c.stringify(u) != "";
  }

  /** The same for signup. */
  lemma SignupThenRestore(c: Codec, s: AuthState, email: string, password: string, name: string, now: nat)
    requires Lawful(c)
    requires email != "" && password != "" && name != ""
    ensures var after := Signup(c, s, email, password, name, now).0;
            var restored := CheckAuthStatus(c, Mount(after.store));
            restored.user == after.user && IsAuthenticated(restored)
  {
    var u := MockUser(email, name);
    assert c.parse(c.stringify(u)) == Some(u) && c.stringify(u) != "";
  }

  /** After logout nothing is restored on reload. */
  lemma LogoutThenRestore(c: Codec, s: AuthState)
    ensures !IsAuthenticated(CheckAuthStatus(c, Mount(Logout(s).store)))
  {
  }

  /** A failed restore leaves storage from which a second check restores nothing. */
  lemma FailedRestoreIsFinal(c: Codec, s: AuthState)
    requires Storage.Holds(s.store, UserKey) && Storage.Holds(s.store, TokenKey)
    requires c.parse(s.store[UserKey]).None?
    ensures var r := CheckAuthStatus(c, s);
            CheckAuthStatus(c, Mount(r.store)) == Mount(r.store).(isLoading := false)
  {
  }
}

=== FILE: code_editor.dfy ===
/** The code editor panel (src/app/code/components/code-editor.tsx): language, template and copy state. */
module CodeEditor {
  import opened Wrappers

  /** The language selector's values, in display order. */
  const Languages: seq<string> := ["javascript", "typescript", "python", "java", "cpp", "c", "go", "rust"]

  const FallbackCode: string := "// Your code here"

  const JavascriptTemplate: string := "function twoSum(nums, target) {\n    // Your code here\n    \n}"
  const PythonTemplate: string := "def two_sum(nums, target):\n    # Your code here\n    pass"
  const JavaTemplate: string :=
    "class Solution {\n    public int[] twoSum(int[] nums, int target) {\n        // Your code here\n        \n    }\n}"
  const CppTemplate: string :=
    "class Solution {\npublic:\n    vector<int> twoSum(vector<int>& nums, int target) {\n        // Your code here\n        \n    }\n};"

  /** The default-template table: four languages have a template. */
  function Template(language: string): (r: Option<string>)
    ensures r.Some? <==> language in {"javascript", "python", "java", "cpp"}
    ensures r.Some? ==> r.value != ""
  {
    if language == "javascript" then Some(JavascriptTemplate)
    else if language == "python" then Some(PythonTemplate)
    else if language == "java" then Some(JavaTemplate)
    else if language == "cpp" then Some(CppTemplate)
    else None
  }

  /** `TEMPLATES[language] || "// Your code here"`. */
  function StarterCode(language: string): (r: string)
    ensures Template(language).Some? ==> r == Template(language).value
    ensures Template(language).None? ==> r == FallbackCode
    ensures r != ""
  {
    Template(language).GetOr(FallbackCode)
  }

  datatype EditorState = EditorState(selectedLanguage: string, code: string, copied: bool)

  /** The state on mount. */
  function Initial(): (r: EditorState)
    ensures r.selectedLanguage == Languages[0] && r.code == StarterCode(r.selectedLanguage) && !r.copied
  {
    EditorState("javascript", JavascriptTemplate, false)
  }

  /** `handleLanguageChange(language)`: the language's starter code replaces the buffer. */
  function ChangeLanguage(st: EditorState, language: string): (r: EditorState)
    ensures r.selectedLanguage == language && r.code == StarterCode(language) && r.copied == st.copied
  {
    EditorState(language, StarterCode(language), st.copied)
  }

  /** `handleReset`: the current language's starter code, language unchanged. */
  function Reset(st: EditorState): (r: EditorState)
    ensures r.selectedLanguage == st.selectedLanguage && r.code == StarterCode(st.selectedLanguage)
    ensures r.copied == st.copied
  {
    st.(code := StarterCode(st.selectedLanguage))
  }

  /** Typing into the text area. */
  function Edit(st: EditorState, code: string): (r: EditorState)
    ensures r.code == code && r.selectedLanguage == st.selectedLanguage && r.copied == st.copied
  {
    st.(code := code)
  }

  /** `handleCopy`: the clipboard write either resolves or rejects. */
  function Copy(st: EditorState, clipboardOk: bool): (r: EditorState)
    ensures clipboardOk ==> r.copied
    ensures !clipboardOk ==> r == st
    ensures r.code == st.code && r.selectedLanguage == st.selectedLanguage
  {
    if clipboardOk then st.(copied := true) else st
  }

  /** The two-second timer after a successful copy. */
  function CopyTimerFires(st: EditorState): (r: EditorState)
    ensures !r.copied && r.code == st.code && r.selectedLanguage == st.selectedLanguage
  {
    st.(copied := false)
  }

  /** The offered languages without a template all start from the fallback line. */
  lemma UntemplatedLanguages()
    ensures forall l :: l in Languages && l !in {"javascript", "python", "java", "cpp"} ==> StarterCode(l) == FallbackCode
    ensures forall l :: l in Languages ==> (StarterCode(l) == FallbackCode <==> l in {"typescript", "c", "go", "rust"})
  {
  }

  /** Reset undoes any editing: after edits, reset gives the starter code of the last chosen language. */
  lemma ResetUndoesEdits(st: EditorState, language: string, edits: seq<string>)
    ensures Reset(EditAll(ChangeLanguage(st, language), edits)).code == StarterCode(language)
  {
    EditAllKeepsLanguage(ChangeLanguage(st, language), edits);
  }

  /** A run of edits. */
  function EditAll(st: EditorState, edits: seq<string>): EditorState
    decreases |edits|
  {
    if |edits| == 0 then st else EditAll(Edit(st, edits[0]), edits[1..])
  }

  lemma {:induction false} EditAllKeepsLanguage(st: EditorState, edits: seq<string>)
    ensures EditAll(st, edits).selectedLanguage == st.selectedLanguage
    decreases |edits|
  {
    if |edits| > 0 {
      EditAllKeepsLanguage(Edit(st, edits[0]), edits[1..]);
    }
  }
}

=== FILE: code_page.dfy ===
/** The coding page (src/app/code/page.tsx): problem selection from the `id` query parameter, shortcuts and tabs. */
module CodePage {
  import opened Wrappers
  import Text
  import Json
  import opened DashboardTypes

  const CodeTab: string := "code"
  const TestCasesTab: string := "testcases"

  datatype PageState = PageState(selectedProblem: Option<Problem>, loading: bool, activeTab: string, isRunning: bool)

  /** The state on mount. */
  function Initial(): (r: PageState)
    ensures r.selectedProblem.None? && r.loading && r.activeTab == CodeTab && !r.isRunning
  {
    PageState(None, true, CodeTab, false)
  }

  /** `problems.find(p => p.id === parseInt(problemId))`: NaN equals no id. */
  function FindProblem(problems: seq<Problem>, id: Option<int>): (r: Option<Problem>)
    ensures r.None? <==> id.None? || forall i :: 0 <= i < |problems| ==> problems[i].id != id.value
    ensures r.Some? ==> exists i :: 0 <= i < |problems| && problems[i] == r.value && r.value.id == id.value
                          && forall j :: 0 <= j < i ==> problems[j].id != id.value
  {
    if id.None? || |problems| == 0 then None
    else if problems[0].id == id.value then Some(problems[0])
    else
      var r := FindProblem(problems[1..], id);
      assert forall i :: 1 <= i < |problems| ==> problems[i] == problems[1..][i - 1];
      r
  }

  /** Whether `!problemId` fails: the query parameter `id` is present and JavaScript-truthy. */
  function HasProblemId(problemId: Option<string>): (r: bool)
    ensures r <==> problemId.Some? && Json.Truthy(Json.JStr(problemId.value))
  {
    problemId.Some? && problemId.value != ""
  }

  /**
   * The selection effect: the selection is replaced only once the list has
   * loaded and an id is given; the loading flag always follows the list's.
   */
  function SelectionEffect(st: PageState, problems: Option<seq<Problem>>, problemsLoading: bool, problemId: Option<string>): (r: PageState)
    ensures r.loading == problemsLoading && r.activeTab == st.activeTab && r.isRunning == st.isRunning
    ensures problemsLoading || problems.None? || !HasProblemId(problemId) ==> r.selectedProblem == st.selectedProblem
    ensures !problemsLoading && problems.Some? && HasProblemId(problemId) ==>
              r.selectedProblem == FindProblem(problems.value, Text.ParseInt(problemId.value))
  {
    var selected :=
      if !problemsLoading && problems.Some? && HasProblemId(problemId)
      then FindProblem(problems.value, Text.ParseInt(problemId.value))
      else st.selectedProblem;
    st.(selectedProblem := selected, loading := problemsLoading)
  }

  /** A link carrying a problem's own id in decimal selects a problem with that id, the first such one. */
  lemma RenderedIdSelects(st: PageState, problems: seq<Problem>, i: nat)
    requires i < |problems| && problems[i].id >= 0
    ensures var r := SelectionEffect(st, Some(problems), false, Some(Text.NatToString(problems[i].id)));
            r.selectedProblem.Some? && r.selectedProblem.value.id == problems[i].id
  {
    var id := problems[i].id;
    var s := Text.NatToString(id);
    Text.ParseIntNatToString(id);
    assert HasProblemId(Some(s)) && Text.ParseInt(s) == Some(id);
    var found := FindProblem(problems, Some(id));
    assert found.Some? by {
      assert problems[i].id == id;
    }
    assert SelectionEffect(st, Some(problems), false, Some(s)).selectedProblem == found;
  }

  /** A non-numeric id selects nothing. */
  lemma UnparsableIdSelectsNothing(st: PageState, problems: seq<Problem>, problemId: string)
    requires problemId != "" && Text.ParseInt(problemId).None?
    ensures SelectionEffect(st, Some(problems), false, Some(problemId)).selectedProblem.None?
  {
  }

  /** `handleRun`: the run flag goes up and the test-case tab opens. */
  function HandleRun(st: PageState): (r: PageState)
    ensures r.isRunning && r.activeTab == TestCasesTab && r.selectedProblem == st.selectedProblem
  {
    st.(isRunning := true, activeTab := TestCasesTab)
  }

  /** The simulated run ends after its timer. */
  function RunTimerFires(st: PageState): (r: PageState)
    ensures !r.isRunning && r.activeTab == st.activeTab
  {
    st.(isRunning := false)
  }

  /** `handleAddTest`: the test-case tab opens, and nothing else changes. */
  function HandleAddTest(st: PageState): (r: PageState)
    ensures r == st.(activeTab := TestCasesTab)
    ensures r.isRunning == st.isRunning
  {
    st.(activeTab := TestCasesTab)
  }

  datatype KeyEvent = KeyEvent(metaKey: bool, ctrlKey: bool, key: string)

  /** What a key press did: the new state, whether submit ran, and whether the default was prevented. */
  datatype KeyOutcome = KeyOutcome(state: PageState, submitted: bool, prevented: bool)

  /** The window `keydown` handler. */
  function HandleKeyDown(st: PageState, e: KeyEvent): (r: KeyOutcome)
    ensures r.prevented <==> (e.metaKey || e.ctrlKey) && (e.key == "'" || e.key == "Enter")
    ensures r.state != st ==> (e.metaKey || e.ctrlKey) && e.key == "'" && !st.isRunning
    ensures (e.metaKey || e.ctrlKey) && e.key == "'" && !st.isRunning ==> r.state == HandleRun(st)
    ensures r.submitted <==> (e.metaKey || e.ctrlKey) && e.key == "Enter"
  {
    var modifier := e.metaKey || e.ctrlKey;
    var runKey := modifier && e.key == "'";
    var submitKey := modifier && e.key == "Enter";
    var afterRun := if runKey && !st.isRunning then HandleRun(st) else st;
    KeyOutcome(afterRun, submitKey, runKey || submitKey)
  }

  /** The run shortcut does nothing while a run is in progress; submit answers either way. */
  lemma RunShortcutIgnoredWhileRunning(st: PageState, e: KeyEvent)
    requires st.isRunning
    ensures HandleKeyDown(st, e).state == st
    ensures HandleKeyDown(st, e).submitted == HandleKeyDown(st.(isRunning := false), e).submitted
  {
  }

  /** The page body: the notice when no id is given, else the workspace. */
  datatype Screen = NoProblemSelected | Workspace(problem: Option<Problem>, loading: bool, activeTab: string)

  function Render(st: PageState, problemId: Option<string>): (r: Screen)
    ensures r == NoProblemSelected <==> !HasProblemId(problemId)
    ensures r.Workspace? ==> r.problem == st.selectedProblem && r.loading == st.loading && r.activeTab == st.activeTab
  {
    if !HasProblemId(problemId) then NoProblemSelected
    else Workspace(st.selectedProblem, st.loading, st.activeTab)
  }
}

=== FILE: dashboard_service.dfy ===
/**
 * The dashboard service (src/api/services/dashboard.ts): in mock mode every
 * getter answers from the mock service; otherwise it calls the backend,
 * whose answers are parameters here.
 */
module DashboardService {
  import opened Wrappers
  import opened Text
  import opened DashboardTypes
  import Seqs
  import Paging
  import MockDashboard
  import ApiClient

  /** The service object's only state: whether it answers from the mock. */
  datatype Service = Service(useMock: bool)

  /** The constructor reads the mock flag from the configuration. */
  function NewService(mockEnabled: bool): (s: Service)
    ensures IsMockMode(s) == mockEnabled
  {
    Service(mockEnabled)
  }

  /** `setMockMode(enabled)`. */
  function SetMockMode(s: Service, enabled: bool): (r: Service)
    ensures IsMockMode(r) == enabled
  {
    Service(enabled)
  }

  function IsMockMode(s: Service): (r: bool)
    ensures r <==> s == Service(true)
  {
    s.useMock
  }

  /** V8's message for `p.tags[0]` when `tags` is undefined. */
  const MissingTagsMessage: string := "Cannot read properties of undefined (reading '0')"
  /** V8's message for `p.tags[0]` when `tags` is `null`. */
  const NullTagsMessage: string := "Cannot read properties of null (reading '0')"
  const InvalidFormatMessage: string := "Invalid response format: expected array of problems"

  /** `error instanceof Error ? error.message : fallback`. */
  function ErrorText(e: ApiClient.ThrownValue, fallback: string): (r: string)
    ensures e.ErrorObject? ==> r == e.message
    ensures e.NonError? ==> r == fallback
  {
    match e
    case ErrorObject(_, m) => m
    case NonError => fallback
  }

  // ---- getProblems ----------------------------------------------------------

  /** The backend's `tags` field: absent, `null`, or a list. */
  datatype BackendTags = NoTags | NullTags | Tags(list: seq<string>)

  /** A problem as the backend sends it. */
  datatype BackendProblem = BackendProblem(id: string, title: string, difficulty: string, tags: BackendTags)

  /** A transform's outcome: its value, or the message of the error it threw. */
  datatype Transformed<T> = Done(value: T) | Threw(message: string)

  /** How `getAllProblems()` settles. */
  datatype ProblemsFetch = FetchedList(items: seq<BackendProblem>) | FetchedNonArray | FetchFailed(err: ApiClient.ThrownValue)

  /** `parseInt(p.id) || 0`: NaN and 0 both give 0. */
  function IdOf(id: string): (r: int)
    ensures ParseInt(id).None? ==> r == 0
    ensures ParseInt(id).Some? ==> r == ParseInt(id).value
  {
    match ParseInt(id)
    case None => 0
    case Some(n) => n
  }

  /** The record transform: reading `tags[0]` throws a TypeError unless `tags` is a list. */
  function Transform(p: BackendProblem): (r: Transformed<Problem>)
    ensures r.Done? <==> p.tags.Tags?
    ensures p.tags.NoTags? ==> r == Threw(MissingTagsMessage)
    ensures p.tags.NullTags? ==> r == Threw(NullTagsMessage)
  {
    match p.tags
    case NoTags => Threw(MissingTagsMessage)
    case NullTags => Threw(NullTagsMessage)
    case Tags(tags) =>
      var category := if |tags| > 0 && tags[0] != "" then tags[0] else "General";
      Done(Problem(IdOf(p.id), p.title, p.difficulty, category, "unsolved", tags))
  }

  /**
   * A tagged record keeps its title, difficulty and tags, gets the parsed id
   * and the status "unsolved", and is filed under its first tag when that is
   * non-empty, else under "General".
   */
  lemma TransformFields(p: BackendProblem)
    requires p.tags.Tags?
    ensures var t := Transform(p).value;
            && t.status == "unsolved" && t.title == p.title && t.difficulty == p.difficulty
            && t.id == IdOf(p.id) && t.tags == p.tags.list
            && t.category == (if |p.tags.list| > 0 && p.tags.list[0] != "" then p.tags.list[0] else "General")
  {
  }

  /**
   * `allProblems.map(transform)`: every record transformed, or the error of the
   * first record whose tags are not a list (FirstUntaggedDecides).
   */
  function TransformAll(ps: seq<BackendProblem>): (r: Transformed<seq<Problem>>)
    ensures r.Done? <==> forall i :: 0 <= i < |ps| ==> ps[i].tags.Tags?
    ensures r.Done? ==> |r.value| == |ps| && forall i :: 0 <= i < |ps| ==> Transform(ps[i]) == Done(r.value[i])
    ensures r.Threw? ==> r.message == MissingTagsMessage || r.message == NullTagsMessage
  {
    if |ps| == 0 then Done([])
    else match Transform(ps[0])
      case Threw(m) => Threw(m)
      case Done(p) =>
        match TransformAll(ps[1..])
        case Threw(m) =>
          UntaggedInTail(ps);
          Threw(m)
        case Done(rest) =>
          DoneCons(ps, Transform, p, rest);
          Done([p] + rest)
  }

  /** An untagged record in the tail is an untagged record of the whole list. */
  lemma UntaggedInTail(ps: seq<BackendProblem>)
    requires |ps| > 0 && !(forall i :: 0 <= i < |ps| - 1 ==> ps[1..][i].tags.Tags?)
    ensures !(forall i :: 0 <= i < |ps| ==> ps[i].tags.Tags?)
  {
    var i :| 0 <= i < |ps| - 1 && !ps[1..][i].tags.Tags?;
    assert ps[i + 1] == ps[1..][i];
  }

  /** A record transform of the head followed by those of the tail, index by index. */
  lemma DoneCons(xs: seq<BackendProblem>, f: BackendProblem -> Transformed<Problem>, y: Problem, ys: seq<Problem>)
    requires |xs| > 0 && f(xs[0]) == Done(y) && |ys| == |xs| - 1
    requires forall i :: 0 <= i < |ys| ==> f(xs[1..][i]) == Done(ys[i])
    ensures forall i :: 0 <= i < |xs| ==> f(xs[i]) == Done(([y] + ys)[i])
  {
    forall i | 0 <= i < |xs| ensures f(xs[i]) == Done(([y] + ys)[i]) {
      if i > 0 {
        assert xs[i] == xs[1..][i - 1];
      }
    }
  }

  /** The first record whose tags are not a list decides the error: `undefined` and `null` tags throw different texts. */
  lemma {:induction false} FirstUntaggedDecides(items: seq<BackendProblem>, i: nat)
    requires i < |items| && !items[i].tags.Tags?
    requires forall j :: 0 <= j < i ==> items[j].tags.Tags?
    ensures TransformAll(items) == Threw(if items[i].tags.NoTags? then MissingTagsMessage else NullTagsMessage)
  {
    if i > 0 {
      assert items[0].tags.Tags?;
      FirstUntaggedDecides(items[1..], i - 1);
    }
  }

  /** `if (params.status && params.status !== "all")`: an exact comparison, no lowercasing. */
  function StatusStage(ps: seq<Problem>, q: ProblemQuery): (r: seq<Problem>)
    ensures |r| <= |ps|
    ensures forall i :: 0 <= i < |r| ==> BackendStatusOk(q, r[i])
  {
    if Given(q.status) && q.status.value != "all" then
      Seqs.Filter(ps, (p: Problem) => p.status == q.status.value)
    else ps
  }

  /** `x || d` for an optional number. */
  function OrDefault(x: Option<int>, d: int): (r: int)
    ensures r != 0 || d == 0
  {
    if x.None? || x.value == 0 then d else x.value
  }

  /** The failure envelope: an empty first page. */
  function ProblemsFailure(error: string): (r: Response<ProblemsPage>)
    ensures !r.success && r.error == Some(error)
    ensures r.data.problems == [] && r.data.totalCount == 0 && r.data.currentPage == 1
    ensures r.data.totalPages == 0 && !r.data.hasMore
  {
    Response(false, ProblemsPage([], 0, 1, 0, false), Some("Error fetching problems"), Some(error))
  }

  /** The backend's status criterion: skipped when absent or "all", else an exact comparison. */
  predicate BackendStatusOk(q: ProblemQuery, p: Problem) {
    Given(q.status) && q.status.value != "all" ==> p.status == q.status.value
  }

  /** The listed problems before paging, when the transform succeeds. */
  function FilteredBackend(ps: seq<Problem>, q: ProblemQuery): (r: seq<Problem>)
    ensures |r| <= |ps|
    ensures forall i :: 0 <= i < |r| ==> BackendStatusOk(q, r[i])
  {
    StatusStage(SharedStages(ps, q), q)
  }

  /** `getProblems(params)`: the mock's answer in mock mode, else the backend list transformed, filtered and paged. */
  function GetProblems(s: Service, catalog: seq<Problem>, q: ProblemQuery, fetch: ProblemsFetch): (r: Response<ProblemsPage>)
    requires s.useMock ==> MockDashboard.ValidQuery(q)
    ensures s.useMock ==> r == MockDashboard.GetProblems(catalog, q)
    ensures !s.useMock && fetch.FetchFailed? ==> r == ProblemsFailure(ErrorText(fetch.err, "Failed to fetch problems"))
    ensures !s.useMock && fetch.FetchedNonArray? ==> r == ProblemsFailure(InvalidFormatMessage)
    ensures !s.useMock && fetch.FetchedList? && TransformAll(fetch.items).Threw? ==>
              r == ProblemsFailure(TransformAll(fetch.items).message)
    ensures !s.useMock && r.success ==>
              r.data.currentPage == OrDefault(q.page, 1) && (r.data.hasMore <==> r.data.currentPage < r.data.totalPages)
  {
    if s.useMock then MockDashboard.GetProblems(catalog, q)
    else match fetch
      case FetchFailed(e) => ProblemsFailure(ErrorText(e, "Failed to fetch problems"))
      case FetchedNonArray => ProblemsFailure(InvalidFormatMessage)
      case FetchedList(items) =>
        match TransformAll(items)
        case Threw(m) => ProblemsFailure(m)
        case Done(ps) =>
          var page := OrDefault(q.page, 1);
          var pageSize := OrDefault(q.pageSize, 10);
          Response(true, PageOf(FilteredBackend(ps, q), page, pageSize), Some("Problems fetched successfully"), None)
  }

  /** A successful backend answer counts and pages the transformed, filtered list with defaults 1 and 10. */
  lemma BackendPage(s: Service, catalog: seq<Problem>, q: ProblemQuery, items: seq<BackendProblem>)
    requires !s.useMock && TransformAll(items).Done?
    requires OrDefault(q.page, 1) >= 1 && OrDefault(q.pageSize, 10) >= 1
    ensures var r := GetProblems(s, catalog, q, FetchedList(items));
            var list := FilteredBackend(TransformAll(items).value, q);
            r.success && r.data.totalCount == |list|
            && r.data.problems == Paging.Window(list, OrDefault(q.page, 1), OrDefault(q.pageSize, 10))
  {
    var list := FilteredBackend(TransformAll(items).value, q);
    assert GetProblems(s, catalog, q, FetchedList(items)).data == PageOf(list, OrDefault(q.page, 1), OrDefault(q.pageSize, 10));
    PageContents(list, OrDefault(q.page, 1), OrDefault(q.pageSize, 10));
  }

  /** A list whose first record without a tag list is at `i` fails with that record's TypeError text. */
  lemma UntaggedRecordFails(s: Service, catalog: seq<Problem>, q: ProblemQuery, items: seq<BackendProblem>, i: nat)
    requires !s.useMock && i < |items| && !items[i].tags.Tags?
    requires forall j :: 0 <= j < i ==> items[j].tags.Tags?
    ensures GetProblems(s, catalog, q, FetchedList(items))
         == ProblemsFailure(if items[i].tags.NoTags? then MissingTagsMessage else NullTagsMessage)
  {
    FirstUntaggedDecides(items, i);
  }

  /** The backend's stages select exactly the problems meeting the three shared criteria and its own status criterion, in order. */
  lemma FilteredBackendIsOneFilter(ps: seq<Problem>, q: ProblemQuery)
    ensures FilteredBackend(ps, q) == Seqs.Filter(ps, p => SharedOk(q, p) && BackendStatusOk(q, p))
  {
    SharedStagesAreOneFilter(ps, q);
    var shared := Seqs.Filter(ps, SharedPred(q));
    var statusPred := (p: Problem) => BackendStatusOk(q, p);
    if Given(q.status) && q.status.value != "all" {
      Seqs.FilterExt(shared, (p: Problem) => p.status == q.status.value, statusPred);
    } else {
      Seqs.FilterAll(shared, statusPred);
    }
    Seqs.FilterFilterAs(ps, SharedPred(q), statusPred, p => SharedOk(q, p) && BackendStatusOk(q, p));
  }

  /** Membership in the backend's filtered list, criterion by criterion. */
  lemma FilteredBackendMembership(ps: seq<Problem>, q: ProblemQuery, p: Problem)
    ensures p in FilteredBackend(ps, q) <==> p in ps && SharedOk(q, p) && BackendStatusOk(q, p)
  {
    FilteredBackendIsOneFilter(ps, q);
    Seqs.FilterMembership(ps, x => SharedOk(q, x) && BackendStatusOk(q, x), p);
  }

  /** Every transformed problem is "unsolved". */
  lemma TransformedAreUnsolved(items: seq<BackendProblem>)
    requires TransformAll(items).Done?
    ensures forall p | p in TransformAll(items).value :: p.status == "unsolved"
  {
    var ps := TransformAll(items).value;
    forall p | p in ps ensures p.status == "unsolved" {
      var i :| 0 <= i < |ps| && ps[i] == p;
      assert Transform(items[i]) == Done(p);
      TransformFields(items[i]);
    }
  }

  /** Over a list of "unsolved" problems, any status filter other than "all" and "unsolved" leaves nothing. */
  lemma {:induction false} OtherStatusFindsNothing(ps: seq<Problem>, q: ProblemQuery)
    requires forall p | p in ps :: p.status == "unsolved"
    requires Given(q.status) && q.status.value != "all" && q.status.value != "unsolved"
    ensures FilteredBackend(ps, q) == []
  {
    var shared := SharedStages(ps, q);
    SharedStagesAreOneFilter(ps, q);
    forall i | 0 <= i < |shared| ensures shared[i].status == "unsolved" {
      Seqs.FilterMembership(ps, SharedPred(q), shared[i]);
    }
    Seqs.FilterNone(shared, (p: Problem) => p.status == q.status.value);
  }

  /** Since every status is "unsolved", a status filter other than "all" and "unsolved" empties the list. */
  lemma ForcedStatusEmptiesOtherFilters(s: Service, catalog: seq<Problem>, q: ProblemQuery, items: seq<BackendProblem>)
    requires !s.useMock && TransformAll(items).Done?
    requires Given(q.status) && q.status.value != "all" && q.status.value != "unsolved"
    ensures var r := GetProblems(s, catalog, q, FetchedList(items));
            r.success && r.data.problems == [] && r.data.totalCount == 0 && r.data.totalPages == 0
  {
    TransformedAreUnsolved(items);
    OtherStatusFindsNothing(TransformAll(items).value, q);
  }

  /**
   * "All" as a status: the mock skips its status filter, the backend path keeps
   * only problems whose status is literally "All", so its list is empty.
   */
  lemma StatusAllDiffers(catalog: seq<Problem>, q: ProblemQuery, items: seq<BackendProblem>)
    requires q.status == Some("All")
    requires TransformAll(items).Done?
    ensures MockDashboard.Filtered(catalog, q) == MockDashboard.Filtered(catalog, q.(status := None))
    ensures FilteredBackend(TransformAll(items).value, q) == []
  {
    TransformedAreUnsolved(items);
    OtherStatusFindsNothing(TransformAll(items).value, q);
    assert SharedStages(catalog, q) == SharedStages(catalog, q.(status := None));
  }

  // ---- getDashboardStats ----------------------------------------------------

  datatype DashboardStats = DashboardStats(
    totalProblems: int, solvedProblems: int, attemptedProblems: int,
    currentStreak: int, longestStreak: int, acceptanceRate: int,
    contestRating: int, aiAnalysisScore: int, rankPosition: int)

  /** The fields of `authService.me()` the stats read; a missing rating is `None`. */
  datatype UserInfo = UserInfo(totalSolved: int, currentRating: Option<int>)

  datatype MeFetch = Me(user: UserInfo) | MeFailed(err: ApiClient.ThrownValue)

  const ZeroStats := DashboardStats(0, 0, 0, 0, 0, 0, 0, 0, 0)

  /** `getDashboardStats()`: placeholders derived from the user's solved count, or zeros on failure. */
  function GetDashboardStats(s: Service, mockStats: DashboardStats, me: MeFetch): (r: Response<DashboardStats>)
    ensures s.useMock ==> r == MockDashboard.MockResponse(mockStats, "Dashboard stats retrieved successfully")
    ensures !s.useMock ==> (r.success <==> me.Me?)
    ensures !s.useMock && me.Me? ==>
              && r.data.solvedProblems == me.user.totalSolved
              && r.data.totalProblems == me.user.totalSolved + 50
              && r.data.attemptedProblems == me.user.totalSolved + 10
              && r.data.acceptanceRate == (if me.user.totalSolved > 0 then 75 else 0)
              && r.data.currentStreak == 0 && r.data.longestStreak == 0
              && r.data.contestRating == OrDefault(me.user.currentRating, 0)
              && r.data.rankPosition == 1000 && r.data.aiAnalysisScore == 75
    ensures !s.useMock && me.MeFailed? ==>
              r.data == ZeroStats && r.error == Some(ErrorText(me.err, "Failed to fetch dashboard stats"))
  {
    if s.useMock then MockDashboard.MockResponse(mockStats, "Dashboard stats retrieved successfully")
    else match me
      case Me(u) =>
        var stats := DashboardStats(
          totalProblems := u.totalSolved + 50,
          solvedProblems := OrDefault(Some(u.totalSolved), 0),
          attemptedProblems := u.totalSolved + 10,
          currentStreak := 0, longestStreak := 0,
          acceptanceRate := if u.totalSolved > 0 then 75 else 0,
          contestRating := OrDefault(u.currentRating, 0),
          aiAnalysisScore := 75, rankPosition := 1000);
        Response(true, stats, Some("Dashboard stats fetched successfully"), None)
      case MeFailed(e) =>
        Response(false, ZeroStats, Some("Error fetching stats"), Some(ErrorText(e, "Failed to fetch dashboard stats")))
  }

  /** The acceptance rate is 75 exactly when the backend answered and some problem is solved. */
  lemma AcceptanceRatePlaceholder(s: Service, mockStats: DashboardStats, me: MeFetch)
    requires !s.useMock
    ensures GetDashboardStats(s, mockStats, me).data.acceptanceRate == 75 <==> me.Me? && me.user.totalSolved > 0
    ensures GetDashboardStats(s, mockStats, me).data.acceptanceRate in {0, 75}
  {
  }

  // ---- getRecentSubmissions -------------------------------------------------

  /** The fields of a backend submission the mapping reads; `None` for missing time or memory. */
  datatype BackendSubmission = BackendSubmission(id: string, status: string, createdAt: string, time: Option<string>, memory: Option<int>)

  datatype RecentSubmission = RecentSubmission(
    id: string, problemId: int, problemTitle: string, status: string, language: string,
    submittedAt: string, runtime: string, memory: string)

  datatype SubmissionsFetch = Listed(items: seq<BackendSubmission>) | ListFailed(err: ApiClient.ThrownValue)

  /** One submission in dashboard form. */
  function Recent(b: BackendSubmission): (r: RecentSubmission)
    ensures r.id == b.id && r.status == b.status && r.submittedAt == b.createdAt
    ensures r.runtime == (if b.time.Some? && b.time.value != "" then b.time.value else "0ms")
    ensures b.memory.None? || b.memory.value == 0 ==> r.memory == "0KB"
    ensures b.memory.Some? && b.memory.value != 0 ==> r.memory == IntToString(b.memory.value) + "KB"
  {
    RecentSubmission(
      b.id, 0, "Problem", b.status, "Unknown", b.createdAt,
      if b.time.Some? && b.time.value != "" then b.time.value else "0ms",
      if b.memory.Some? && b.memory.value != 0 then IntToString(b.memory.value) + "KB" else "0KB")
  }

  /** `getRecentSubmissions()`: the first five submissions, mapped. */
  function GetRecentSubmissions(s: Service, mockList: seq<RecentSubmission>, fetch: SubmissionsFetch): (r: Response<seq<RecentSubmission>>)
    ensures s.useMock ==> r == MockDashboard.MockResponse(mockList, "Recent submissions retrieved successfully")
    ensures !s.useMock ==> (r.success <==> fetch.Listed?)
    ensures !s.useMock && fetch.Listed? ==>
              |r.data| == Paging.Min(5, |fetch.items|)
              && forall i :: 0 <= i < |r.data| ==> r.data[i] == Recent(fetch.items[i])
    ensures !s.useMock && fetch.ListFailed? ==>
              r.data == [] && r.error == Some(ErrorText(fetch.err, "Failed to fetch submissions"))
  {
    if s.useMock then MockDashboard.MockResponse(mockList, "Recent submissions retrieved successfully")
    else match fetch
      case Listed(items) =>
        Response(true, Seqs.Map(Paging.Slice(items, 0, 5), Recent), Some("Recent submissions fetched successfully"), None)
      case ListFailed(e) =>
        Response(false, [], Some("Error fetching submissions"), Some(ErrorText(e, "Failed to fetch submissions")))
  }

  // ---- getProblemById -------------------------------------------------------

  datatype ProblemFetch = FetchedOne(p: BackendProblem) | FetchOneFailed(err: ApiClient.ThrownValue)

  /** `getProblemById(id)`: the mock's answer, or the backend record transformed. */
  function GetProblemById(s: Service, catalog: seq<Problem>, id: int, fetch: ProblemFetch): (r: Response<Option<Problem>>)
    ensures s.useMock ==> r == MockDashboard.GetProblemById(catalog, id)
    ensures !s.useMock ==> (r.success <==> fetch.FetchedOne? && fetch.p.tags.Tags?)
    ensures !s.useMock && r.success ==> r.data == Some(Transform(fetch.p).value) && r.data.value.status == "unsolved"
    ensures !s.useMock && !r.success ==> r.data.None?
    ensures !s.useMock && fetch.FetchOneFailed? ==> r.error == Some(ErrorText(fetch.err, "Failed to fetch problem"))
    ensures !s.useMock && fetch.FetchedOne? && fetch.p.tags.NoTags? ==> r.error == Some(MissingTagsMessage)
    ensures !s.useMock && fetch.FetchedOne? && fetch.p.tags.NullTags? ==> r.error == Some(NullTagsMessage)
  {
    if s.useMock then MockDashboard.GetProblemById(catalog, id)
    else match fetch
      case FetchOneFailed(e) => Response(false, None, Some("Error fetching problem"), Some(ErrorText(e, "Failed to fetch problem")))
      case FetchedOne(p) =>
        match Transform(p)
        case Threw(m) => Response(false, None, Some("Error fetching problem"), Some(m))
        case Done(t) =>
          TransformFields(p);
          Response(true, Some(t), Some("Problem fetched successfully"), None)
  }
}

=== FILE: dashboard_types.dfy ===
/**
 * The dashboard's problem records and list requests (src/api/types/dashboard.ts),
 * with the filter stages and the one-based pagination that the mock service
 * and the real service both apply.
 */
module DashboardTypes {
  import opened Wrappers
  import opened Text
  import Seqs
  import Paging

  /**
   * A dashboard problem. The declared type says `id: string`, but the mock data
   * and the real service's transform both hold numbers, so `id` is an integer here.
   */
  datatype Problem = Problem(id: int, title: string, difficulty: string, category: string, status: string, tags: seq<string>)

  /** `GetProblemsRequest`: every field optional. */
  datatype ProblemQuery = ProblemQuery(
    page: Option<int>, pageSize: Option<int>,
    category: Option<string>, difficulty: Option<string>, status: Option<string>, search: Option<string>)

  const NoQuery := ProblemQuery(None, None, None, None, None, None)

  /** `GetProblemsResponse`. */
  datatype ProblemsPage = ProblemsPage(problems: seq<Problem>, totalCount: int, currentPage: int, totalPages: int, hasMore: bool)

  /** `ApiResponse<T>` without its clock-dependent timestamp. */
  datatype Response<T> = Response(success: bool, data: T, message: Option<string>, error: Option<string>)

  /** An optional string that is truthy: present and non-empty. */
  predicate Given(s: Option<string>) {
    s.Some? && s.value != ""
  }

  /** Some tag, lowercased, contains the needle. */
  predicate SomeTagContains(tags: seq<string>, needle: string) {
    exists i :: 0 <= i < |tags| && Contains(Lower(tags[i]), needle)
  }

  /** The search criterion: the lowercased title or some lowercased tag contains the lowercased search. */
  predicate SearchOk(q: ProblemQuery, p: Problem) {
    Given(q.search) ==> Contains(Lower(p.title), Lower(q.search.value)) || SomeTagContains(p.tags, Lower(q.search.value))
  }

  /** The category criterion, skipped when absent or "All". */
  predicate CategoryOk(q: ProblemQuery, p: Problem) {
    Given(q.category) && q.category.value != "All" ==> p.category == q.category.value
  }

  /** The difficulty criterion, skipped when absent or "All". */
  predicate DifficultyOk(q: ProblemQuery, p: Problem) {
    Given(q.difficulty) && q.difficulty.value != "All" ==> p.difficulty == q.difficulty.value
  }

  /** `if (search) list = list.filter(...)`. */
  function SearchStage(ps: seq<Problem>, q: ProblemQuery): (r: seq<Problem>)
    ensures |r| <= |ps|
    ensures forall i :: 0 <= i < |r| ==> SearchOk(q, r[i])
  {
    if Given(q.search) then
      var needle := Lower(q.search.value);
      Seqs.Filter(ps, (p: Problem) => Contains(Lower(p.title), needle) || SomeTagContains(p.tags, needle))
    else ps
  }

  /** `if (category && category !== 'All') list = list.filter(...)`. */
  function CategoryStage(ps: seq<Problem>, q: ProblemQuery): (r: seq<Problem>)
    ensures |r| <= |ps|
    ensures forall i :: 0 <= i < |r| ==> CategoryOk(q, r[i])
  {
    if Given(q.category) && q.category.value != "All" then
      Seqs.Filter(ps, (p: Problem) => p.category == q.category.value)
    else ps
  }

  /** `if (difficulty && difficulty !== 'All') list = list.filter(...)`. */
  function DifficultyStage(ps: seq<Problem>, q: ProblemQuery): (r: seq<Problem>)
    ensures |r| <= |ps|
    ensures forall i :: 0 <= i < |r| ==> DifficultyOk(q, r[i])
  {
    if Given(q.difficulty) && q.difficulty.value != "All" then
      Seqs.Filter(ps, (p: Problem) => p.difficulty == q.difficulty.value)
    else ps
  }

  /** The search, category and difficulty stages in the services' order. */
  function SharedStages(ps: seq<Problem>, q: ProblemQuery): seq<Problem> {
    DifficultyStage(CategoryStage(SearchStage(ps, q), q), q)
  }

  /** The three criteria as one predicate: the reference the staged filters are measured against. */
  predicate SharedOk(q: ProblemQuery, p: Problem) {
    SearchOk(q, p) && CategoryOk(q, p) && DifficultyOk(q, p)
  }

  function SearchPred(q: ProblemQuery): Problem -> bool { p => SearchOk(q, p) }
  function CategoryPred(q: ProblemQuery): Problem -> bool { p => CategoryOk(q, p) }
  function DifficultyPred(q: ProblemQuery): Problem -> bool { p => DifficultyOk(q, p) }
  function SearchCategoryPred(q: ProblemQuery): Problem -> bool { p => SearchOk(q, p) && CategoryOk(q, p) }
  function SharedPred(q: ProblemQuery): Problem -> bool { p => SharedOk(q, p) }

  lemma SearchStageFilters(ps: seq<Problem>, q: ProblemQuery)
    ensures SearchStage(ps, q) == Seqs.Filter(ps, SearchPred(q))
  {
    if Given(q.search) {
      var needle := Lower(q.search.value);
      Seqs.FilterExt(ps, (p: Problem) => Contains(Lower(p.title), needle) || SomeTagContains(p.tags, needle), SearchPred(q));
    } else {
      Seqs.FilterAll(ps, SearchPred(q));
    }
  }

  lemma CategoryStageFilters(ps: seq<Problem>, q: ProblemQuery)
    ensures CategoryStage(ps, q) == Seqs.Filter(ps, CategoryPred(q))
  {
    if Given(q.category) && q.category.value != "All" {
      Seqs.FilterExt(ps, (p: Problem) => p.category == q.category.value, CategoryPred(q));
    } else {
      Seqs.FilterAll(ps, CategoryPred(q));
    }
  }

  lemma DifficultyStageFilters(ps: seq<Problem>, q: ProblemQuery)
    ensures DifficultyStage(ps, q) == Seqs.Filter(ps, DifficultyPred(q))
  {
    if Given(q.difficulty) && q.difficulty.value != "All" {
      Seqs.FilterExt(ps, (p: Problem) => p.difficulty == q.difficulty.value, DifficultyPred(q));
    } else {
      Seqs.FilterAll(ps, DifficultyPred(q));
    }
  }

  /** The three shared stages select exactly the problems meeting all three criteria, in input order. */
  lemma SharedStagesAreOneFilter(ps: seq<Problem>, q: ProblemQuery)
    ensures SharedStages(ps, q) == Seqs.Filter(ps, SharedPred(q))
  {
    SearchStageFilters(ps, q);
    var s1 := Seqs.Filter(ps, SearchPred(q));
    CategoryStageFilters(s1, q);
    Seqs.FilterFilterAs(ps, SearchPred(q), CategoryPred(q), SearchCategoryPred(q));
    var s2 := Seqs.Filter(ps, SearchCategoryPred(q));
    DifficultyStageFilters(s2, q);
    Seqs.FilterFilterAs(ps, SearchCategoryPred(q), DifficultyPred(q), SharedPred(q));
  }

  /** One-based page `page` of `pageSize` items: slice `[(page-1)*pageSize, page*pageSize)`. */
  function PageOf(list: seq<Problem>, page: int, pageSize: int): (r: ProblemsPage)
    requires pageSize != 0
    ensures r.totalCount == |list| && r.currentPage == page
    ensures pageSize > 0 ==> (r.totalPages - 1) * pageSize < |list| <= r.totalPages * pageSize
    ensures r.hasMore <==> page < r.totalPages
    ensures page >= 1 && pageSize > 0 ==> |r.problems| <= pageSize
  {
    var totalPages := Paging.CeilDiv(|list|, pageSize);
    var start := (page - 1) * pageSize;
    var end := start + pageSize;
    ProblemsPage(Paging.Slice(list, start, end), |list|, page, totalPages, page < totalPages)
  }

  /** Page `page` holds the items at one-based positions `(page-1)*pageSize + 1 .. page*pageSize` that exist. */
  lemma PageContents(list: seq<Problem>, page: int, pageSize: int)
    requires page >= 1 && pageSize >= 1
    ensures PageOf(list, page, pageSize).problems == Paging.Window(list, page, pageSize)
  {
    Paging.PageStep(page, pageSize);
    var start, end := (page - 1) * pageSize, page * pageSize;
    assert Paging.Clamp(start, |list|) == Paging.Min(start, |list|);
    assert Paging.Clamp(end, |list|) == Paging.Min(end, |list|);
  }

  /** One-based pages `1 .. totalPages` together hold the whole list, once each, in order. */
  lemma {:induction false} OneBasedPagesCover(list: seq<Problem>, pageSize: int)
    requires pageSize >= 1
    ensures PageOf(list, 1, pageSize).totalPages >= 0
    ensures Pages(list, pageSize, PageOf(list, 1, pageSize).totalPages) == list
  {
    var n := Paging.CeilDiv(|list|, pageSize);
    Paging.PagesCoverAll(list, pageSize);
    PagesArePaging(list, pageSize, n);
  }

  /** Pages `1 .. k` as `PageOf` returns them, concatenated. */
  function Pages(list: seq<Problem>, pageSize: int, k: nat): seq<Problem>
    requires pageSize >= 1
  {
    if k == 0 then [] else Pages(list, pageSize, k - 1) + PageOf(list, k, pageSize).problems
  }

  lemma {:induction false} PagesArePaging(list: seq<Problem>, pageSize: int, k: nat)
    requires pageSize >= 1
    ensures Pages(list, pageSize, k) == Paging.Pages(list, pageSize, k)
  {
    if k > 0 {
      PagesArePaging(list, pageSize, k - 1);
    }
  }
}

=== FILE: errors.dfy ===
/** The message a `catch` block shows for a thrown value. */
module Errors {

  /**
   * The two fields the handlers read off a thrown value: `err.response.data.message`
   * (only set on HTTP-library errors) and `err.message`. The empty string stands
   * for a missing or falsy field.
   */
  datatype Thrown = Thrown(responseMessage: string, message: string)

  /** `err?.response?.data?.message || err?.message || fallback`. */
  function Describe(e: Thrown, fallback: string): (r: string)
    ensures fallback != "" ==> r != ""
    ensures r == e.responseMessage || r == e.message || r == fallback
    ensures e.responseMessage != "" ==> r == e.responseMessage
    ensures r != e.responseMessage && r != e.message ==> e.responseMessage == "" && e.message == ""
  {
    if e.responseMessage != "" then e.responseMessage
    else if e.message != "" then e.message
    else fallback
  }

  /** `err?.message || fallback`. */
  function DescribePlain(e: Thrown, fallback: string): (r: string)
    ensures fallback != "" ==> r != ""
    ensures r == e.message || r == fallback
    ensures e.message != "" ==> r == e.message
  {
    if e.message != "" then e.message else fallback
  }
}

=== FILE: forgot_password.dfy ===
/**
 * The three-step password reset form
 * (src/app/auth/forgot-password/components/forgot-password-form-3.tsx). The
 * auth service calls are inputs: what each call would give if it is made.
 */
module ForgotPassword {
  import Errors

  datatype Step = EmailStep | OtpStep | SuccessStep

  /** Steps in the order the form moves through them. */
  function Rank(s: Step): nat {
    match s
    case EmailStep => 0
    case OtpStep => 1
    case SuccessStep => 2
  }

  datatype FormState = FormState(step: Step, isLoading: bool, error: string)

  const Initial := FormState(EmailStep, false, "")

  /** The form values; a missing optional field is "". */
  datatype Values = Values(email: string, otp: string, password: string, confirmPassword: string)

  /** The schema's refinement: when either password field is filled, the two must be equal. */
  predicate PasswordsAgree(v: Values): (r: bool)
    ensures r <==> v.password == v.confirmPassword
  {
    v.password != "" || v.confirmPassword != "" ==> v.password == v.confirmPassword
  }

  datatype CallResult = Done | Threw(err: Errors.Thrown)
  datatype VerifyResult = VerifyAnswer(verified: bool, resetToken: string) | VerifyThrew(err: Errors.Thrown)

  const DefaultError: string := "An error occurred. Please try again."
  const InvalidOtpError: string := "Invalid OTP. Please try again."

  /** The error line after a thrown call: `err?.message || default`. */
  function ThrownText(e: Errors.Thrown): string {
    Errors.DescribePlain(e, DefaultError)
  }

  /** `onSubmit(values)`: the error is cleared first and loading is off at the end. */
  function OnSubmit(st: FormState, v: Values, forgot: CallResult, verify: VerifyResult, reset: CallResult): (r: FormState)
    ensures !r.isLoading
    ensures Rank(st.step) <= Rank(r.step) <= Rank(st.step) + 1
    ensures st.step == EmailStep ==> (r.step == OtpStep <==> forgot.Done?)
    ensures st.step == EmailStep && forgot.Done? ==> r.error == ""
    ensures st.step == EmailStep && forgot.Threw? ==> r.step == EmailStep && r.error == ThrownText(forgot.err)
    ensures st.step == OtpStep ==>
              (r.step == SuccessStep <==>
                 verify.VerifyAnswer? && verify.verified && verify.resetToken != ""
                 && v.password != "" && v.confirmPassword != "" && reset.Done?)
    ensures st.step == OtpStep && verify.VerifyAnswer? && !(verify.verified && verify.resetToken != "") ==>
              r.step == OtpStep && r.error == InvalidOtpError
    ensures st.step == OtpStep && verify.VerifyAnswer? && verify.verified && verify.resetToken != ""
              && (v.password == "" || v.confirmPassword == "") ==>
              r.step == OtpStep && r.error == ""
    ensures st.step == SuccessStep ==> r == FormState(SuccessStep, false, "")
  {
    var cleared := st.(error := "", isLoading := true);
    var settled :=
      match st.step
      case EmailStep =>
        (match forgot
         case Done => cleared.(step := OtpStep)
         case Threw(e) => cleared.(error := ThrownText(e)))
      case OtpStep =>
        (match verify
         case VerifyThrew(e) => cleared.(error := ThrownText(e))
         case VerifyAnswer(verified, token) =>
           if verified && token != "" then
             if v.password != "" && v.confirmPassword != "" then
               (match reset
                case Done => cleared.(step := SuccessStep)
                case Threw(e) => cleared.(error := ThrownText(e)))
             else cleared
           else cleared.(error := InvalidOtpError))
      case SuccessStep => cleared;
    settled.(isLoading := false)
  }

  /** `handleSubmit`: the schema is checked first (`emailAccepted` stands for the email validator). */
  function HandleSubmit(st: FormState, v: Values, emailAccepted: bool, forgot: CallResult, verify: VerifyResult, reset: CallResult): (r: FormState)
    ensures !(emailAccepted && PasswordsAgree(v)) ==> r == st
    ensures emailAccepted && PasswordsAgree(v) ==> r == OnSubmit(st, v, forgot, verify, reset)
  {
    if emailAccepted && PasswordsAgree(v) then OnSubmit(st, v, forgot, verify, reset) else st
  }

  /** `handleResendOTP`: the step never changes; a failure sets the error. */
  function ResendOtp(st: FormState, forgot: CallResult): (r: FormState)
    ensures r.step == st.step && !r.isLoading
    ensures forgot.Done? ==> r.error == ""
    ensures forgot.Threw? ==> r.error == Errors.DescribePlain(forgot.err, "Failed to resend OTP")
  {
    match forgot
    case Done => st.(error := "", isLoading := false)
    case Threw(e) => st.(error := Errors.DescribePlain(e, "Failed to resend OTP"), isLoading := false)
  }

  /** A user action with the answers the service would give to it. */
  datatype Action =
    | Submit(v: Values, emailAccepted: bool, forgot: CallResult, verify: VerifyResult, reset: CallResult)
    | Resend(forgot: CallResult)

  function Apply(st: FormState, a: Action): FormState {
    match a
    case Submit(v, ok, f, ve, re) => HandleSubmit(st, v, ok, f, ve, re)
    case Resend(f) => ResendOtp(st, f)
  }

  function Run(st: FormState, actions: seq<Action>): FormState
    decreases |actions|
  {
    if |actions| == 0 then st else Run(Apply(st, actions[0]), actions[1..])
  }

  /** Over any session, the step never moves backwards, and it advances at most once per action. */
  lemma {:induction false} StepsOnlyAdvance(st: FormState, actions: seq<Action>)
    ensures Rank(st.step) <= Rank(Run(st, actions).step) <= Rank(st.step) + |actions|
    decreases |actions|
  {
    if |actions| > 0 {
      StepsOnlyAdvance(Apply(st, actions[0]), actions[1..]);
    }
  }

  /** Reaching success takes at least two submits from the start: email, then code and passwords. */
  lemma SuccessNeedsTwoActions(actions: seq<Action>)
    requires Run(Initial, actions).step == SuccessStep
    ensures |actions| >= 2
  {
    StepsOnlyAdvance(Initial, actions);
  }
}

=== FILE: hints.dfy ===
/** The hints panel (src/app/code/components/hints.tsx): the accordion entries built from a problem. */
module Hints {
  import opened Wrappers
  import Text

  const TagsTitle: string := "Topics & Tags"

  /** The two optional fields the panel reads from a problem. */
  datatype Problem = Problem(tags: Option<seq<string>>, hints: Option<seq<string>>)

  /** An entry's body: the tag list, or one hint's text. */
  datatype Content = TagList(tags: seq<string>) | HintText(text: string)

  datatype Entry = Entry(title: string, content: Content, isTags: bool)

  /** What the panel shows: the empty notice when there is no problem, else the entries. */
  datatype View = NoHints | Entries(entries: seq<Entry>)

  /** The title of the hint at zero-based `index`. */
  function HintTitle(index: nat): string {
    "Hint " + Text.NatToString(index + 1)
  }

  /** `(problem.hints || []).map((hint, index) => ...)`. */
  function HintEntries(hints: seq<string>): (r: seq<Entry>)
    ensures |r| == |hints|
    ensures forall i :: 0 <= i < |r| ==> r[i] == Entry(HintTitle(i), HintText(hints[i]), false)
  {
    seq(|hints|, i requires 0 <= i < |hints| => Entry(HintTitle(i), HintText(hints[i]), false))
  }

  /** `allHints`: the tags entry, then one entry per hint in order. */
  function AllHints(p: Problem): (r: seq<Entry>)
    ensures |r| == 1 + |p.hints.GetOr([])|
    ensures r[0] == Entry(TagsTitle, TagList(p.tags.GetOr([])), true)
    ensures forall i :: 1 <= i < |r| ==> r[i] == Entry(HintTitle(i - 1), HintText(p.hints.GetOr([])[i - 1]), false)
  {
    [Entry(TagsTitle, TagList(p.tags.GetOr([])), true)] + HintEntries(p.hints.GetOr([]))
  }

  /** The panel for an optional problem. */
  function Render(problem: Option<Problem>): (v: View)
    ensures v == NoHints <==> problem.None?
    ensures v.Entries? ==> v.entries == AllHints(problem.value)
  {
    match problem
    case None => NoHints
    case Some(p) => Entries(AllHints(p))
  }

  /**
   * The entry list is never empty, so the "no hints for this problem" branch
   * cannot show, and the tags entry is the only one marked as tags.
   */
  lemma EntriesNeverEmpty(p: Problem)
    ensures |AllHints(p)| >= 1
    ensures forall i :: 0 <= i < |AllHints(p)| ==> (AllHints(p)[i].isTags <==> i == 0)
  {
  }

  /** Hint titles are distinct: "Hint k" names exactly one position. */
  lemma {:induction false} HintTitlesDistinct(i: nat, j: nat)
    requires HintTitle(i) == HintTitle(j)
    ensures i == j
  {
    var m, n: nat := i + 1, j + 1;
    Text.PrefixCancels("Hint ", Text.NatToString(m), Text.NatToString(n));
    Text.NatToStringValue(m);
    Text.NatToStringValue(n);
  }
}

=== FILE: json.dfy ===
/**
 * JSON values as the client reads and writes them through `JSON.stringify`,
 * `JSON.parse`, JavaScript truthiness and property access.
 */
module Json {
  import opened Wrappers
  import Text

  /** A JSON value. Object key order is not modelled. */
  datatype Json =
    | JNull
    | JBool(b: bool)
    | JNum(n: int)
    | JStr(s: string)
    | JArr(items: seq<Json>)
    | JObj(fields: map<string, Json>)

  /** JavaScript truthiness: `null`, `false`, `0` and `""` are falsy, everything else is truthy. */
  predicate Truthy(j: Json) {
    match j
    case JNull => false
    case JBool(b) => b
    case JNum(n) => n != 0
    case JStr(s) => s != ""
    case _ => true
  }

  /**
   * `JSON.stringify` and `JSON.parse` as a pair of functions; `parse` gives
   * `None` where the real one throws a SyntaxError.
   */
  datatype Codec = Codec(stringify: Json -> string, parse: string -> Option<Json>)

  /** What every JSON implementation guarantees: text it wrote parses back, and it never writes "". */
  ghost predicate Lawful(c: Codec) {
    forall v :: c.parse(c.stringify(v)) == Some(v) && c.stringify(v) != ""
  }

  /** Result of reading `value.key`. */
  datatype Prop = ThrowsTypeError | Undefined | Value(v: Json)

  /** `value.key`: a TypeError on `null`, the field on an object, `undefined` on any other value. */
  function GetProp(j: Json, key: string): (r: Prop)
    ensures r.ThrowsTypeError? <==> j.JNull?
    ensures r.Value? ==> j.JObj? && key in j.fields && r.v == j.fields[key]
  {
    match j
    case JNull => ThrowsTypeError
    case JObj(m) => if key in m then Value(m[key]) else Undefined
    case _ => Undefined
  }

  /** `String(value)` for a JSON value. */
  function JsString(j: Json): string
    decreases j
  {
    match j
    case JNull => "null"
    case JBool(b) => if b then "true" else "false"
    case JNum(n) => Text.IntToString(n)
    case JStr(s) => s
    case JObj(_) => "[object Object]"
    case JArr(items) =>
      if |items| == 0 then ""
      else Text.Join(seq(|items|, i requires 0 <= i < |items| => ArrayElementString(items[i], j)), ',')
  }

  /** How `Array.prototype.join` renders one element: `null` as the empty string. */
  function ArrayElementString(e: Json, parent: Json): string
    requires e < parent
    decreases parent, 0
  {
    if e.JNull? then "" else JsString(e)
  }

  /** A string-valued record (`Record<string, string>`) as a JSON object. */
  function StringMapJson(m: map<string, string>): (r: Json)
    ensures r.JObj? && r.fields.Keys == m.Keys
  {
    JObj(map k | k in m :: JStr(m[k]))
  }

  /** The string-valued fields of a JSON object; any other value has none. */
  function StringFields(j: Json): map<string, string> {
    match j
    case JObj(m) => map k | k in m && m[k].JStr? :: m[k].s
    case _ => map[]
  }

  /** Reading the string fields back from a string record gives the record. */
  lemma StringFieldsOfStringMap(m: map<string, string>)
    ensures StringFields(StringMapJson(m)) == m
  {
  }
}

=== FILE: login_form.dfy ===
/** The sign-in form (src/app/auth/sign-in/components/login-form-3.tsx). */
module LoginForm {
  import opened Wrappers
  import Json
  import Text
  import Storage
  import Errors
  import RoleRedirect
  import AuthContext

  datatype Values = Values(email: string, password: string)

  /** The schema; `emailAccepted` stands for the library email validator. */
  predicate SchemaOk(v: Values, emailAccepted: bool): (r: bool)
    ensures r ==> emailAccepted && v.password != ""
  {
    emailAccepted && |v.password| >= 1
  }

  datatype LoginAnswer = Answered(success: bool) | LoginThrew(err: Errors.Thrown)

  datatype Outcome = NotSubmitted | Navigated(path: string) | LoginFailed(description: string)

  const FailedDescription: string := "Invalid email or password. Please try again."
  const DefaultError: string := "An error occurred during login. Please try again."

  /**
   * `onSubmit`: the provider's answer, then the role redirect from the storage
   * it left behind. The result pairs the outcome with `isSubmitting`, which is
   * false on every exit.
   */
  function OnSubmit(answer: LoginAnswer, c: Json.Codec, store: Storage.Store, syntaxError: string): (r: (Outcome, bool))
    ensures !r.1
    ensures answer == Answered(false) ==> r.0 == LoginFailed(FailedDescription)
    ensures answer.LoginThrew? ==> r.0 == LoginFailed(Errors.Describe(answer.err, DefaultError))
    ensures r.0.Navigated? <==> answer == Answered(true) && RoleRedirect.AfterAuth(c, store, syntaxError).Navigate?
    ensures answer == Answered(true) && !Storage.Holds(store, "user") ==> r.0 == Navigated(RoleRedirect.UserDashboard)
  {
    var outcome :=
      match answer
      case LoginThrew(e) => LoginFailed(Errors.Describe(e, DefaultError))
      case Answered(false) => LoginFailed(FailedDescription)
      case Answered(true) =>
        match RoleRedirect.AfterAuth(c, store, syntaxError)
        case Navigate(p) => Navigated(p)
        case Threw(e) => LoginFailed(Errors.Describe(e, DefaultError));
    (outcome, false)
  }

  /** `form.handleSubmit(onSubmit)`: the schema first. */
  function HandleSubmit(v: Values, emailAccepted: bool, answer: LoginAnswer, c: Json.Codec, store: Storage.Store, syntaxError: string): (r: (Outcome, bool))
    ensures !SchemaOk(v, emailAccepted) ==> r == (NotSubmitted, false)
    ensures SchemaOk(v, emailAccepted) ==> r == OnSubmit(answer, c, store, syntaxError)
  {
    if SchemaOk(v, emailAccepted) then OnSubmit(answer, c, store, syntaxError) else (NotSubmitted, false)
  }

  /**
   * Against the provider in this repository, every valid sign-in lands on the
   * user dashboard: the mock user it stores has role "user".
   */
  lemma ProviderLoginGoesToUserDashboard(c: Json.Codec, s: AuthContext.AuthState, v: Values, now: nat, syntaxError: string)
    requires Json.Lawful(c)
    requires SchemaOk(v, true) && v.email != ""
    ensures var (after, ok) := AuthContext.Login(c, s, v.email, v.password, now);
            HandleSubmit(v, true, Answered(ok), c, after.store, syntaxError).0 == Navigated(RoleRedirect.UserDashboard)
  {
    var (after, ok) := AuthContext.Login(c, s, v.email, v.password, now);
    var u := AuthContext.MockUser(v.email, Text.Split(v.email, '@')[0]);
    RoleRedirect.SavedRoleDecides(c, after.store, u, syntaxError);
  }
}

=== FILE: mock_dashboard.dfy ===
/**
 * The in-memory dashboard service (src/api/mock/dashboard-service.ts). The
 * generated problem catalogue is a parameter; the artificial delay is not modelled.
 */
module MockDashboard {
  import opened Wrappers
  import opened Text
  import opened DashboardTypes
  import Seqs
  import Paging

  /** `createMockResponse(data, message)`: always a success. */
  function MockResponse<T>(data: T, message: string): (r: Response<T>)
    ensures r.success && r.data == data && r.error.None?
  {
    Response(true, data, Some(message), None)
  }

  /** The status criterion: skipped when absent or "All", else compared with the lowercased value. */
  predicate StatusOk(q: ProblemQuery, p: Problem) {
    Given(q.status) && q.status.value != "All" ==> p.status == Lower(q.status.value)
  }

  /** `if (status && status !== 'All') list = list.filter(p => p.status === status.toLowerCase())`. */
  function StatusStage(ps: seq<Problem>, q: ProblemQuery): (r: seq<Problem>)
    ensures |r| <= |ps|
    ensures forall i :: 0 <= i < |r| ==> StatusOk(q, r[i])
  {
    if Given(q.status) && q.status.value != "All" then
      var wanted := Lower(q.status.value);
      Seqs.Filter(ps, (p: Problem) => p.status == wanted)
    else ps
  }

  /** All four stages in order. */
  function Filtered(catalog: seq<Problem>, q: ProblemQuery): (r: seq<Problem>)
    ensures |r| <= |catalog|
    ensures forall i :: 0 <= i < |r| ==> StatusOk(q, r[i])
  {
    StatusStage(SharedStages(catalog, q), q)
  }

  /** A request the mock can answer: `pageSize` 0 would divide by zero. */
  predicate ValidQuery(q: ProblemQuery) {
    q.pageSize.None? || q.pageSize.value != 0
  }

  /** `getProblems(params)`: defaults only for missing `page` and `pageSize`. */
  function GetProblems(catalog: seq<Problem>, q: ProblemQuery): (r: Response<ProblemsPage>)
    requires ValidQuery(q)
    ensures r.success && r.error.None?
    ensures r.data.currentPage == q.page.GetOr(1)
    ensures r.data.totalCount == |Filtered(catalog, q)|
    ensures r.data.hasMore <==> r.data.currentPage < r.data.totalPages
    ensures r.message == Some("Retrieved " + NatToString(|r.data.problems|) + " problems")
  {
    var page := q.page.GetOr(1);
    var pageSize := q.pageSize.GetOr(10);
    var data := PageOf(Filtered(catalog, q), page, pageSize);
    MockResponse(data, "Retrieved " + NatToString(|data.problems|) + " problems")
  }

  /** The mock's four criteria as one predicate. */
  predicate Selected(q: ProblemQuery, p: Problem) {
    SharedOk(q, p) && StatusOk(q, p)
  }

  /** The listed problems are exactly the catalogue entries meeting every criterion, in catalogue order. */
  lemma FilteredIsOneFilter(catalog: seq<Problem>, q: ProblemQuery)
    ensures Filtered(catalog, q) == Seqs.Filter(catalog, p => Selected(q, p))
  {
    SharedStagesAreOneFilter(catalog, q);
    var s := Seqs.Filter(catalog, SharedPred(q));
    var statusPred := (p: Problem) => StatusOk(q, p);
    if Given(q.status) && q.status.value != "All" {
      var wanted := Lower(q.status.value);
      Seqs.FilterExt(s, (p: Problem) => p.status == wanted, statusPred);
    } else {
      Seqs.FilterAll(s, statusPred);
    }
    Seqs.FilterFilterAs(catalog, SharedPred(q), statusPred, p => Selected(q, p));
  }

  /** Membership in the filtered list, criterion by criterion. */
  lemma FilteredMembership(catalog: seq<Problem>, q: ProblemQuery, p: Problem)
    ensures p in Filtered(catalog, q) <==>
              && p in catalog
              && (Given(q.search) ==> Contains(Lower(p.title), Lower(q.search.value)) || SomeTagContains(p.tags, Lower(q.search.value)))
              && (Given(q.category) && q.category.value != "All" ==> p.category == q.category.value)
              && (Given(q.difficulty) && q.difficulty.value != "All" ==> p.difficulty == q.difficulty.value)
              && (Given(q.status) && q.status.value != "All" ==> p.status == Lower(q.status.value))
  {
    FilteredIsOneFilter(catalog, q);
    Seqs.FilterMembership(catalog, x => Selected(q, x), p);
  }

  /** Page `page` of a valid request is the `page`-th run of `pageSize` filtered problems. */
  lemma GetProblemsPage(catalog: seq<Problem>, q: ProblemQuery)
    requires ValidQuery(q) && q.page.GetOr(1) >= 1 && q.pageSize.GetOr(10) >= 1
    ensures var page := q.page.GetOr(1);
            var size := q.pageSize.GetOr(10);
            var list := Filtered(catalog, q);
            var r := GetProblems(catalog, q).data;
            |r.problems| <= size && r.problems == Paging.Window(list, page, size)
  {
    var page := q.page.GetOr(1);
    var size := q.pageSize.GetOr(10);
    var list := Filtered(catalog, q);
    assert GetProblems(catalog, q).data == PageOf(list, page, size);
    PageContents(list, page, size);
  }

  /** An empty request asks for page 1 of 10 of the whole catalogue. */
  lemma DefaultRequest(catalog: seq<Problem>)
    ensures var r := GetProblems(catalog, NoQuery).data;
            r.currentPage == 1 && r.totalCount == |catalog| && r.problems == catalog[..if |catalog| < 10 then |catalog| else 10]
  {
    FilteredIsOneFilter(catalog, NoQuery);
    Seqs.FilterAll(catalog, p => Selected(NoQuery, p));
    PageContents(catalog, 1, 10);
  }

  /** `allMockProblems.find(p => p.id === id)`: the first entry with that id. */
  function FindById(catalog: seq<Problem>, id: int): (r: Option<Problem>)
    ensures r.None? <==> forall i :: 0 <= i < |catalog| ==> catalog[i].id != id
    ensures r.Some? ==> exists i :: 0 <= i < |catalog| && catalog[i] == r.value && r.value.id == id
                          && forall j :: 0 <= j < i ==> catalog[j].id != id
  {
    if |catalog| == 0 then None
    else if catalog[0].id == id then Some(catalog[0])
    else
      var r := FindById(catalog[1..], id);
      if r.Some? then
        var i :| 0 <= i < |catalog| - 1 && catalog[1..][i] == r.value && r.value.id == id
               && forall j :: 0 <= j < i ==> catalog[1..][j].id != id;
        assert catalog[i + 1] == r.value;
        r
      else r
  }

  /** `getProblemById(id)`: a failure envelope exactly when no problem has that id. */
  function GetProblemById(catalog: seq<Problem>, id: int): (r: Response<Option<Problem>>)
    ensures !r.success <==> forall i :: 0 <= i < |catalog| ==> catalog[i].id != id
    ensures !r.success ==> r.data.None? && r.error == Some("Problem not found")
    ensures r.success ==> r.data.Some? && r.data.value in catalog && r.data.value.id == id && r.error.None?
  {
    match FindById(catalog, id)
    case None => Response(false, None, None, Some("Problem not found"))
    case Some(p) => MockResponse(Some(p), "Problem retrieved successfully")
  }
}

=== FILE: paging.dfy ===
/** `Array.prototype.slice` and `Math.ceil` of a division, as the list views use them. */
module Paging {

  /** A slice position made absolute: negative counts from the end, then clamped to `[0, len]`. */
  function Clamp(i: int, len: nat): (r: nat)
    ensures r <= len
    ensures 0 <= i <= len ==> r == i
  {
    if i < 0 then (if len + i < 0 then 0 else len + i)
    else if i > len then len
    else i
  }

  /** `s.slice(start, end)`. */
  function Slice<T>(s: seq<T>, start: int, end: int): (r: seq<T>)
    ensures |r| <= |s|
    ensures 0 <= start <= end ==> |r| <= end - start
    ensures 0 <= start <= end <= |s| ==> r == s[start..end]
  {
    var a := Clamp(start, |s|);
    var b := Clamp(end, |s|);
    if a < b then s[a..b] else []
  }

  /** `Math.ceil(a / b)` for a non-zero integer divisor. */
  function CeilDiv(a: int, b: int): (r: int)
    requires b != 0
    ensures b > 0 ==> (r - 1) * b < a <= r * b
    ensures b > 0 && a >= 0 ==> r >= 0
  {
    if b > 0 then -((-a) / b) else -(a / (-b))
  }

  function Min(a: int, b: int): int {
    if a <= b then a else b
  }

  /** The pages `0 .. k-1` of `size` elements each (page `i` is `slice(i*size, i*size + size)`), concatenated. */
  function Pages<T>(s: seq<T>, size: int, k: nat): seq<T> {
    if k == 0 then [] else Pages(s, size, k - 1) + Slice(s, (k - 1) * size, (k - 1) * size + size)
  }

  /** Consecutive pages start `size` apart. */
  lemma PageStep(k: nat, size: int)
    requires k > 0 && size >= 1
    ensures 0 <= (k - 1) * size && (k - 1) * size + size == k * size
  {
  }

  /** The elements before `a`, then those from `a` to `m`, are the elements before `m`. */
  lemma JoinAt<T>(s: seq<T>, a: nat, m: nat)
    requires a <= m <= |s|
    ensures s[..a] + s[a..m] == s[..m]
  {
    assert forall i | 0 <= i < m :: (s[..a] + s[a..m])[i] == s[i];
  }

  /** Adding page `k - 1` to the first `k - 1` pages extends the prefix by one page. */
  lemma PagesStep<T>(s: seq<T>, size: int, k: nat)
    requires size >= 1 && k > 0
    requires Pages(s, size, k - 1) == s[..Min((k - 1) * size, |s|)]
    ensures Pages(s, size, k) == s[..Min(k * size, |s|)]
  {
    var a, b := (k - 1) * size, k * size;
    PageStep(k, size);
    var prev, page := Pages(s, size, k - 1), Slice(s, a, a + size);
    assert Pages(s, size, k) == prev + page;
    if a < |s| {
      assert prev == s[..a] && page == s[a..Min(b, |s|)];
      JoinAt(s, a, Min(b, |s|));
    } else {
      assert prev == s[..|s|] && page == [];
      assert Min(b, |s|) == |s|;
      assert prev + page == prev;
    }
  }

  /** The first `k` pages are exactly the first `k * size` elements (or all of them). */
  lemma {:induction false} PagesPrefix<T>(s: seq<T>, size: int, k: nat)
    requires size >= 1
    ensures Pages(s, size, k) == s[..Min(k * size, |s|)]
  {
    if k > 0 {
      PagesPrefix(s, size, k - 1);
      PagesStep(s, size, k);
    }
  }

  /** Concatenating pages `0 .. ceil(|s| / size) - 1` gives back the whole list. */
  lemma PagesCoverAll<T>(s: seq<T>, size: int)
    requires size >= 1
    ensures CeilDiv(|s|, size) >= 0
    ensures Pages(s, size, CeilDiv(|s|, size)) == s
  {
    var n := CeilDiv(|s|, size);
    PagesPrefix(s, size, n);
    assert Min(n * size, |s|) == |s|;
  }

  /** The items at one-based positions `(page-1)*size + 1 .. page*size` that exist. */
  function Window<T>(s: seq<T>, page: int, size: int): (r: seq<T>)
    requires page >= 1 && size >= 1
    ensures |r| <= size
  {
    var lo := (page - 1) * size;
    assert lo + size == page * size;
    assert 0 <= lo;
    s[Min(lo, |s|)..Min(page * size, |s|)]
  }

  /** A window holds `min(page*size, |s|) - (page-1)*size` items, or none when it starts past the end. */
  lemma WindowLength<T>(s: seq<T>, page: int, size: int)
    requires page >= 1 && size >= 1
    ensures var n := Min(page * size, |s|) - (page - 1) * size;
            |Window(s, page, size)| == if n < 0 then 0 else n
  {
    var lo := (page - 1) * size;
    assert lo + size == page * size;
  }
}

=== FILE: problem_set.dfy ===
/**
 * The problem table's filter and pager state (src/app/dashboard/components/problem-set.tsx).
 * The fetched page arrives from the dashboard service; clicks on disabled
 * buttons are not delivered, so they change nothing.
 */
module ProblemSet {
  import opened Wrappers
  import opened Text
  import opened DashboardTypes
  import Seqs
  import Paging
  import MockDashboard
  import DashboardService

  const Statuses: seq<string> := ["All", "Solved", "Attempted", "Unsolved"]
  const PageSizeOptions: seq<int> := [5, 10, 20, 50]

  datatype ViewState = ViewState(
    searchTerm: string, category: string, difficulty: string, status: string, currentPage: int, pageSize: int)

  const Initial := ViewState("", "All", "All", "All", 1, 10)

  /** The request sent for the current state: empty search and "All" become absent, status is lowercased. */
  function ToQuery(v: ViewState): (q: ProblemQuery)
    ensures q.page == Some(v.currentPage) && q.pageSize == Some(v.pageSize)
    ensures q.search.None? <==> v.searchTerm == ""
    ensures q.search.Some? ==> q.search.value == v.searchTerm
    ensures q.category.None? <==> v.category == "All"
    ensures q.category.Some? ==> q.category.value == v.category
    ensures q.difficulty.None? <==> v.difficulty == "All"
    ensures q.difficulty.Some? ==> q.difficulty.value == v.difficulty
    ensures q.status.None? <==> v.status == "All"
    ensures q.status.Some? ==> q.status.value == Lower(v.status)
  {
    ProblemQuery(
      page := Some(v.currentPage),
      pageSize := Some(v.pageSize),
      category := if v.category != "All" then Some(v.category) else None,
      difficulty := if v.difficulty != "All" then Some(v.difficulty) else None,
      status := if v.status != "All" then Some(Lower(v.status)) else None,
      search := if v.searchTerm != "" then Some(v.searchTerm) else None)
  }

  datatype Event =
    | SearchTyped(term: string)
    | CategoryChosen(category: string)
    | DifficultyChosen(difficulty: string)
    | StatusChosen(status: string)
    | PageSizeChosen(size: int)
    | FirstPage | PreviousPage | NextPage | LastPage

  predicate FirstPrevDisabled(v: ViewState) {
    v.currentPage <= 1
  }

  predicate NextLastDisabled(v: ViewState, totalPages: int) {
    v.currentPage >= totalPages
  }

  function Max(a: int, b: int): int {
    if a >= b then a else b
  }

  /** One event against the current state, given the `totalPages` of the page on screen. */
  function Step(v: ViewState, e: Event, totalPages: int): (r: ViewState)
    ensures e.SearchTyped? || e.CategoryChosen? || e.DifficultyChosen? || e.StatusChosen? || e.PageSizeChosen? ==>
              r.currentPage == 1
    ensures e.FirstPage? || e.PreviousPage? || e.NextPage? || e.LastPage? ==>
              r == v.(currentPage := r.currentPage)
    ensures (e.FirstPage? || e.PreviousPage?) && FirstPrevDisabled(v) ==> r == v
    ensures (e.NextPage? || e.LastPage?) && NextLastDisabled(v, totalPages) ==> r == v
  {
    match e
    case SearchTyped(t) => v.(searchTerm := t, currentPage := 1)
    case CategoryChosen(c) => v.(category := c, currentPage := 1)
    case DifficultyChosen(d) => v.(difficulty := d, currentPage := 1)
    case StatusChosen(s) => v.(status := s, currentPage := 1)
    case PageSizeChosen(n) => v.(pageSize := n, currentPage := 1)
    case FirstPage => if FirstPrevDisabled(v) then v else v.(currentPage := 1)
    case PreviousPage => if FirstPrevDisabled(v) then v else v.(currentPage := Max(1, v.currentPage - 1))
    case NextPage => if NextLastDisabled(v, totalPages) then v else v.(currentPage := v.currentPage + 1)
    case LastPage => if NextLastDisabled(v, totalPages) then v else v.(currentPage := totalPages)
  }

  /** The page stays between 1 and the last page (or is 1 when there are no pages). */
  predicate PageInRange(v: ViewState, totalPages: int) {
    1 <= v.currentPage && (v.currentPage <= totalPages || v.currentPage == 1)
  }

  /** With the page count fixed, no event takes the page out of range; the initial state starts in range. */
  lemma StepKeepsPageInRange(v: ViewState, e: Event, totalPages: int)
    requires PageInRange(v, totalPages)
    ensures PageInRange(Step(v, e, totalPages), totalPages)
    ensures PageInRange(Initial, totalPages)
  {
  }

  /** Previous and next move by exactly one page when enabled, and first and last reach the ends. */
  lemma NavigationMoves(v: ViewState, totalPages: int)
    ensures !FirstPrevDisabled(v) ==> Step(v, PreviousPage, totalPages).currentPage == v.currentPage - 1
    ensures !FirstPrevDisabled(v) ==> Step(v, FirstPage, totalPages).currentPage == 1
    ensures !NextLastDisabled(v, totalPages) ==> Step(v, NextPage, totalPages).currentPage == v.currentPage + 1
    ensures !NextLastDisabled(v, totalPages) ==> Step(v, LastPage, totalPages).currentPage == totalPages
  {
  }

  /** The first item number of "Showing X to Y of N". */
  function ShowingFrom(v: ViewState): (r: int)
    ensures v.currentPage >= 1 && v.pageSize >= 1 ==> r >= 1
  {
    (v.currentPage - 1) * v.pageSize + 1
  }

  /** The last item number of "Showing X to Y of N". */
  function ShowingTo(v: ViewState, totalCount: int): (r: int)
    ensures r <= totalCount && r <= v.currentPage * v.pageSize
    ensures r == totalCount || r == v.currentPage * v.pageSize
  {
    Paging.Min(v.currentPage * v.pageSize, totalCount)
  }

  /** While the count reaches past the earlier pages, a page's range starts right after the previous page's range ends. */
  lemma RangesAdjoin(v: ViewState, totalCount: int)
    requires totalCount >= (v.currentPage - 1) * v.pageSize
    ensures ShowingFrom(v) == ShowingTo(v.(currentPage := v.currentPage - 1), totalCount) + 1
  {
  }

  /** The displayed range counts exactly the problems the mock service returns for the same state. */
  lemma RangeMatchesPage(catalog: seq<Problem>, v: ViewState)
    requires v.currentPage >= 1 && v.pageSize >= 1
    ensures var data := MockDashboard.GetProblems(catalog, ToQuery(v)).data;
            |data.problems| == Max(0, ShowingTo(v, data.totalCount) - ShowingFrom(v) + 1)
  {
    var q := ToQuery(v);
    MockDashboard.GetProblemsPage(catalog, q);
    Paging.WindowLength(MockDashboard.Filtered(catalog, q), v.currentPage, v.pageSize);
  }

  /** Every page size the selector offers is positive, so each offered size yields whole pages the range line counts. */
  lemma OfferedPageSizesArePositive(catalog: seq<Problem>, v: ViewState)
    requires v.pageSize in PageSizeOptions && v.currentPage >= 1
    ensures v.pageSize >= 1
    ensures var data := MockDashboard.GetProblems(catalog, ToQuery(v)).data;
            |data.problems| <= v.pageSize
            && |data.problems| == Max(0, ShowingTo(v, data.totalCount) - ShowingFrom(v) + 1)
  {
    RangeMatchesPage(catalog, v);
  }

  /** A lower-case status other than "all" passes both status stages alike. */
  lemma StatusStagesAgree(ps: seq<Problem>, q: ProblemQuery)
    requires q.status.Some? && Lower(q.status.value) == q.status.value && q.status.value != "all"
    ensures MockDashboard.StatusStage(ps, q) == DashboardService.StatusStage(ps, q)
  {
    var s := q.status.value;
    assert s != "All" by {
      if |s| == 3 {
        assert s[0] == Lower(s)[0] == LowerChar(s[0]) != 'A';
      }
    }
    Seqs.FilterExt(ps, (p: Problem) => p.status == Lower(s), (p: Problem) => p.status == s);
  }

  /** For the statuses the select offers, the mock and backend status filters keep the same problems. */
  lemma OfferedStatusesFilterAlike(ps: seq<Problem>, v: ViewState)
    requires v.status in Statuses
    ensures MockDashboard.StatusStage(ps, ToQuery(v)) == DashboardService.StatusStage(ps, ToQuery(v))
  {
    if v.status != "All" {
      LowerIdempotent(v.status);
      StatusStagesAgree(ps, ToQuery(v));
    }
  }

  datatype EmptyNotice = NoProblemsFound | NoProblemsOnPage | NoNotice

  /**
   * The two empty-state notices. The first condition parses as
   * `!problems || (problems.length === 0 && totalCount === 0 && notice)`, so a
   * missing list renders the bare `true`, which shows nothing.
   */
  function Notice(problems: Option<seq<Problem>>, totalCount: int): (r: EmptyNotice)
    ensures r == NoProblemsFound <==> problems.Some? && |problems.value| == 0 && totalCount == 0
    ensures r == NoProblemsOnPage <==> problems.Some? && |problems.value| == 0 && totalCount > 0
  {
    if problems.None? then NoNotice
    else if |problems.value| == 0 && totalCount == 0 then NoProblemsFound
    else if |problems.value| == 0 && totalCount > 0 then NoProblemsOnPage
    else NoNotice
  }

  /** With no list at all and nothing counted, the page shows no empty-state notice. */
  lemma MissingListShowsNothing(totalCount: int)
    ensures Notice(None, totalCount) == NoNotice
  {
  }

  /**
   * The notices with the first condition read as
   * `(!problems || problems.length === 0) && totalCount === 0`.
   */
  function IntendedNotice(problems: Option<seq<Problem>>, totalCount: int): (r: EmptyNotice)
    ensures r == NoProblemsFound <==> (problems.None? || |problems.value| == 0) && totalCount == 0
    ensures r == NoProblemsOnPage <==> problems.Some? && |problems.value| == 0 && totalCount > 0
  {
    if (problems.None? || |problems.value| == 0) && totalCount == 0 then NoProblemsFound
    else if problems.Some? && |problems.value| == 0 && totalCount > 0 then NoProblemsOnPage
    else NoNotice
  }

  /** The two readings differ exactly on a missing list with a zero count. */
  lemma NoticeReadingsDiffer(problems: Option<seq<Problem>>, totalCount: int)
    ensures Notice(problems, totalCount) != IntendedNotice(problems, totalCount) <==> problems.None? && totalCount == 0
  {
  }
}

=== FILE: problem_statement.dfy ===
/** The problem statement panel (src/app/code/components/problem-statement.tsx): what it renders and which tab is active. */
module ProblemStatement {
  import opened Wrappers

  const DescriptionTab: string := "description"

  /** The panel's outermost choice; `P` is whatever problem record the caller passes. */
  datatype Screen<P> = Skeleton | ErrorCard(message: string) | NotFound | Content(problem: P, activeTab: string)

  /** Whether `error` is truthy. */
  predicate HasError(error: Option<string>) {
    error.Some? && error.value != ""
  }

  /** `externalActiveTab || internalActiveTab`. */
  function ActiveTab(external: Option<string>, internal: string): (r: string)
    ensures external.Some? && external.value != "" ==> r == external.value
    ensures external.None? || external.value == "" ==> r == internal
  {
    if external.Some? && external.value != "" then external.value else internal
  }

  /** Loading, then error, then a missing problem, and only then the statement. */
  function Render<P>(problem: Option<P>, loading: bool, error: Option<string>, external: Option<string>, internal: string): (r: Screen<P>)
    ensures r.Skeleton? <==> loading
    ensures r.ErrorCard? <==> !loading && HasError(error)
    ensures r.ErrorCard? ==> r.message == error.value
    ensures r.NotFound? <==> !loading && !HasError(error) && problem.None?
    ensures r.Content? <==> !loading && !HasError(error) && problem.Some?
    ensures r.Content? ==> r.problem == problem.value && r.activeTab == ActiveTab(external, internal)
  {
    if loading then Skeleton
    else if HasError(error) then ErrorCard(error.value)
    else if problem.None? then NotFound
    else Content(problem.value, ActiveTab(external, internal))
  }

  /** `handleTabChange(value)`: the new internal tab, and the value handed to `onTabChange` if one was supplied. */
  function HandleTabChange(internal: string, hasOnTabChange: bool, value: string): (r: (string, Option<string>))
    ensures hasOnTabChange ==> r.0 == internal && r.1 == Some(value)
    ensures !hasOnTabChange ==> r.0 == value && r.1.None?
  {
    if hasOnTabChange then (internal, Some(value)) else (value, None)
  }

  /** Uncontrolled, a tab click becomes the active tab; controlled, the shown tab waits for the parent. */
  lemma TabChangeShows(external: Option<string>, internal: string, hasOnTabChange: bool, value: string)
    requires value != ""
    ensures !hasOnTabChange && (external.None? || external.value == "") ==>
              ActiveTab(external, HandleTabChange(internal, hasOnTabChange, value).0) == value
    ensures hasOnTabChange ==>
              ActiveTab(external, HandleTabChange(internal, hasOnTabChange, value).0) == ActiveTab(external, internal)
  {
  }

  /** `getDifficultyColor`: badge classes for the three difficulties, `undefined` for anything else. */
  function DifficultyColor(difficulty: string): (r: Option<string>)
    ensures r.Some? <==> difficulty in {"Easy", "Medium", "Hard"}
  {
    if difficulty == "Easy" then Some("bg-green-100 text-green-700 dark:bg-green-900/30 dark:text-green-400")
    else if difficulty == "Medium" then Some("bg-yellow-100 text-yellow-700 dark:bg-yellow-900/30 dark:text-yellow-400")
    else if difficulty == "Hard" then Some("bg-red-100 text-red-700 dark:bg-red-900/30 dark:text-red-400")
    else None
  }

  /** The three difficulties get three different colours. */
  lemma DifficultyColorsDistinct()
    ensures DifficultyColor("Easy") != DifficultyColor("Medium")
    ensures DifficultyColor("Medium") != DifficultyColor("Hard")
    ensures DifficultyColor("Easy") != DifficultyColor("Hard")
  {
  }
}

=== FILE: problem_utils.dfy ===
/**
 * Client-side filtering and zero-based pagination of the problem table
 * (src/app/dashboard/utils/problem-utils.ts).
 */
module ProblemUtils {
  import opened Text
  import Seqs
  import Paging

  /** The fields of the dashboard schema's problem that filtering reads; difficulty and status as their strings. */
  datatype Problem = Problem(id: int, title: string, difficulty: string, category: string, status: string)

  /** The four criteria of `filterProblems`, conjoined. */
  predicate Matches(p: Problem, searchTerm: string, category: string, difficulty: string, status: string) {
    && Contains(Lower(p.title), Lower(searchTerm))
    && (category == "All" || p.category == category)
    && (difficulty == "All" || p.difficulty == difficulty)
    && (status == "All" || p.status == Lower(status))
  }

  /** `filterProblems`. */
  function FilterProblems(problems: seq<Problem>, searchTerm: string, category: string, difficulty: string, status: string): (r: seq<Problem>)
    ensures |r| <= |problems|
    ensures forall i :: 0 <= i < |r| ==> Matches(r[i], searchTerm, category, difficulty, status)
  {
    Seqs.Filter(problems, p => Matches(p, searchTerm, category, difficulty, status))
  }

  /** The result keeps the input's order: it is a subsequence of it. */
  lemma FilterProblemsIsSubsequence(problems: seq<Problem>, searchTerm: string, category: string, difficulty: string, status: string)
    ensures Seqs.IsSubseq(FilterProblems(problems, searchTerm, category, difficulty, status), problems)
  {
    Seqs.FilterIsSubseq(problems, p => Matches(p, searchTerm, category, difficulty, status));
  }

  /** A problem is listed exactly when it is in the input and meets all four criteria. */
  lemma FilterProblemsMembership(problems: seq<Problem>, searchTerm: string, category: string, difficulty: string, status: string, p: Problem)
    ensures p in FilterProblems(problems, searchTerm, category, difficulty, status) <==>
              && p in problems
              && Contains(Lower(p.title), Lower(searchTerm))
              && (category == "All" || p.category == category)
              && (difficulty == "All" || p.difficulty == difficulty)
              && (status == "All" || p.status == Lower(status))
  {
    Seqs.FilterMembership(problems, q => Matches(q, searchTerm, category, difficulty, status), p);
  }

  /** An empty search and "All" everywhere list every problem. */
  lemma NoCriteriaKeepsAll(problems: seq<Problem>)
    ensures FilterProblems(problems, "", "All", "All", "All") == problems
  {
    forall p | p in problems ensures Matches(p, "", "All", "All", "All") {
      ContainsEmpty(Lower(p.title));
    }
    Seqs.FilterAll(problems, p => Matches(p, "", "All", "All", "All"));
  }

  /** No lower-cased string is "All". */
  lemma LowerIsNotAll(s: string)
    ensures Lower(s) != "All"
  {
    if |s| == 3 {
      assert Lower(s)[0] == LowerChar(s[0]) != 'A';
    }
  }

  /** Lower-casing the search term first keeps the same problems. */
  lemma SearchCaseIrrelevant(problems: seq<Problem>, searchTerm: string, category: string, difficulty: string, status: string)
    ensures FilterProblems(problems, searchTerm, category, difficulty, status)
         == FilterProblems(problems, Lower(searchTerm), category, difficulty, status)
  {
    LowerIdempotent(searchTerm);
    Seqs.FilterExt(problems, p => Matches(p, searchTerm, category, difficulty, status),
                   p => Matches(p, Lower(searchTerm), category, difficulty, status));
  }

  /** Lower-casing a status other than "All" first keeps the same problems. */
  lemma StatusCaseIrrelevant(problems: seq<Problem>, searchTerm: string, category: string, difficulty: string, status: string)
    requires status != "All"
    ensures FilterProblems(problems, searchTerm, category, difficulty, status)
         == FilterProblems(problems, searchTerm, category, difficulty, Lower(status))
  {
    LowerIdempotent(status);
    LowerIsNotAll(status);
    Seqs.FilterExt(problems, p => Matches(p, searchTerm, category, difficulty, status),
                   p => Matches(p, searchTerm, category, difficulty, Lower(status)));
  }

  /**
   * The search is case-insensitive: lower-casing the term first changes
   * nothing. So is a status other than "All" ("ALL" is not "All", and filters).
   */
  lemma CaseOfSearchAndStatusIrrelevant(problems: seq<Problem>, searchTerm: string, category: string, difficulty: string, status: string)
    ensures FilterProblems(problems, searchTerm, category, difficulty, status)
         == FilterProblems(problems, Lower(searchTerm), category, difficulty, status)
    ensures status != "All" ==>
              FilterProblems(problems, searchTerm, category, difficulty, status)
              == FilterProblems(problems, searchTerm, category, difficulty, Lower(status))
  {
    SearchCaseIrrelevant(problems, searchTerm, category, difficulty, status);
    if status != "All" {
      StatusCaseIrrelevant(problems, searchTerm, category, difficulty, status);
    }
  }

  datatype PageResult = PageResult(paginatedProblems: seq<Problem>, totalPages: int, startIndex: int, endIndex: int)

  /** `paginateProblems`: page `currentPage` counted from 0. The schema demands `pageSize >= 1`; zero divides by zero. */
  function Paginate(problems: seq<Problem>, currentPage: int, pageSize: int): (r: PageResult)
    requires pageSize != 0
    ensures r.startIndex == currentPage * pageSize && r.endIndex == r.startIndex + pageSize
    ensures pageSize > 0 ==> (r.totalPages - 1) * pageSize < |problems| <= r.totalPages * pageSize
    ensures 0 <= currentPage && pageSize > 0 ==> |r.paginatedProblems| <= pageSize
    ensures 0 <= r.startIndex <= r.endIndex <= |problems| ==> r.paginatedProblems == problems[r.startIndex..r.endIndex]
  {
    var startIndex := currentPage * pageSize;
    var endIndex := startIndex + pageSize;
    PageResult(Paging.Slice(problems, startIndex, endIndex), Paging.CeilDiv(|problems|, pageSize), startIndex, endIndex)
  }

  /** The pages `0 .. k-1` as `paginateProblems` returns them, concatenated, are the first `k` page windows. */
  lemma {:induction false} PagesReassemble(problems: seq<Problem>, pageSize: int, k: nat)
    requires pageSize >= 1
    ensures Concat(problems, pageSize, k) == Paging.Pages(problems, pageSize, k)
  {
    if k > 0 {
      PagesReassemble(problems, pageSize, k - 1);
    }
  }

  /** The pages `0 .. k-1` as `paginateProblems` returns them, concatenated. */
  function Concat(problems: seq<Problem>, pageSize: int, k: nat): seq<Problem>
    requires pageSize >= 1
  {
    if k == 0 then [] else Concat(problems, pageSize, k - 1) + Paginate(problems, k - 1, pageSize).paginatedProblems
  }

  /** Every problem appears on exactly the pages `0 .. totalPages-1`, once, in order. */
  lemma PagesCoverList(problems: seq<Problem>, pageSize: int)
    requires pageSize >= 1
    ensures Paginate(problems, 0, pageSize).totalPages >= 0
    ensures Concat(problems, pageSize, Paginate(problems, 0, pageSize).totalPages) == problems
  {
    Paging.PagesCoverAll(problems, pageSize);
    PagesReassemble(problems, pageSize, Paging.CeilDiv(|problems|, pageSize));
  }

  /** `getStatusColor`: total, with every unknown status shown muted. */
  function StatusColor(status: string): (r: string)
    ensures r == "text-green-500" <==> status == "solved"
    ensures r == "text-yellow-500" <==> status == "attempted"
    ensures r == "text-muted-foreground" <==> status != "solved" && status != "attempted"
  {
    match status
    case "solved" => "text-green-500"
    case "attempted" => "text-yellow-500"
    case "unsolved" => "text-muted-foreground"
    case _ => "text-muted-foreground"
  }
}

=== FILE: profile.dfy ===
/** The profile settings page (src/app/settings/profile/page.tsx): avatar initials and picture upload. */
module Profile {
  import opened Wrappers
  import Text
  import Seqs
  import Errors

  const MaxFileSize: nat := 819200
  const AcceptedTypes: seq<string> := ["image/jpeg", "image/jpg", "image/png", "image/gif"]
  const TooLargeMessage: string := "File size exceeds 800KB limit"
  const BadTypeMessage: string := "Invalid file type. Only JPG, PNG, and GIF are allowed"
  const UploadedMessage: string := "Profile picture updated successfully"
  const UploadFallbackMessage: string := "Failed to upload profile picture"

  /**
   * `words.map(n => n[0]).join('')`: an empty word's `n[0]` is `undefined`,
   * which `join` writes as nothing, so each non-empty word gives its first character.
   */
  function Heads(words: seq<string>): (r: string)
    ensures |r| <= |words|
  {
    if |words| == 0 then ""
    else (if |words[0]| > 0 then [words[0][0]] else "") + Heads(words[1..])
  }

  predicate NonEmpty(w: string) { |w| > 0 }

  /** Empty words contribute nothing: the heads are those of the non-empty words alone. */
  lemma {:induction false} HeadsSkipEmpty(words: seq<string>)
    ensures Heads(words) == Heads(Seqs.Filter(words, NonEmpty))
    ensures |Heads(words)| == |Seqs.Filter(words, NonEmpty)|
  {
    if |words| > 0 {
      HeadsSkipEmpty(words[1..]);
      var rest := Seqs.Filter(words[1..], NonEmpty);
      if NonEmpty(words[0]) {
        assert Seqs.Filter(words, NonEmpty) == [words[0]] + rest;
        assert ([words[0]] + rest)[1..] == rest;
      } else {
        assert Seqs.Filter(words, NonEmpty) == rest;
      }
    }
  }

  /** `getInitials(name)`: the first two heads of the space-separated words, upper-cased. */
  function GetInitials(name: string): (r: string)
    ensures |r| <= 2
    ensures forall i :: 0 <= i < |r| ==> Text.UpperChar(r[i]) == r[i]
    ensures r <= Text.Upper(Heads(Text.Split(name, ' ')))
    ensures var n := |Heads(Text.Split(name, ' '))|; |r| == if n < 2 then n else 2
  {
    var all := Text.Upper(Heads(Text.Split(name, ' ')));
    if |all| <= 2 then all else all[..2]
  }

  /** For words joined by single spaces, the initials are the first letters of the first two words. */
  lemma {:induction false} InitialsOfWords(words: seq<string>)
    requires |words| >= 2
    requires forall k :: 0 <= k < |words| ==> |words[k]| > 0
    requires forall k, j :: 0 <= k < |words| && 0 <= j < |words[k]| ==> words[k][j] != ' '
    ensures GetInitials(Text.Join(words, ' ')) == [Text.UpperChar(words[0][0]), Text.UpperChar(words[1][0])]
  {
    Text.JoinSplit(words, ' ');
    var h := Heads(words);
    assert h == [words[0][0]] + Heads(words[1..]);
    assert Heads(words[1..]) == [words[1][0]] + Heads(words[2..]);
  }

  /** One initial per non-empty word, up to two: "alice" gives one, "" and "   " give none. */
  lemma InitialsCount(name: string)
    ensures var n := |Seqs.Filter(Text.Split(name, ' '), NonEmpty)|;
            |GetInitials(name)| == if n < 2 then n else 2
  {
    HeadsSkipEmpty(Text.Split(name, ' '));
  }

  /** A single word gives its upper-cased first letter. */
  lemma InitialOfOneWord(w: string)
    requires |w| > 0
    requires forall j :: 0 <= j < |w| ==> w[j] != ' '
    ensures GetInitials(w) == [Text.UpperChar(w[0])]
  {
    Text.SplitPlain(w, ' ');
    assert Heads([w]) == [w[0]] + Heads([w][1..]);
  }

  /** The avatar fallback: `form name || user?.name || 'U'`. */
  function FallbackName(formName: string, userName: Option<string>): (r: string)
    ensures r != ""
    ensures formName != "" ==> r == formName
    ensures formName == "" && userName.Some? && userName.value != "" ==> r == userName.value
    ensures formName == "" && (userName.None? || userName.value == "") ==> r == "U"
  {
    if formName != "" then formName
    else if userName.Some? && userName.value != "" then userName.value
    else "U"
  }

  /** The chosen file: its byte size and MIME type. */
  datatype File = File(size: nat, mime: string)

  /** What the checks decide about a selection. */
  datatype Check = NoFile | Rejected(message: string) | Accepted(file: File)

  /** The checks at the head of `handleFileChange`: size before type. */
  function CheckFile(file: Option<File>): (r: Check)
    ensures file.None? <==> r == NoFile
    ensures r.Accepted? <==> file.Some? && file.value.size <= MaxFileSize && file.value.mime in AcceptedTypes
    ensures r.Accepted? ==> r.file == file.value
    ensures file.Some? && file.value.size > MaxFileSize ==> r == Rejected(TooLargeMessage)
    ensures r == Rejected(BadTypeMessage) <==> file.Some? && file.value.size <= MaxFileSize && file.value.mime !in AcceptedTypes
  {
    match file
    case None => NoFile
    case Some(f) =>
      if f.size > MaxFileSize then Rejected(TooLargeMessage)
      else if f.mime !in AcceptedTypes then Rejected(BadTypeMessage)
      else Accepted(f)
  }

  /** The picture part of the page state. */
  datatype PictureState = PictureState(profileImage: Option<string>, useDefaultIcon: bool, isUploadingImage: bool)

  /** `authService.updateProfilePicture` settles with the updated user's `image_url` (`""` when unset) or throws. */
  datatype UploadResult = Uploaded(imageUrl: string) | UploadThrew(error: Errors.Thrown)

  /** The page's toast, if any. */
  datatype Toast = NoToast | Success(text: string) | Failure(text: string)

  /**
   * `handleFileChange`: a rejected or missing file changes nothing; an accepted
   * one shows the local preview `dataUrl` and then the server's image, or keeps
   * the preview when the upload throws.
   */
  function HandleFileChange(st: PictureState, file: Option<File>, dataUrl: string, upload: UploadResult): (r: (PictureState, Toast))
    ensures !CheckFile(file).Accepted? ==> r.0 == st
    ensures CheckFile(file).Rejected? ==> r.1 == Failure(CheckFile(file).message)
    ensures file.None? ==> r.1 == NoToast
    ensures CheckFile(file).Accepted? ==> !r.0.useDefaultIcon && !r.0.isUploadingImage
    ensures CheckFile(file).Accepted? && upload.Uploaded? ==>
              r.0.profileImage == (if upload.imageUrl == "" then None else Some(upload.imageUrl)) && r.1 == Success(UploadedMessage)
    ensures CheckFile(file).Accepted? && upload.UploadThrew? ==>
              r.0.profileImage == Some(dataUrl) && r.1 == Failure(Errors.DescribePlain(upload.error, UploadFallbackMessage))
  {
    match CheckFile(file)
    case NoFile => (st, NoToast)
    case Rejected(m) => (st, Failure(m))
    case Accepted(_) =>
      var preview := PictureState(Some(dataUrl), false, true);
      match upload
      case Uploaded(url) =>
        (preview.(profileImage := if url == "" then None else Some(url), isUploadingImage := false), Success(UploadedMessage))
      case UploadThrew(e) =>
        (preview.(isUploadingImage := false), Failure(Errors.DescribePlain(e, UploadFallbackMessage)))
  }

  /** `handleReset`: back to the default icon with no image. */
  function HandleReset(st: PictureState): (r: PictureState)
    ensures r.profileImage.None? && r.useDefaultIcon
    ensures r.isUploadingImage == st.isUploadingImage
  {
    st.(profileImage := None, useDefaultIcon := true)
  }

  /** Only an accepted file can change the picture: after a reset, a rejected file leaves the default icon. */
  lemma RejectedAfterResetKeepsDefault(st: PictureState, f: File, dataUrl: string, upload: UploadResult)
    requires f.size > MaxFileSize || f.mime !in AcceptedTypes
    ensures HandleFileChange(HandleReset(st), Some(f), dataUrl, upload).0 == HandleReset(st)
  {
  }
}

=== FILE: role_redirect.dfy ===
/**
 * The redirect both auth forms perform after a successful login or signup
 * (src/app/auth/sign-in/components/login-form-3.tsx and
 * src/app/auth/sign-up/components/signup-form-3.tsx): read the saved user back
 * from storage and pick the dashboard by role.
 */
module RoleRedirect {
  import opened Wrappers
  import opened Json
  import Storage
  import Errors

  const AdminDashboard: string := "/admin/dashboard"
  const UserDashboard: string := "/user/dashboard"

  /** V8's message for `user.role` when the saved user parses to `null`. */
  const NullRoleMessage: string := "Cannot read properties of null (reading 'role')"

  datatype Redirect = Navigate(path: string) | Threw(err: Errors.Thrown)

  /**
   * The target after success. `syntaxError` is the message `JSON.parse`
   * throws for unparsable text.
   */
  function AfterAuth(c: Codec, store: Storage.Store, syntaxError: string): (r: Redirect)
    ensures !Storage.Holds(store, "user") ==> r == Navigate(UserDashboard)
    ensures r.Navigate? ==> r.path == AdminDashboard || r.path == UserDashboard
    ensures r.Navigate? && r.path == AdminDashboard <==>
              Storage.Holds(store, "user") && c.parse(store["user"]).Some?
              && GetProp(c.parse(store["user"]).value, "role") == Value(JStr("ADMIN"))
    ensures r.Threw? <==> Storage.Holds(store, "user") && (c.parse(store["user"]).None? || c.parse(store["user"]).value.JNull?)
  {
    if !Storage.Holds(store, "user") then Navigate(UserDashboard)
    else match c.parse(store["user"])
      case None => Threw(Errors.Thrown("", syntaxError))
      case Some(u) =>
        match GetProp(u, "role")
        case ThrowsTypeError => Threw(Errors.Thrown("", NullRoleMessage))
        case Value(role) => Navigate(if role == JStr("ADMIN") then AdminDashboard else UserDashboard)
        case Undefined => Navigate(UserDashboard)
  }

  /** A saved record written by a lawful codec is read back: its role alone decides the dashboard. */
  lemma SavedRoleDecides(c: Codec, store: Storage.Store, u: Json, syntaxError: string)
    requires Lawful(c) && Truthy(u)
    requires "user" in store && store["user"] == c.stringify(u)
    ensures AfterAuth(c, store, syntaxError) ==
              Navigate(if GetProp(u, "role") == Value(JStr("ADMIN")) then AdminDashboard else UserDashboard)
  {
    assert c.parse(c.stringify(u)) == Some(u) && c.stringify(u) != "";
  }
}

=== FILE: route_guards.dfy ===
/** The two route guards (src/components/router/protected-route.tsx) as decisions over the session flags. */
module RouteGuards {
  import opened Wrappers

  /** The router location, carried opaquely in the redirect state. */
  datatype Location = Location(pathname: string, search: string)

  /** What a guard renders. Every redirect replaces the history entry. */
  datatype View = Spinner | Redirect(to: string, from: Option<Location>) | Children

  /** `ProtectedRoute`: spinner while loading, sign-in (remembering where from) when signed out, else the page. */
  function ProtectedRoute(isAuthenticated: bool, isLoading: bool, here: Location): (v: View)
    ensures v == Spinner <==> isLoading
    ensures v == Children <==> !isLoading && isAuthenticated
    ensures v.Redirect? <==> !isLoading && !isAuthenticated
    ensures v.Redirect? ==> v.to == "/auth/sign-in" && v.from == Some(here)
  {
    if isLoading then Spinner
    else if !isAuthenticated then Redirect("/auth/sign-in", Some(here))
    else Children
  }

  /** `PublicRoute`: spinner while loading, the dashboard when signed in, else the page. */
  function PublicRoute(isAuthenticated: bool, isLoading: bool): (v: View)
    ensures v == Spinner <==> isLoading
    ensures v == Children <==> !isLoading && !isAuthenticated
    ensures v.Redirect? <==> !isLoading && isAuthenticated
    ensures v.Redirect? ==> v.to == "/dashboard" && v.from.None?
  {
    if isLoading then Spinner
    else if isAuthenticated then Redirect("/dashboard", None)
    else Children
  }

  /** Once loading is over, exactly one of the two guards lets its page through; while loading, neither does. */
  lemma ExactlyOneGuardRenders(isAuthenticated: bool, isLoading: bool, here: Location)
    ensures !isLoading ==>
              (ProtectedRoute(isAuthenticated, isLoading, here) == Children) != (PublicRoute(isAuthenticated, isLoading) == Children)
    ensures isLoading ==>
              ProtectedRoute(isAuthenticated, isLoading, here) == Spinner && PublicRoute(isAuthenticated, isLoading) == Spinner
  {
  }
}

=== FILE: seqs.dfy ===
/** `Array.prototype.filter` and the facts about it that the list views rely on. */
module Seqs {

  /** `s.filter(p)`: the elements satisfying `p`, in their original order. */
  function Filter<T>(s: seq<T>, p: T -> bool): (r: seq<T>)
    ensures |r| <= |s|
    ensures forall i :: 0 <= i < |r| ==> p(r[i])
  {
    if |s| == 0 then []
    else if p(s[0]) then [s[0]] + Filter(s[1..], p)
    else Filter(s[1..], p)
  }

  /** `a` can be obtained from `b` by deleting elements: an order-preserving subsequence. */
  predicate IsSubseq<T(==)>(a: seq<T>, b: seq<T>)
    decreases |b|
  {
    |a| == 0 || (|b| > 0 && ((a[0] == b[0] && IsSubseq(a[1..], b[1..])) || IsSubseq(a, b[1..])))
  }

  /** A filtered list is an order-preserving subsequence of its input. */
  lemma {:induction false} FilterIsSubseq<T>(s: seq<T>, p: T -> bool)
    ensures IsSubseq(Filter(s, p), s)
  {
    if |s| > 0 {
      FilterIsSubseq(s[1..], p);
      if p(s[0]) {
        assert Filter(s, p)[1..] == Filter(s[1..], p);
      }
    }
  }

  /** An element survives filtering exactly when it is in the input and satisfies the predicate. */
  lemma {:induction false} FilterMembership<T>(s: seq<T>, p: T -> bool, x: T)
    ensures x in Filter(s, p) <==> x in s && p(x)
  {
    if |s| > 0 {
      FilterMembership(s[1..], p, x);
      assert s == [s[0]] + s[1..];
    }
  }

  /** Filtering twice in a row is filtering once by the conjunction. */
  lemma {:induction false} FilterFilter<T>(s: seq<T>, p: T -> bool, q: T -> bool)
    ensures Filter(Filter(s, p), q) == Filter(s, x => p(x) && q(x))
  {
    if |s| > 0 {
      FilterFilter(s[1..], p, q);
      if p(s[0]) {
        assert Filter(s, p) == [s[0]] + Filter(s[1..], p);
        assert Filter(s, p)[1..] == Filter(s[1..], p);
      }
    }
  }

  /** Two filters in a row equal one filter by any predicate that is their conjunction on the list. */
  lemma FilterFilterAs<T>(s: seq<T>, p: T -> bool, q: T -> bool, r: T -> bool)
    requires forall i :: 0 <= i < |s| ==> r(s[i]) == (p(s[i]) && q(s[i]))
    ensures Filter(Filter(s, p), q) == Filter(s, r)
  {
    FilterFilter(s, p, q);
    FilterExt(s, x => p(x) && q(x), r);
  }

  /** Filtering a filtered list again by the same predicate changes nothing. */
  lemma {:induction false} FilterIdempotent<T>(s: seq<T>, p: T -> bool)
    ensures Filter(Filter(s, p), p) == Filter(s, p)
  {
    FilterAll(Filter(s, p), p);
  }

  /** Filters that agree on every element of the list give the same result. */
  lemma {:induction false} FilterExt<T>(s: seq<T>, p: T -> bool, q: T -> bool)
    requires forall i :: 0 <= i < |s| ==> p(s[i]) == q(s[i])
    ensures Filter(s, p) == Filter(s, q)
  {
    if |s| > 0 {
      FilterExt(s[1..], p, q);
    }
  }

  /** A predicate that fails on every element filters everything out. */
  lemma {:induction false} FilterNone<T>(s: seq<T>, p: T -> bool)
    requires forall i :: 0 <= i < |s| ==> !p(s[i])
    ensures Filter(s, p) == []
  {
    if |s| > 0 {
      FilterNone(s[1..], p);
    }
  }

  /** A predicate that holds of every element keeps the whole list. */
  lemma {:induction false} FilterAll<T>(s: seq<T>, p: T -> bool)
    requires forall i :: 0 <= i < |s| ==> p(s[i])
    ensures Filter(s, p) == s
  {
    if |s| > 0 {
      FilterAll(s[1..], p);
    }
  }

  /** `s.map(f)`. */
  function Map<T, U>(s: seq<T>, f: T -> U): (r: seq<U>)
    ensures |r| == |s|
    ensures forall i :: 0 <= i < |s| ==> r[i] == f(s[i])
  {
    seq(|s|, i requires 0 <= i < |s| => f(s[i]))
  }
}

=== FILE: signup_form.dfy ===
/**
 * The OTP-verified signup form (src/app/auth/sign-up/components/signup-form-3.tsx).
 * `sendVerificationOTP` and `signup` are answered by inputs; the provider the
 * form calls does not declare them, so no provider behaviour is assumed.
 */
module SignupForm {
  import opened Wrappers
  import opened Text
  import Seqs
  import Json
  import Storage
  import Errors
  import RoleRedirect

  // ---- the email pattern /^[^\s@]+@[^\s@]+\.[^\s@]+$/ ------------------------

  /** Every character is matched by `[^\s@]`. */
  predicate PlainRun(s: string) {
    forall j :: 0 <= j < |s| ==> !IsSpace(s[j]) && s[j] != '@'
  }

  /** The pattern matches with its '@' at `i` and its literal '.' at `k`. */
  predicate MatchesAt(s: string, i: int, k: int) {
    && 0 < i && i + 1 < k && k + 1 < |s|
    && s[i] == '@' && s[k] == '.'
    && PlainRun(s[..i]) && PlainRun(s[i + 1..k]) && PlainRun(s[k + 1..])
  }

  /** `emailValid`: the pattern matches the whole string for some placement of '@' and '.'. */
  predicate EmailValid(s: string): (r: bool)
    ensures r ==> |s| >= 5 && '@' in s && '.' in s
  {
    exists i, k :: 0 < i < k < |s| && MatchesAt(s, i, k)
  }

  /** A '.' in the domain part that is neither its first nor its last character. */
  predicate InnerDot(d: string) {
    exists k :: 0 < k < |d| - 1 && d[k] == '.'
  }

  /** The '@' at `i` is the only one. */
  predicate OnlyAtSignAt(s: string, i: int) {
    0 <= i < |s| && s[i] == '@' && forall j :: 0 <= j < |s| && s[j] == '@' ==> j == i
  }

  /** The pattern read as a description: no whitespace, one '@' with text before it, and an inner dot after it. */
  predicate EmailShape(s: string) {
    && (forall j :: 0 <= j < |s| ==> !IsSpace(s[j]))
    && exists i :: 0 < i < |s| && OnlyAtSignAt(s, i) && InnerDot(s[i + 1..])
  }

  lemma MatchImpliesShape(s: string, i: int, k: int)
    requires MatchesAt(s, i, k)
    ensures EmailShape(s)
  {
    forall j | 0 <= j < |s| ensures !IsSpace(s[j]) && (s[j] == '@' ==> j == i) {
      if j < i {
        assert s[..i][j] == s[j];
      } else if i < j < k {
        assert s[i + 1..k][j - i - 1] == s[j];
      } else if k < j {
        assert s[k + 1..][j - k - 1] == s[j];
      }
    }
    assert OnlyAtSignAt(s, i);
    var d := s[i + 1..];
    assert d[k - i - 1] == '.';
    assert InnerDot(d);
  }

  lemma ShapeImpliesMatch(s: string) returns (i: int, k: int)
    requires EmailShape(s)
    ensures MatchesAt(s, i, k)
  {
    i :| 0 < i < |s| && OnlyAtSignAt(s, i) && InnerDot(s[i + 1..]);
    var d := s[i + 1..];
    var k' :| 0 < k' < |d| - 1 && d[k'] == '.';
    k := i + 1 + k';
    assert s[k] == d[k'];
    assert PlainRun(s[..i]) by {
      forall j | 0 <= j < i ensures !IsSpace(s[..i][j]) && s[..i][j] != '@' {
        assert s[..i][j] == s[j];
      }
    }
    var mid := s[i + 1..k];
    assert PlainRun(mid) by {
      forall j | 0 <= j < |mid| ensures !IsSpace(mid[j]) && mid[j] != '@' {
        assert mid[j] == s[i + 1 + j];
      }
    }
    var tail := s[k + 1..];
    assert PlainRun(tail) by {
      forall j | 0 <= j < |tail| ensures !IsSpace(tail[j]) && tail[j] != '@' {
        assert tail[j] == s[k + 1 + j];
      }
    }
  }

  /** The pattern accepts exactly the strings of that shape. */
  lemma EmailValidIff(s: string)
    ensures EmailValid(s) <==> EmailShape(s)
  {
    if EmailValid(s) {
      var i, k :| 0 < i < k < |s| && MatchesAt(s, i, k);
      MatchImpliesShape(s, i, k);
    }
    if EmailShape(s) {
      var i, k := ShapeImpliesMatch(s);
    }
  }

  // ---- the OTP input ------------------------------------------------------------

  /** `value.replace(/\D/g, '')`: keep the ASCII digits, in order. */
  function DigitsOnly(s: string): (r: string)
    ensures |r| <= |s|
    ensures forall j :: 0 <= j < |r| ==> IsDigit(r[j])
  {
    Seqs.Filter(s, IsDigit)
  }

  /** Filtering twice is filtering once; a string of digits passes unchanged; the order is kept. */
  lemma DigitsOnlyIdempotent(s: string)
    ensures DigitsOnly(DigitsOnly(s)) == DigitsOnly(s)
    ensures (forall j :: 0 <= j < |s| ==> IsDigit(s[j])) ==> DigitsOnly(s) == s
    ensures Seqs.IsSubseq(DigitsOnly(s), s)
  {
    Seqs.FilterIdempotent(s, IsDigit);
    if forall j :: 0 <= j < |s| ==> IsDigit(s[j]) {
      Seqs.FilterAll(s, IsDigit);
    }
    Seqs.FilterIsSubseq(s, IsDigit);
  }

  // ---- the schema -----------------------------------------------------------------

  datatype Values = Values(
    firstName: string, lastName: string, email: string, otp: string,
    password: string, confirmPassword: string, terms: bool)

  /** The schema; `emailAccepted` stands for the library email validator. */
  predicate SchemaOk(v: Values, emailAccepted: bool): (r: bool)
    ensures r ==> emailAccepted && v.terms && v.password == v.confirmPassword
    ensures r ==> |FullName(v)| >= 5 && |v.confirmPassword| >= 8
  {
    && |v.firstName| >= 2 && |v.lastName| >= 2 && emailAccepted
    && |v.password| >= 8 && v.terms && v.password == v.confirmPassword
  }

  /** The name sent to the service. */
  function FullName(v: Values): (r: string)
    ensures |r| == |v.firstName| + 1 + |v.lastName|
    ensures r[..|v.firstName|] == v.firstName && r[|v.firstName|] == ' ' && r[|v.firstName| + 1..] == v.lastName
  {
    v.firstName + " " + v.lastName
  }

  // ---- sending the code and submitting -----------------------------------------

  datatype FormState = FormState(hasOTPSent: bool, isLoadingOTP: bool, isSubmitting: bool, otp: string)

  datatype ServiceAnswer = Answered(success: bool) | ServiceThrew(err: Errors.Thrown)

  /** `handleSendOTP`: nothing at all for an invalid email; the code is marked sent only on success. */
  function SendOtp(f: FormState, email: string, answer: ServiceAnswer): (r: FormState)
    ensures !EmailValid(email) ==> r == f
    ensures EmailValid(email) ==> !r.isLoadingOTP && r.isSubmitting == f.isSubmitting
    ensures EmailValid(email) ==> (r.hasOTPSent <==> f.hasOTPSent || answer == Answered(true))
    ensures EmailValid(email) && answer == Answered(true) ==> r.otp == ""
    ensures answer != Answered(true) ==> r.otp == f.otp
  {
    if !EmailValid(email) then f
    else if answer == Answered(true) then f.(hasOTPSent := true, otp := "", isLoadingOTP := false)
    else f.(isLoadingOTP := false)
  }

  datatype Outcome =
    | NotSubmitted
    | VerificationRequired
    | InvalidOtp
    | Navigated(path: string)
    | RegistrationFailed(description: string)

  const FailedDescription: string := "Please check your OTP and try again."
  const DefaultError: string := "An error occurred during registration. Please try again."

  /** `onSubmit` after the schema passed: the OTP gates, then the service call and the role redirect. */
  function OnSubmit(f: FormState, v: Values, signup: ServiceAnswer, c: Json.Codec, store: Storage.Store, syntaxError: string): (r: (FormState, Outcome))
    ensures !f.hasOTPSent || v.otp == "" ==> r == (f, VerificationRequired)
    ensures f.hasOTPSent && v.otp != "" && |v.otp| != 6 ==> r == (f, InvalidOtp)
    ensures f.hasOTPSent && |v.otp| == 6 ==> !r.0.isSubmitting
    ensures r.1.Navigated? <==>
              f.hasOTPSent && |v.otp| == 6 && signup == Answered(true) && RoleRedirect.AfterAuth(c, store, syntaxError).Navigate?
    ensures r.1.Navigated? ==> r.1.path == RoleRedirect.AfterAuth(c, store, syntaxError).path
    ensures f.hasOTPSent && |v.otp| == 6 && signup == Answered(false) ==> r.1 == RegistrationFailed(FailedDescription)
  {
    if !f.hasOTPSent || v.otp == "" then (f, VerificationRequired)
    else if |v.otp| != 6 then (f, InvalidOtp)
    else
      var done := f.(isSubmitting := false);
      match signup
      case ServiceThrew(e) => (done, RegistrationFailed(Errors.Describe(e, DefaultError)))
      case Answered(false) => (done, RegistrationFailed(FailedDescription))
      case Answered(true) =>
        match RoleRedirect.AfterAuth(c, store, syntaxError)
        case Navigate(p) => (done, Navigated(p))
        case Threw(e) => (done, RegistrationFailed(Errors.Describe(e, DefaultError)))
  }

  /** `form.handleSubmit(onSubmit)`: the schema first. */
  function HandleSubmit(f: FormState, v: Values, emailAccepted: bool, signup: ServiceAnswer, c: Json.Codec, store: Storage.Store, syntaxError: string): (r: (FormState, Outcome))
    ensures !SchemaOk(v, emailAccepted) ==> r == (f, NotSubmitted)
    ensures SchemaOk(v, emailAccepted) ==> r == OnSubmit(f, v, signup, c, store, syntaxError)
  {
    if SchemaOk(v, emailAccepted) then OnSubmit(f, v, signup, c, store, syntaxError) else (f, NotSubmitted)
  }

  /** No one registers without a code having been sent for a valid email, and a code of six characters. */
  lemma RegistrationNeedsSentCode(f0: FormState, email: string, answer: ServiceAnswer, v: Values, ok: bool,
                                  signup: ServiceAnswer, c: Json.Codec, store: Storage.Store, syntaxError: string)
    requires !f0.hasOTPSent
    ensures var f := SendOtp(f0, email, answer);
            HandleSubmit(f, v, ok, signup, c, store, syntaxError).1.Navigated? ==>
              EmailValid(email) && answer == Answered(true) && |v.otp| == 6 && SchemaOk(v, ok)
  {
  }
}

=== FILE: storage.dfy ===
/** `window.localStorage` as a finite map from keys to string values. */
module Storage {
  import opened Wrappers

  type Store = map<string, string>

  /** `localStorage.getItem(key)`: `None` stands for `null`. */
  function GetItem(s: Store, key: string): Option<string> {
    if key in s then Some(s[key]) else None
  }

  /** `if (localStorage.getItem(key))`: present and not the empty string. */
  predicate Holds(s: Store, key: string) {
    key in s && s[key] != ""
  }

  /** `localStorage.removeItem(key)`. */
  function RemoveItem(s: Store, key: string): (r: Store)
    ensures key !in r
    ensures forall k :: k != key ==> GetItem(r, k) == GetItem(s, k)
  {
    s - {key}
  }
}

=== FILE: submissions.dfy ===
/**
 * Submission hooks (src/hooks/api/use-submissions.ts): submitting code, looking
 * up one submission, and polling its status until it is evaluated or the
 * attempt budget runs out.
 *
 * The interval timer is not modelled as time: each firing of the interval is
 * one call of `Tick`, and `clearInterval` is the `stopped` flag, after which no
 * further callback runs and so no further lookup is made.
 */
module Submissions {
  import opened Wrappers
  import Errors

  /** SubmissionStatus from src/api/services/submission.ts. */
  datatype SubmissionStatus =
    | PENDING | PROCESSING | ACCEPTED | WRONG_ANSWER | ERROR
    | TIME_LIMIT_EXCEEDED | MEMORY_LIMIT_EXCEEDED | COMPILATION_ERROR

  /** Everything but PENDING and PROCESSING ends the evaluation. */
  predicate IsTerminal(s: SubmissionStatus) {
    s != PENDING && s != PROCESSING
  }

  /** The fields of a looked-up submission that the hooks read. */
  datatype SubmissionResult = SubmissionResult(id: string, status: SubmissionStatus)

  const DefaultIntervalMs: int := 2000
  const DefaultMaxAttempts: int := 30

  // ---- useSubmission.fetch --------------------------------------------------

  datatype FetchState = FetchState(submission: Option<SubmissionResult>, loading: bool, error: Option<string>)

  /** How `getSubmissionById` settles: `res.submission` (possibly undefined), or a thrown error. */
  datatype Lookup = Found(submission: Option<SubmissionResult>) | LookupThrew(err: Errors.Thrown)

  /** What `fetch()` gives its caller. */
  datatype FetchReturn = Skipped | Returned(value: Option<SubmissionResult>) | Rethrew(err: Errors.Thrown)

  /** `useSubmission(id).fetch()`: the new hook state and what the call returns or throws. */
  function Fetch(id: Option<string>, st: FetchState, lookup: Lookup): (r: (FetchState, FetchReturn))
    ensures (id.None? || id.value == "") ==> r == (st, Skipped)
    ensures id.Some? && id.value != "" ==> !r.0.loading && !r.1.Skipped?
    ensures id.Some? && id.value != "" && lookup.Found? ==>
              r.0.submission == lookup.submission && r.0.error.None? && r.1 == Returned(lookup.submission)
    ensures id.Some? && id.value != "" && lookup.LookupThrew? ==>
              r.0.submission == st.submission && r.1 == Rethrew(lookup.err)
              && r.0.error == Some(Errors.Describe(lookup.err, "Failed to fetch submission"))
  {
    if id.None? || id.value == "" then (st, Skipped)
    else match lookup
      case Found(s) => (FetchState(s, false, None), Returned(s))
      case LookupThrew(e) =>
        (FetchState(st.submission, false, Some(Errors.Describe(e, "Failed to fetch submission"))), Rethrew(e))
  }

  // ---- useSubmission.poll ---------------------------------------------------

  datatype Notification = Evaluated | EvaluationTimedOut

  /** The poll closure's state: the attempt counter, whether the interval is cleared, the toasts shown. */
  datatype Poller = Poller(attempts: nat, stopped: bool, notifications: seq<Notification>)

  datatype PollSession = PollSession(intervalMs: int, maxAttempts: int, poller: Poller)

  /** `poll(intervalMs = 2000, maxAttempts = 30)`: nothing is armed without an id. */
  function Poll(id: Option<string>, intervalMs: Option<int>, maxAttempts: Option<int>): (r: Option<PollSession>)
    ensures r.None? <==> id.None? || id.value == ""
    ensures r.Some? ==> r.value.intervalMs == intervalMs.GetOr(2000) && r.value.maxAttempts == maxAttempts.GetOr(30)
    ensures r.Some? ==> r.value.poller == Poller(0, false, [])
  {
    if id.None? || id.value == "" then None
    else Some(PollSession(intervalMs.GetOr(DefaultIntervalMs), maxAttempts.GetOr(DefaultMaxAttempts), Poller(0, false, [])))
  }

  /** The fetched value counts as terminal only if it exists and its status is terminal. */
  predicate FoundTerminal(result: FetchReturn) {
    result.Returned? && result.value.Some? && IsTerminal(result.value.value.status)
  }

  /** One firing of the interval: count the attempt, then react to what `fetch()` gave. */
  function Tick(p: Poller, maxAttempts: int, result: FetchReturn): (q: Poller)
    ensures p.stopped ==> q == p
    ensures !p.stopped ==> q.attempts == p.attempts + 1
    ensures !p.stopped && result.Rethrew? ==> q.stopped && q.notifications == p.notifications
    ensures !p.stopped && !result.Rethrew? ==>
              q.notifications == p.notifications
                + (if FoundTerminal(result) then [Evaluated] else [])
                + (if p.attempts + 1 >= maxAttempts then [EvaluationTimedOut] else [])
    ensures !p.stopped ==>
              (q.stopped <==> result.Rethrew? || FoundTerminal(result) || p.attempts + 1 >= maxAttempts)
  {
    if p.stopped then p
    else
      var attempts := p.attempts + 1;
      if result.Rethrew? then Poller(attempts, true, p.notifications)
      else
        var terminal := FoundTerminal(result);
        var timedOut := attempts >= maxAttempts;
        var notes := p.notifications
          + (if terminal then [Evaluated] else [])
          + (if timedOut then [EvaluationTimedOut] else []);
        Poller(attempts, terminal || timedOut, notes)
  }

  /** The returned teardown: `clearInterval`, without any notification. */
  function Teardown(p: Poller): (q: Poller)
    ensures q.stopped && q.attempts == p.attempts && q.notifications == p.notifications
  {
    p.(stopped := true)
  }

  /** The interval firing once per element of `results`. */
  function Run(p: Poller, maxAttempts: int, results: seq<FetchReturn>): Poller
    decreases |results|
  {
    if |results| == 0 then p else Run(Tick(p, maxAttempts, results[0]), maxAttempts, results[1..])
  }

  /** The lookup gave a submission that is still pending or processing (or no submission). */
  predicate StillRunning(result: FetchReturn) {
    result.Returned? && !FoundTerminal(result)
  }

  /** While fewer than `maxAttempts` non-terminal ticks have run, polling goes on silently. */
  lemma {:induction false} PendingPrefix(maxAttempts: int, results: seq<FetchReturn>, k: nat)
    requires k <= |results| && k < maxAttempts
    requires forall i :: 0 <= i < k ==> StillRunning(results[i])
    ensures Run(Poller(0, false, []), maxAttempts, results[..k]) == Poller(k, false, [])
  {
    if k > 0 {
      PendingPrefix(maxAttempts, results, k - 1);
      RunSnoc(Poller(0, false, []), maxAttempts, results[..k - 1], results[k - 1]);
      assert results[..k] == results[..k - 1] + [results[k - 1]];
    }
  }

  /** Running a list and then one more result is one more tick. */
  lemma {:induction false} RunSnoc(p: Poller, maxAttempts: int, results: seq<FetchReturn>, last: FetchReturn)
    ensures Run(p, maxAttempts, results + [last]) == Tick(Run(p, maxAttempts, results), maxAttempts, last)
    decreases |results|
  {
    if |results| == 0 {
      assert [last][1..] == [];
    } else {
      assert (results + [last])[1..] == results[1..] + [last];
      RunSnoc(Tick(p, maxAttempts, results[0]), maxAttempts, results[1..], last);
    }
  }

  /** Once stopped, further firings change nothing: no lookup, no notification. */
  lemma {:induction false} RunStopped(p: Poller, maxAttempts: int, results: seq<FetchReturn>)
    requires p.stopped
    ensures Run(p, maxAttempts, results) == p
    decreases |results|
  {
    if |results| > 0 {
      RunStopped(Tick(p, maxAttempts, results[0]), maxAttempts, results[1..]);
    }
  }

  /** Running `a + b` is running `a`, then `b`. */
  lemma {:induction false} RunAppend(p: Poller, maxAttempts: int, a: seq<FetchReturn>, b: seq<FetchReturn>)
    ensures Run(p, maxAttempts, a + b) == Run(Run(p, maxAttempts, a), maxAttempts, b)
    decreases |a|
  {
    if |a| > 0 {
      assert (a + b)[1..] == a[1..] + b;
      RunAppend(Tick(p, maxAttempts, a[0]), maxAttempts, a[1..], b);
    } else {
      assert a + b == b;
    }
  }

  /**
   * With lookups that never report a terminal status, polling stops after
   * exactly `maxAttempts` lookups with one timeout notification and no success
   * notification, however many more firings would follow.
   */
  lemma AlwaysPendingTimesOut(maxAttempts: int, results: seq<FetchReturn>)
    requires 1 <= maxAttempts <= |results|
    requires forall i :: 0 <= i < |results| ==> StillRunning(results[i])
    ensures Run(Poller(0, false, []), maxAttempts, results) == Poller(maxAttempts, true, [EvaluationTimedOut])
  {
    var start := Poller(0, false, []);
    var k := maxAttempts - 1;
    PendingPrefix(maxAttempts, results, k);
    RunSnoc(start, maxAttempts, results[..k], results[k]);
    assert results[..k] + [results[k]] == results[..k + 1];
    RunAppend(start, maxAttempts, results[..k + 1], results[k + 1..]);
    assert results[..k + 1] + results[k + 1..] == results;
    RunStopped(Poller(maxAttempts, true, [EvaluationTimedOut]), maxAttempts, results[k + 1..]);
  }

  /**
   * A terminal status on attempt `k + 1` (before the last allowed attempt, after
   * only non-terminal ones) stops polling there with exactly one success
   * notification; later firings make no lookup.
   */
  lemma TerminalStopsPolling(maxAttempts: int, results: seq<FetchReturn>, k: nat)
    requires k < |results| && k + 1 < maxAttempts
    requires forall i :: 0 <= i < k ==> StillRunning(results[i])
    requires FoundTerminal(results[k])
    ensures Run(Poller(0, false, []), maxAttempts, results) == Poller(k + 1, true, [Evaluated])
  {
    var start := Poller(0, false, []);
    PendingPrefix(maxAttempts, results, k);
    RunSnoc(start, maxAttempts, results[..k], results[k]);
    assert results[..k] + [results[k]] == results[..k + 1];
    RunAppend(start, maxAttempts, results[..k + 1], results[k + 1..]);
    assert results[..k + 1] + results[k + 1..] == results;
    RunStopped(Poller(k + 1, true, [Evaluated]), maxAttempts, results[k + 1..]);
  }

  /** A terminal status on the last allowed attempt fires both notifications, success first. */
  lemma TerminalOnLastAttemptFiresBoth(maxAttempts: int, results: seq<FetchReturn>)
    requires 1 <= maxAttempts <= |results|
    requires forall i :: 0 <= i < maxAttempts - 1 ==> StillRunning(results[i])
    requires FoundTerminal(results[maxAttempts - 1])
    ensures Run(Poller(0, false, []), maxAttempts, results).notifications == [Evaluated, EvaluationTimedOut]
  {
    var start := Poller(0, false, []);
    var k := maxAttempts - 1;
    PendingPrefix(maxAttempts, results, k);
    RunSnoc(start, maxAttempts, results[..k], results[k]);
    assert results[..k] + [results[k]] == results[..k + 1];
    RunAppend(start, maxAttempts, results[..k + 1], results[k + 1..]);
    assert results[..k + 1] + results[k + 1..] == results;
    RunStopped(Poller(maxAttempts, true, [Evaluated, EvaluationTimedOut]), maxAttempts, results[k + 1..]);
  }

  /** A failing lookup stops polling with no notification. */
  lemma LookupErrorStopsSilently(p: Poller, maxAttempts: int, e: Errors.Thrown, rest: seq<FetchReturn>)
    requires !p.stopped && p.notifications == []
    ensures Run(p, maxAttempts, [Rethrew(e)] + rest) == Poller(p.attempts + 1, true, [])
  {
    assert ([Rethrew(e)] + rest)[1..] == rest;
    RunStopped(Poller(p.attempts + 1, true, []), maxAttempts, rest);
  }

  /** Tearing down before the first firing means no lookup is ever made. */
  lemma TeardownBeforeFirstTick(maxAttempts: int, results: seq<FetchReturn>)
    ensures Run(Teardown(Poller(0, false, [])), maxAttempts, results).attempts == 0
  {
    RunStopped(Teardown(Poller(0, false, [])), maxAttempts, results);
  }

  /** The pending, pending, accepted scenario: three lookups, one success notification. */
  lemma PendingPendingAccepted(s: SubmissionResult, more: seq<FetchReturn>)
    ensures var r := [Returned(Some(s.(status := PENDING))), Returned(Some(s.(status := PENDING))),
                      Returned(Some(s.(status := ACCEPTED)))] + more;
            Run(Poller(0, false, []), 30, r) == Poller(3, true, [Evaluated])
  {
    var r := [Returned(Some(s.(status := PENDING))), Returned(Some(s.(status := PENDING))),
              Returned(Some(s.(status := ACCEPTED)))] + more;
    TerminalStopsPolling(30, r, 2);
  }

  /** The poller's invariant: silent while running, and never more attempts than the budget allows. */
  ghost predicate PollInvariant(p: Poller, maxAttempts: int) {
    var bound := if maxAttempts < 1 then 1 else maxAttempts;
    && p.attempts <= bound
    && (!p.stopped ==> p.attempts < bound && p.notifications == [])
    && (p.notifications == [] || p.notifications == [Evaluated]
        || p.notifications == [EvaluationTimedOut] || p.notifications == [Evaluated, EvaluationTimedOut])
  }

  /** Whatever the lookups return, the budget is respected and each notification fires at most once. */
  lemma {:induction false} RunKeepsInvariant(p: Poller, maxAttempts: int, results: seq<FetchReturn>)
    requires PollInvariant(p, maxAttempts)
    ensures PollInvariant(Run(p, maxAttempts, results), maxAttempts)
    decreases |results|
  {
    if |results| > 0 {
      RunKeepsInvariant(Tick(p, maxAttempts, results[0]), maxAttempts, results[1..]);
    }
  }

  // ---- useCodeSubmission.submit ---------------------------------------------

  datatype SubmitState = SubmitState(loading: bool, submissionId: Option<string>, error: Option<string>)

  /** How `submitCode` settles. */
  datatype SubmitCall = Submitted(submissionId: string) | SubmitThrew(err: Errors.Thrown)

  /** The synchronous start of `submit`: loading on, error and id cleared. */
  function SubmitStart(st: SubmitState): (r: SubmitState)
    ensures r.loading && r.submissionId.None? && r.error.None?
  {
    SubmitState(true, None, None)
  }

  /** The settlement of `submit`: the id only on success, the message only on failure. */
  function SubmitSettle(st: SubmitState, call: SubmitCall): (r: SubmitState)
    ensures !r.loading
    ensures call.Submitted? ==> r.submissionId == Some(call.submissionId) && r.error == st.error
    ensures call.SubmitThrew? ==>
              r.submissionId == st.submissionId && r.error == Some(Errors.Describe(call.err, "Failed to submit code"))
  {
    match call
    case Submitted(id) => st.(loading := false, submissionId := Some(id))
    case SubmitThrew(e) => st.(loading := false, error := Some(Errors.Describe(e, "Failed to submit code")))
  }

  /** A whole `submit`: an earlier id never survives, and a failure leaves none. */
  lemma SubmitReplacesId(st: SubmitState, call: SubmitCall)
    ensures var r := SubmitSettle(SubmitStart(st), call);
            !r.loading
            && (r.submissionId.Some? <==> call.Submitted?)
            && (call.Submitted? ==> r.submissionId.value == call.submissionId && r.error.None?)
  {
  }
}

=== FILE: text.dfy ===
/**
 * String helpers with the JavaScript meaning the client relies on: ASCII case
 * mapping, `includes`, `split` on one character, `join`, decimal rendering of
 * numbers and `parseInt` without a radix.
 */
module Text {
  import opened Wrappers

  /** JavaScript `\s`: the WhiteSpace and LineTerminator code points. */
  predicate IsSpace(c: char) {
    c == ' ' || c == '\t' || c == '\n' || c == '\r' || c == '\U{000B}' || c == '\U{000C}'
    || c == '\U{00A0}' || c == '\U{1680}' || ('\U{2000}' <= c <= '\U{200A}')
    || c == '\U{2028}' || c == '\U{2029}' || c == '\U{202F}' || c == '\U{205F}'
    || c == '\U{3000}' || c == '\U{FEFF}'
  }

  /** JavaScript `\d`: ASCII digits only. */
  predicate IsDigit(c: char) {
    '0' <= c <= '9'
  }

  function LowerChar(c: char): char {
    if 'A' <= c <= 'Z' then (c as int + 32) as char else c
  }

  function UpperChar(c: char): char {
    if 'a' <= c <= 'z' then (c as int - 32) as char else c
  }

  /** `toLowerCase`, restricted to the ASCII letters. */
  function Lower(s: string): (r: string)
    ensures |r| == |s|
    ensures forall i :: 0 <= i < |s| ==> r[i] == LowerChar(s[i])
  {
    if |s| == 0 then [] else [LowerChar(s[0])] + Lower(s[1..])
  }

  /** `toUpperCase`, restricted to the ASCII letters. */
  function Upper(s: string): (r: string)
    ensures |r| == |s|
    ensures forall i :: 0 <= i < |s| ==> r[i] == UpperChar(s[i])
  {
    if |s| == 0 then [] else [UpperChar(s[0])] + Upper(s[1..])
  }

  /** Lower-casing twice is lower-casing once. */
  lemma LowerIdempotent(s: string)
    ensures Lower(Lower(s)) == Lower(s)
  {
  }

  /** `s.includes(sub)`: `sub` occurs in `s` at some offset (`<=` on sequences is "is a prefix of"). */
  predicate Contains(s: string, sub: string)
    decreases |s|
  {
    sub <= s || (|s| > 0 && Contains(s[1..], sub))
  }

  /** `sub` occurs in `s` starting at offset `i`. */
  predicate OccursAt(s: string, sub: string, i: int) {
    0 <= i <= |s| - |sub| && s[i..i + |sub|] == sub
  }

  lemma {:induction false} ContainsHasOffset(s: string, sub: string) returns (i: int)
    requires Contains(s, sub)
    ensures OccursAt(s, sub, i)
    decreases |s|
  {
    if sub <= s {
      i := 0;
    } else {
      var j := ContainsHasOffset(s[1..], sub);
      assert s[j + 1..j + 1 + |sub|] == s[1..][j..j + |sub|];
      i := j + 1;
    }
  }

  lemma {:induction false} OffsetContains(s: string, sub: string, i: int)
    requires OccursAt(s, sub, i)
    ensures Contains(s, sub)
    decreases i
  {
    if i > 0 {
      assert s[1..][i - 1..i - 1 + |sub|] == s[i..i + |sub|];
      OffsetContains(s[1..], sub, i - 1);
    }
  }

  /** `Contains` holds exactly when `sub` occurs at some offset. */
  lemma ContainsIff(s: string, sub: string)
    ensures Contains(s, sub) <==> exists i :: OccursAt(s, sub, i)
  {
    if Contains(s, sub) {
      var i := ContainsHasOffset(s, sub);
    }
    forall i | OccursAt(s, sub, i) ensures Contains(s, sub) {
      OffsetContains(s, sub, i);
    }
  }

  /** Every string includes the empty string. */
  lemma ContainsEmpty(s: string)
    ensures Contains(s, "")
  {
  }

  /** `s.split(sep)` for a one-character separator. */
  function Split(s: string, sep: char): (r: seq<string>)
    ensures |r| >= 1
  {
    if |s| == 0 then [""]
    else if s[0] == sep then [""] + Split(s[1..], sep)
    else
      var rest := Split(s[1..], sep);
      [[s[0]] + rest[0]] + rest[1..]
  }

  /** `pieces.join(sep)`. */
  function Join(pieces: seq<string>, sep: char): string
    requires |pieces| >= 1
  {
    if |pieces| == 1 then pieces[0] else pieces[0] + [sep] + Join(pieces[1..], sep)
  }

  /** A string without the separator splits into itself. */
  lemma {:induction false} SplitPlain(w: string, sep: char)
    requires forall j :: 0 <= j < |w| ==> w[j] != sep
    ensures Split(w, sep) == [w]
  {
    if |w| > 0 {
      SplitPlain(w[1..], sep);
      assert w == [w[0]] + w[1..];
    }
  }

  /** A separator-free piece followed by the separator splits off as the first piece. */
  lemma {:induction false} SplitAfterPiece(w: string, rest: string, sep: char)
    requires forall j :: 0 <= j < |w| ==> w[j] != sep
    ensures Split(w + [sep] + rest, sep) == [w] + Split(rest, sep)
  {
    var s := w + [sep] + rest;
    if |w| == 0 {
      assert s[1..] == rest;
    } else {
      SplitAfterPiece(w[1..], rest, sep);
      assert s[1..] == w[1..] + [sep] + rest;
      assert w == [w[0]] + w[1..];
    }
  }

  /** Joining separator-free pieces and splitting again gives the pieces back. */
  lemma {:induction false} JoinSplit(pieces: seq<string>, sep: char)
    requires |pieces| >= 1
    requires forall k, j :: 0 <= k < |pieces| && 0 <= j < |pieces[k]| ==> pieces[k][j] != sep
    ensures Split(Join(pieces, sep), sep) == pieces
  {
    if |pieces| == 1 {
      SplitPlain(pieces[0], sep);
    } else {
      JoinSplit(pieces[1..], sep);
      SplitAfterPiece(pieces[0], Join(pieces[1..], sep), sep);
      assert pieces == [pieces[0]] + pieces[1..];
    }
  }

  /** The first piece of a split is the longest prefix free of the separator. */
  lemma {:induction false} SplitFirst(s: string, sep: char)
    ensures Split(s, sep)[0] <= s
    ensures forall j :: 0 <= j < |Split(s, sep)[0]| ==> s[j] != sep
    ensures |Split(s, sep)[0]| < |s| ==> s[|Split(s, sep)[0]|] == sep
  {
    if |s| == 0 {
    } else if s[0] == sep {
    } else {
      SplitFirst(s[1..], sep);
      var rest := Split(s[1..], sep);
      assert Split(s, sep)[0] == [s[0]] + rest[0];
    }
  }

  function DigitChar(d: nat): char
    requires d < 10
  {
    "0123456789"[d]
  }

  /** Decimal rendering of a natural number, as `String(n)` or a template literal gives it. */
  function NatToString(n: nat): (r: string)
    ensures |r| >= 1
    ensures forall i :: 0 <= i < |r| ==> IsDigit(r[i])
    ensures n >= 10 ==> r[0] != '0'
  {
    if n < 10 then [DigitChar(n)] else NatToString(n / 10) + [DigitChar(n % 10)]
  }

  /** Decimal rendering of an integer, with a leading minus sign when negative. */
  function IntToString(n: int): string {
    if n < 0 then "-" + NatToString(-n) else NatToString(n)
  }

  /** Value of one digit in base 10 or 16, or -1 when the character is not such a digit. */
  function DigitValue(c: char, base: nat): int {
    if '0' <= c <= '9' then (c as int - '0' as int)
    else if base == 16 && 'a' <= c <= 'f' then (c as int - 'a' as int + 10)
    else if base == 16 && 'A' <= c <= 'F' then (c as int - 'A' as int + 10)
    else -1
  }

  /** The longest prefix of `s` made of digits of the given base. */
  function DigitRun(s: string, base: nat): (r: string)
    ensures r <= s
    ensures forall i :: 0 <= i < |r| ==> DigitValue(r[i], base) >= 0
  {
    if |s| == 0 || DigitValue(s[0], base) < 0 then [] else [s[0]] + DigitRun(s[1..], base)
  }

  /** Positional value of a digit string. */
  function DigitsValue(ds: string, base: nat): nat
    requires forall i :: 0 <= i < |ds| ==> DigitValue(ds[i], base) >= 0
  {
    if |ds| == 0 then 0 else DigitsValue(ds[..|ds| - 1], base) * base + DigitValue(ds[|ds| - 1], base) as nat
  }

  function TrimStartSpace(s: string): (r: string)
    ensures |r| <= |s|
    ensures r == s[|s| - |r|..]
  {
    if |s| > 0 && IsSpace(s[0]) then TrimStartSpace(s[1..]) else s
  }

  /**
   * `parseInt(s)` with no radix: leading white space is skipped, one sign is
   * accepted, a `0x`/`0X` prefix selects base 16, and the longest run of digits
   * is read. No digit at all is NaN, here `None`.
   */
  function ParseInt(s: string): Option<int> {
    var t := TrimStartSpace(s);
    var neg := |t| > 0 && t[0] == '-';
    var u := if |t| > 0 && (t[0] == '-' || t[0] == '+') then t[1..] else t;
    var hex := |u| >= 2 && u[0] == '0' && (u[1] == 'x' || u[1] == 'X');
    var base: nat := if hex then 16 else 10;
    var digits := DigitRun(if hex then u[2..] else u, base);
    if |digits| == 0 then None
    else
      var v: int := DigitsValue(digits, base);
      Some(if neg then -v else v)
  }

  lemma {:induction false} DigitRunOfDigits(s: string)
    requires forall i :: 0 <= i < |s| ==> IsDigit(s[i])
    ensures DigitRun(s, 10) == s
  {
    if |s| > 0 {
      DigitRunOfDigits(s[1..]);
    }
  }

  lemma {:induction false} NatToStringValue(n: nat)
    ensures DigitsValue(NatToString(n), 10) == n
  {
    if n >= 10 {
      NatToStringValue(n / 10);
      var r := NatToString(n);
      assert r[..|r| - 1] == NatToString(n / 10);
    }
  }

  /** `parseInt` reads back what `String(n)` wrote. */
  lemma ParseIntNatToString(n: nat)
    ensures ParseInt(NatToString(n)) == Some(n)
  {
    var s := NatToString(n);
    assert !IsSpace(s[0]);
    assert TrimStartSpace(s) == s;
    assert !(s[0] == '-' || s[0] == '+');
    assert !(|s| >= 2 && s[0] == '0');
    DigitRunOfDigits(s);
    NatToStringValue(n);
  }

  /** A shared prefix can be dropped from both sides of an equation. */
  lemma PrefixCancels(p: string, a: string, b: string)
    requires p + a == p + b
    ensures a == b
  {
    assert a == (p + a)[|p|..];
  }

  /** A digit run stops at the first character that is not a digit. */
  lemma {:induction false} DigitRunStops(ds: string, rest: string)
    requires forall i :: 0 <= i < |ds| ==> IsDigit(ds[i])
    requires |rest| == 0 || !IsDigit(rest[0])
    ensures DigitRun(ds + rest, 10) == ds
  {
    if |ds| > 0 {
      DigitRunStops(ds[1..], rest);
      assert (ds + rest)[1..] == ds[1..] + rest;
    } else {
      assert ds + rest == rest;
    }
  }

  /** `parseInt` reads a decimal rendering back even when other text follows it. */
  lemma ParseIntDigitsThen(n: nat, rest: string)
    requires |rest| == 0 || (!IsDigit(rest[0]) && rest[0] != 'x' && rest[0] != 'X')
    ensures ParseInt(NatToString(n) + rest) == Some(n)
  {
    var s := NatToString(n);
    var t := s + rest;
    assert t[0] == s[0] && !IsSpace(t[0]);
    assert TrimStartSpace(t) == t;
    assert !(t[0] == '-' || t[0] == '+');
    assert !(|t| >= 2 && t[0] == '0' && (t[1] == 'x' || t[1] == 'X')) by {
      if |t| >= 2 && t[0] == '0' {
        assert |s| == 1;
        assert t[1] == rest[0];
      }
    }
    DigitRunStops(s, rest);
    NatToStringValue(n);
  }
}

=== FILE: theme_manager.dfy ===
/**
 * Theme customisation and its persistence (src/hooks/use-theme-manager.ts).
 * The document's inline style and `localStorage` are maps; the preset
 * catalogue and the list of brand-colour variables are parameters.
 */
module ThemeManager {
  import opened Wrappers
  import opened Json
  import Storage

  const SelectedThemeKey: string := "selected-theme"
  const SelectedTweakcnThemeKey: string := "selected-tweakcn-theme"
  const ImportedThemeKey: string := "imported-theme"
  const CustomRadiusKey: string := "custom-radius"
  const BrandColorsKey: string := "brand-colors"
  const CssVariablesKey: string := "css-variables"

  const StorageKeys: set<string> :=
    {SelectedThemeKey, SelectedTweakcnThemeKey, ImportedThemeKey, CustomRadiusKey, BrandColorsKey, CssVariablesKey}

  const DefaultRadius: string := "0.5rem"

  /** The six storage keys are pairwise distinct. */
  lemma KeysDistinct()
    ensures SelectedThemeKey != SelectedTweakcnThemeKey && SelectedThemeKey != ImportedThemeKey
    ensures SelectedThemeKey != CustomRadiusKey && SelectedThemeKey != BrandColorsKey && SelectedThemeKey != CssVariablesKey
    ensures SelectedTweakcnThemeKey != ImportedThemeKey && SelectedTweakcnThemeKey != CustomRadiusKey
    ensures SelectedTweakcnThemeKey != BrandColorsKey && SelectedTweakcnThemeKey != CssVariablesKey
    ensures ImportedThemeKey != CustomRadiusKey && ImportedThemeKey != BrandColorsKey && ImportedThemeKey != CssVariablesKey
    ensures CustomRadiusKey != BrandColorsKey && CustomRadiusKey != CssVariablesKey
    ensures BrandColorsKey != CssVariablesKey
    ensures SelectedTweakcnThemeKey != SelectedThemeKey
  {
    assert SelectedThemeKey[10] != SelectedTweakcnThemeKey[10];
    assert CustomRadiusKey[1] != CssVariablesKey[1];
  }

  /** Inline style properties of the document element. */
  type Style = map<string, string>

  /** The hook's state: the inline style, the brand colours shown in the customiser, and storage. */
  datatype ThemeState = ThemeState(style: Style, brand: map<string, string>, store: Storage.Store)

  /** A preset's variables for each mode, keyed without the leading "--". */
  datatype Styles = Styles(light: map<string, string>, dark: map<string, string>)

  /** An entry of the built-in catalogue. */
  datatype ColorTheme = ColorTheme(value: string, styles: Styles)

  /** A tweakcn preset or an imported theme: its variables, and the whole object as JSON. */
  datatype ThemeData = ThemeData(json: Json, styles: Styles)

  function ModeStyles(s: Styles, darkMode: bool): map<string, string> {
    if darkMode then s.dark else s.light
  }

  /** `isDarkMode`: the provider's theme, with the system preference deciding for "system". */
  function IsDarkMode(theme: string, prefersDark: bool): (r: bool)
    ensures theme == "dark" ==> r
    ensures theme == "light" ==> !r
    ensures theme != "dark" && theme != "light" ==> r == prefersDark
  {
    if theme == "dark" then true else if theme == "light" then false else prefersDark
  }

  /** `saveToLocalStorage(key, value)`: null and "" remove the key, anything else is stored as JSON. */
  function Save(c: Codec, store: Storage.Store, key: string, value: Json): (r: Storage.Store)
    ensures value == JNull || value == JStr("") ==> key !in r
    ensures value != JNull && value != JStr("") ==> key in r && r[key] == c.stringify(value)
    ensures forall k | k != key :: (k in r <==> k in store) && (k in r ==> r[k] == store[k])
  {
    if value == JNull || value == JStr("") then Storage.RemoveItem(store, key)
    else store[key := c.stringify(value)]
  }

  /** `saveCSSVariables`: always the JSON of an empty object. */
  function SaveCssVariables(c: Codec, store: Storage.Store): (r: Storage.Store)
    ensures r == store[CssVariablesKey := c.stringify(JObj(map[]))]
  {
    Save(c, store, CssVariablesKey, JObj(map[]))
  }

  /** Whether a property name starts with "--". */
  predicate IsCustomProperty(p: string) {
    |p| >= 2 && p[0] == '-' && p[1] == '-'
  }

  /** `color.cssVar.replace("--", "")`: the first "--" removed. */
  function StripDashes(s: string): (r: string)
    ensures IsCustomProperty(s) ==> r == s[2..]
    ensures |r| == |s| || |r| == |s| - 2
  {
    if |s| < 2 then s
    else if IsCustomProperty(s) then s[2..]
    else [s[0]] + StripDashes(s[1..])
  }

  /** `style.setProperty(p, v)` for each entry; an empty value removes the property, as CSSOM specifies. */
  function SetProperties(style: Style, props: map<string, string>): (r: Style)
    ensures forall p | p in props && props[p] != "" :: p in r && r[p] == props[p]
    ensures forall p | p in props && props[p] == "" :: p !in r
    ensures forall p | p !in props :: (p in r <==> p in style) && (p in r ==> r[p] == style[p])
  {
    map p | p in style.Keys + props.Keys && !(p in props && props[p] == "") :: if p in props then props[p] else style[p]
  }

  /** The variables keyed by their custom-property names. */
  function Prefixed(vars: map<string, string>): (r: map<string, string>)
    ensures forall k | k in vars :: "--" + k in r && r["--" + k] == vars[k]
    ensures forall p | p in r :: IsCustomProperty(p)
  {
    map p | p in (set k | k in vars :: "--" + k) :: vars[p[2..]]
  }

  /** `after` is `before` with each property set to its value; an empty value removes the property. */
  ghost predicate Overlaid(before: Style, props: map<string, string>, after: Style) {
    && (forall p :: p in after <==> if p in props then props[p] != "" else p in before)
    && (forall p | p in after :: after[p] == if p in props then props[p] else before[p])
  }

  /** `after` is `before` with every custom property dropped and then the (custom) properties set. */
  ghost predicate ResetThenSet(before: Style, props: map<string, string>, after: Style) {
    && (forall p :: p in after <==> if IsCustomProperty(p) then p in props && props[p] != "" else p in before)
    && (forall p | p in after :: after[p] == if IsCustomProperty(p) then props[p] else before[p])
  }

  /** `Object.entries(vars).forEach(([k, v]) => setProperty("--" + k, v))`. */
  function SetVariables(style: Style, vars: map<string, string>): (r: Style)
    ensures forall k | k in vars && vars[k] != "" :: "--" + k in r && r["--" + k] == vars[k]
    ensures Overlaid(style, Prefixed(vars), r)
  {
    SetProperties(style, Prefixed(vars))
  }

  /** What `getItem(key)` returns after `saveToLocalStorage(key, value)`: nothing for null and "", else the JSON text. */
  function Entry(c: Codec, value: Json): Option<string> {
    if value == JNull || value == JStr("") then None else Some(c.stringify(value))
  }

  /** `key` reads back as `saveToLocalStorage(key, value)` left it. */
  predicate Stored(c: Codec, store: Storage.Store, key: string, value: Json) {
    Storage.GetItem(store, key) == Entry(c, value)
  }

  /** The brand colours a set of variables determines: each listed colour whose stripped name has a truthy value. */
  function DeriveBrand(baseColors: seq<string>, vars: map<string, string>): (r: map<string, string>)
    ensures forall k :: k in r <==> k in baseColors && Storage.Holds(vars, StripDashes(k))
    ensures forall k | k in r :: StripDashes(k) in vars && r[k] == vars[StripDashes(k)]
  {
    if |baseColors| == 0 then map[]
    else
      var rest := DeriveBrand(baseColors[..|baseColors| - 1], vars);
      var cssVar := baseColors[|baseColors| - 1];
      var name := StripDashes(cssVar);
      assert forall k :: k in baseColors <==> k in baseColors[..|baseColors| - 1] || k == cssVar;
      if Storage.Holds(vars, name) then rest[cssVar := vars[name]] else rest
  }

  /**
   * `resetTheme`: every custom property leaves the inline style (the fixed
   * list of names it removes first is covered by the sweep), all six keys
   * leave storage, and the brand colours are emptied.
   */
  function ResetTheme(st: ThemeState): (r: ThemeState)
    ensures r.brand == map[]
    ensures forall k :: k in StorageKeys ==> k !in r.store
    ensures forall k :: k !in StorageKeys ==> Storage.GetItem(r.store, k) == Storage.GetItem(st.store, k)
    ensures forall p :: p in r.style <==> p in st.style && !IsCustomProperty(p)
    ensures forall p | p in r.style :: r.style[p] == st.style[p]
  {
    var style := map p | p in st.style && !IsCustomProperty(p) :: st.style[p];
    ThemeState(style, map[], st.store - StorageKeys)
  }

  /** `updateBrandColorsFromTheme(styles)`: derive, show and persist. */
  function UpdateBrandColors(c: Codec, st: ThemeState, baseColors: seq<string>, vars: map<string, string>): (r: ThemeState)
    ensures r.brand == DeriveBrand(baseColors, vars) && r.style == st.style
    ensures r.store == Save(c, st.store, BrandColorsKey, StringMapJson(r.brand))
  {
    var brand := DeriveBrand(baseColors, vars);
    st.(brand := brand, store := Save(c, st.store, BrandColorsKey, StringMapJson(brand)))
  }

  /** `colorThemes.find(t => t.value === v)`: the first entry with that value. */
  function FindTheme(catalogue: seq<ColorTheme>, v: string): (r: Option<ColorTheme>)
    ensures r.None? <==> forall i :: 0 <= i < |catalogue| ==> catalogue[i].value != v
    ensures r.Some? ==> r.value in catalogue && r.value.value == v
    ensures r.Some? ==> exists i :: 0 <= i < |catalogue| && catalogue[i] == r.value
                          && forall j :: 0 <= j < i ==> catalogue[j].value != v
  {
    if |catalogue| == 0 then None
    else if catalogue[0].value == v then Some(catalogue[0])
    else
      var r := FindTheme(catalogue[1..], v);
      if r.Some? then
        var i :| 0 <= i < |catalogue| - 1 && catalogue[1..][i] == r.value
               && forall j :: 0 <= j < i ==> catalogue[1..][j].value != v;
        assert catalogue[i + 1] == r.value;
        r
      else r
  }

  /** Reset, then the chosen mode's variables on the style and into the brand colours. */
  function ResetAndApply(c: Codec, st: ThemeState, baseColors: seq<string>, vars: map<string, string>): (r: ThemeState)
    ensures ResetThenSet(st.style, Prefixed(vars), r.style)
    ensures r.brand == DeriveBrand(baseColors, vars)
  {
    var reset := ResetTheme(st);
    UpdateBrandColors(c, reset.(style := SetVariables(reset.style, vars)), baseColors, vars)
  }

  /** After the reset and the brand colours, storage holds only the brand colours among the six keys. */
  lemma ResetAndApplyStores(c: Codec, st: ThemeState, baseColors: seq<string>, vars: map<string, string>)
    ensures var r := ResetAndApply(c, st, baseColors, vars);
            && Stored(c, r.store, BrandColorsKey, StringMapJson(r.brand))
            && SelectedThemeKey !in r.store && SelectedTweakcnThemeKey !in r.store && ImportedThemeKey !in r.store
            && CustomRadiusKey !in r.store && CssVariablesKey !in r.store
            && forall k | k !in StorageKeys :: Storage.GetItem(r.store, k) == Storage.GetItem(st.store, k)
  {
    KeysDistinct();
  }

  /**
   * The end of `applyTheme` and `applyTweakcnTheme`: three selection keys
   * saved in order, then the CSS variables. Each write lands and no other key moves.
   */
  function SaveSelection(c: Codec, store: Storage.Store, k1: string, j1: Json, k2: string, j2: Json, k3: string, j3: Json): (r: Storage.Store)
    requires k1 != k2 && k1 != k3 && k2 != k3
    requires k1 != CssVariablesKey && k2 != CssVariablesKey && k3 != CssVariablesKey
    ensures Stored(c, r, k1, j1) && Stored(c, r, k2, j2) && Stored(c, r, k3, j3)
    ensures Stored(c, r, CssVariablesKey, JObj(map[]))
    ensures forall k | k != k1 && k != k2 && k != k3 && k != CssVariablesKey :: Storage.GetItem(r, k) == Storage.GetItem(store, k)
  {
    SaveCssVariables(c, Save(c, Save(c, Save(c, store, k1, j1), k2, j2), k3, j3))
  }

  /** Keys outside the six are untouched by a reset-and-apply followed by `SaveSelection` on three of the six. */
  lemma SelectionKeepsOthers(before: Storage.Store, applied: Storage.Store, saved: Storage.Store, k1: string, k2: string, k3: string)
    requires k1 in StorageKeys && k2 in StorageKeys && k3 in StorageKeys
    requires forall k | k !in StorageKeys :: Storage.GetItem(applied, k) == Storage.GetItem(before, k)
    requires forall k | k != k1 && k != k2 && k != k3 && k != CssVariablesKey :: Storage.GetItem(saved, k) == Storage.GetItem(applied, k)
    ensures forall k | k !in StorageKeys :: Storage.GetItem(saved, k) == Storage.GetItem(before, k)
  {
  }

  /** `applyTheme(value, darkMode)`: an unknown value does nothing. */
  function ApplyTheme(c: Codec, st: ThemeState, catalogue: seq<ColorTheme>, baseColors: seq<string>, v: string, darkMode: bool): (r: ThemeState)
    ensures FindTheme(catalogue, v).None? ==> r == st
    ensures FindTheme(catalogue, v).Some? ==>
              var vars := ModeStyles(FindTheme(catalogue, v).value.styles, darkMode);
              ResetThenSet(st.style, Prefixed(vars), r.style) && r.brand == DeriveBrand(baseColors, vars)
    ensures FindTheme(catalogue, v).Some? ==>
              && Stored(c, r.store, SelectedThemeKey, JStr(v))
              && SelectedTweakcnThemeKey !in r.store && ImportedThemeKey !in r.store && CustomRadiusKey !in r.store
              && Stored(c, r.store, BrandColorsKey, StringMapJson(r.brand))
              && Stored(c, r.store, CssVariablesKey, JObj(map[]))
              && forall k | k !in StorageKeys :: Storage.GetItem(r.store, k) == Storage.GetItem(st.store, k)
  {
    if FindTheme(catalogue, v).None? then st
    else
      var vars := ModeStyles(FindTheme(catalogue, v).value.styles, darkMode);
      var applied := ResetAndApply(c, st, baseColors, vars);
      ResetAndApplyStores(c, st, baseColors, vars);
      KeysDistinct();
      var saved := SaveSelection(c, applied.store, SelectedThemeKey, JStr(v), SelectedTweakcnThemeKey, JStr(""), ImportedThemeKey, JNull);
      SelectionKeepsOthers(st.store, applied.store, saved, SelectedThemeKey, SelectedTweakcnThemeKey, ImportedThemeKey);
      ThemeState(applied.style, applied.brand, saved)
  }

  /** `applyTweakcnTheme(preset, darkMode)`: as `applyTheme`, with the preset as the stored selection. */
  function ApplyTweakcnTheme(c: Codec, st: ThemeState, baseColors: seq<string>, preset: ThemeData, darkMode: bool): (r: ThemeState)
    ensures var vars := ModeStyles(preset.styles, darkMode);
            ResetThenSet(st.style, Prefixed(vars), r.style) && r.brand == DeriveBrand(baseColors, vars)
    ensures Stored(c, r.store, SelectedTweakcnThemeKey, preset.json)
    ensures SelectedThemeKey !in r.store && ImportedThemeKey !in r.store && CustomRadiusKey !in r.store
    ensures Stored(c, r.store, BrandColorsKey, StringMapJson(r.brand))
    ensures Stored(c, r.store, CssVariablesKey, JObj(map[]))
    ensures forall k | k !in StorageKeys :: Storage.GetItem(r.store, k) == Storage.GetItem(st.store, k)
  {
    var vars := ModeStyles(preset.styles, darkMode);
    var applied := ResetAndApply(c, st, baseColors, vars);
    ResetAndApplyStores(c, st, baseColors, vars);
    KeysDistinct();
    var saved := SaveSelection(c, applied.store, SelectedTweakcnThemeKey, preset.json, SelectedThemeKey, JStr(""), ImportedThemeKey, JNull);
    SelectionKeepsOthers(st.store, applied.store, saved, SelectedTweakcnThemeKey, SelectedThemeKey, ImportedThemeKey);
    ThemeState(applied.style, applied.brand, saved)
  }

  /**
   * The end of `applyImportedTheme`: the three selection keys, the brand
   * colours, then the CSS variables.
   */
  function SaveImported(c: Codec, store: Storage.Store, imported: Json, brand: map<string, string>): (r: Storage.Store)
    ensures Stored(c, r, ImportedThemeKey, imported)
    ensures SelectedThemeKey !in r && SelectedTweakcnThemeKey !in r
    ensures Stored(c, r, BrandColorsKey, StringMapJson(brand))
    ensures Stored(c, r, CssVariablesKey, JObj(map[]))
    ensures forall k | k !in StorageKeys || k == CustomRadiusKey :: Storage.GetItem(r, k) == Storage.GetItem(store, k)
  {
    KeysDistinct();
    var s3 := Save(c, Save(c, Save(c, store, ImportedThemeKey, imported), SelectedThemeKey, JStr("")), SelectedTweakcnThemeKey, JStr(""));
    SaveCssVariables(c, Save(c, s3, BrandColorsKey, StringMapJson(brand)))
  }

  /** `applyImportedTheme(theme, darkMode)`: no reset, so earlier variables and the radius stay. */
  function ApplyImportedTheme(c: Codec, st: ThemeState, baseColors: seq<string>, imported: ThemeData, darkMode: bool): (r: ThemeState)
    ensures var vars := ModeStyles(imported.styles, darkMode);
            Overlaid(st.style, Prefixed(vars), r.style) && r.brand == DeriveBrand(baseColors, vars)
    ensures Stored(c, r.store, ImportedThemeKey, imported.json)
    ensures SelectedThemeKey !in r.store && SelectedTweakcnThemeKey !in r.store
    ensures Stored(c, r.store, BrandColorsKey, StringMapJson(r.brand))
    ensures Stored(c, r.store, CssVariablesKey, JObj(map[]))
    ensures Storage.GetItem(r.store, CustomRadiusKey) == Storage.GetItem(st.store, CustomRadiusKey)
    ensures forall k | k !in StorageKeys :: Storage.GetItem(r.store, k) == Storage.GetItem(st.store, k)
  {
    var vars := ModeStyles(imported.styles, darkMode);
    var brand := DeriveBrand(baseColors, vars);
    ThemeState(SetVariables(st.style, vars), brand, SaveImported(c, st.store, imported.json, brand))
  }

  /** `applyRadius(radius)`. */
  function ApplyRadius(c: Codec, st: ThemeState, radius: string): (r: ThemeState)
    ensures radius != "" ==> "--radius" in r.style && r.style["--radius"] == radius
    ensures radius == "" ==> "--radius" !in r.style
    ensures forall p | p != "--radius" :: (p in r.style <==> p in st.style) && (p in r.style ==> r.style[p] == st.style[p])
    ensures r.brand == st.brand
    ensures radius == "" ==> CustomRadiusKey !in r.store
    ensures radius != "" ==> CustomRadiusKey in r.store && r.store[CustomRadiusKey] == c.stringify(JStr(radius))
    ensures Stored(c, r.store, CssVariablesKey, JObj(map[]))
    ensures forall k | k != CustomRadiusKey && k != CssVariablesKey :: Storage.GetItem(r.store, k) == Storage.GetItem(st.store, k)
  {
    ThemeState(SetProperties(st.style, map["--radius" := radius]), st.brand, SaveCssVariables(c, Save(c, st.store, CustomRadiusKey, JStr(radius))))
  }

  /** `handleColorChange(cssVar, value)`: one brand colour changes, and the whole set is persisted. */
  function HandleColorChange(c: Codec, st: ThemeState, cssVar: string, value: string): (r: ThemeState)
    ensures value != "" ==> cssVar in r.style && r.style[cssVar] == value
    ensures value == "" ==> cssVar !in r.style
    ensures forall p | p != cssVar :: (p in r.style <==> p in st.style) && (p in r.style ==> r.style[p] == st.style[p])
    ensures cssVar in r.brand && r.brand[cssVar] == value
    ensures forall k | k != cssVar :: (k in r.brand <==> k in st.brand) && (k in st.brand ==> r.brand[k] == st.brand[k])
    ensures BrandColorsKey in r.store && r.store[BrandColorsKey] == c.stringify(StringMapJson(r.brand))
    ensures Stored(c, r.store, CssVariablesKey, JObj(map[]))
    ensures forall k | k != BrandColorsKey && k != CssVariablesKey :: Storage.GetItem(r.store, k) == Storage.GetItem(st.store, k)
  {
    var brand := st.brand[cssVar := value];
    ThemeState(SetProperties(st.style, map[cssVar := value]), brand, SaveCssVariables(c, Save(c, st.store, BrandColorsKey, StringMapJson(brand))))
  }

  /** Storage holds at most one of the three theme selections. */
  predicate AtMostOneSelection(store: Storage.Store) {
    && (SelectedThemeKey in store ==> SelectedTweakcnThemeKey !in store && ImportedThemeKey !in store)
    && (SelectedTweakcnThemeKey in store ==> ImportedThemeKey !in store)
  }

  /** Each of the three ways to apply a theme leaves at most one selection stored, whatever was there before. */
  lemma ApplyLeavesOneSelection(c: Codec, st: ThemeState, catalogue: seq<ColorTheme>, baseColors: seq<string>,
                                v: string, preset: ThemeData, imported: ThemeData, darkMode: bool)
    requires FindTheme(catalogue, v).Some?
    ensures AtMostOneSelection(ApplyTheme(c, st, catalogue, baseColors, v, darkMode).store)
    ensures AtMostOneSelection(ApplyTweakcnTheme(c, st, baseColors, preset, darkMode).store)
    ensures AtMostOneSelection(ApplyImportedTheme(c, st, baseColors, imported, darkMode).store)
  {
  }

  datatype PersistedData = PersistedData(selectedTheme: Json, selectedTweakcnTheme: Json, importedTheme: Json, customRadius: Json)

  const DefaultPersisted := PersistedData(JStr(""), JStr(""), JNull, JStr(DefaultRadius))

  /** Read one key: its parsed value when truthy, else the default; `None` when parsing throws. */
  function ReadKey(c: Codec, store: Storage.Store, key: string, default: Json): Option<Json> {
    if Storage.Holds(store, key) then c.parse(store[key]) else Some(default)
  }

  /** `getPersistedThemeData`: any unparsable entry makes the whole answer the defaults. */
  function GetPersistedThemeData(c: Codec, store: Storage.Store): (r: PersistedData)
    ensures (forall k | k in StorageKeys :: !Storage.Holds(store, k)) ==> r == DefaultPersisted
  {
    var a := ReadKey(c, store, SelectedThemeKey, JStr(""));
    var b := ReadKey(c, store, SelectedTweakcnThemeKey, JStr(""));
    var d := ReadKey(c, store, ImportedThemeKey, JNull);
    var e := ReadKey(c, store, CustomRadiusKey, JStr(DefaultRadius));
    if a.Some? && b.Some? && d.Some? && e.Some? then PersistedData(a.value, b.value, d.value, e.value)
    else DefaultPersisted
  }

  /** After `resetTheme` every persisted field reads as its default. */
  lemma ResetReadsDefaults(c: Codec, st: ThemeState)
    ensures GetPersistedThemeData(c, ResetTheme(st).store) == DefaultPersisted
  {
  }

  /** After `applyTheme(v)` the persisted data reads back `v` and the default radius, since the reset cleared it. */
  lemma ApplyThemeReadsBack(c: Codec, st: ThemeState, catalogue: seq<ColorTheme>, baseColors: seq<string>, v: string, darkMode: bool)
    requires Lawful(c)
    requires FindTheme(catalogue, v).Some? && v != ""
    ensures GetPersistedThemeData(c, ApplyTheme(c, st, catalogue, baseColors, v, darkMode).store)
            == PersistedData(JStr(v), JStr(""), JNull, JStr(DefaultRadius))
  {
    SelectionReadsBack(c, ApplyTheme(c, st, catalogue, baseColors, v, darkMode).store, v);
  }

  /** A store holding only the theme selection among the four read keys reads back that selection and the defaults. */
  lemma SelectionReadsBack(c: Codec, store: Storage.Store, v: string)
    requires Lawful(c) && v != ""
    requires Stored(c, store, SelectedThemeKey, JStr(v))
    requires SelectedTweakcnThemeKey !in store && ImportedThemeKey !in store && CustomRadiusKey !in store
    ensures GetPersistedThemeData(c, store) == PersistedData(JStr(v), JStr(""), JNull, JStr(DefaultRadius))
  {
    assert c.parse(c.stringify(JStr(v))) == Some(JStr(v)) && c.stringify(JStr(v)) != "";
    assert ReadKey(c, store, SelectedThemeKey, JStr("")) == Some(JStr(v));
  }

  /** The persisted brand colours decode to exactly the colours shown, after any colour change. */
  lemma ColorChangePersists(c: Codec, st: ThemeState, cssVar: string, value: string)
    requires Lawful(c)
    ensures var r := HandleColorChange(c, st, cssVar, value);
            c.parse(r.store[BrandColorsKey]).Some? && StringFields(c.parse(r.store[BrandColorsKey]).value) == r.brand
  {
    var brand := st.brand[cssVar := value];
    assert c.parse(c.stringify(StringMapJson(brand))) == Some(StringMapJson(brand));
    StringFieldsOfStringMap(brand);
  }

  /**
   * `loadPersistedTheme`: string-valued saved variables go onto the style as
   * named, then the saved brand colours are shown. An unparsable entry, or
   * saved variables that parse to `null` (on which `Object.entries` throws),
   * stop the load at that point.
   */
  function LoadPersistedTheme(c: Codec, st: ThemeState): (r: ThemeState)
    ensures r.store == st.store
    ensures !Storage.Holds(st.store, CssVariablesKey) && !Storage.Holds(st.store, BrandColorsKey) ==> r == st
    ensures Storage.Holds(st.store, CssVariablesKey) && c.parse(st.store[CssVariablesKey]).None? ==> r == st
    ensures Storage.Holds(st.store, CssVariablesKey) && c.parse(st.store[CssVariablesKey]) == Some(JNull) ==> r == st
  {
    var withVars :=
      if Storage.Holds(st.store, CssVariablesKey) then
        (match c.parse(st.store[CssVariablesKey])
         case None => None
         case Some(j) => if j.JNull? then None else Some(st.(style := SetProperties(st.style, StringFields(j)))))
      else Some(st);
    match withVars
    case None => st
    case Some(s) =>
      if Storage.Holds(s.store, BrandColorsKey) then
        match c.parse(s.store[BrandColorsKey])
        case None => s
        case Some(j) => s.(brand := StringFields(j))
      else s
  }

  /** Saved variables written as `null` make `Object.entries` throw, so not even the brand colours load. */
  lemma NullVariablesStopLoad(c: Codec, st: ThemeState)
    requires Lawful(c)
    requires CssVariablesKey in st.store && st.store[CssVariablesKey] == c.stringify(JNull)
    ensures LoadPersistedTheme(c, st) == st
  {
    assert c.parse(c.stringify(JNull)) == Some(JNull) && c.stringify(JNull) != "";
  }

  /** What `handleColorChange` saved is what the next load shows. */
  lemma ColorChangeSurvivesReload(c: Codec, st: ThemeState, cssVar: string, value: string)
    requires Lawful(c)
    ensures var after := HandleColorChange(c, st, cssVar, value);
            LoadPersistedTheme(c, ThemeState(map[], map[], after.store)).brand == after.brand
  {
    var after := HandleColorChange(c, st, cssVar, value);
    assert c.parse(c.stringify(JObj(map[]))) == Some(JObj(map[])) && c.stringify(JObj(map[])) != "";
    ColorChangePersists(c, st, cssVar, value);
    assert c.stringify(StringMapJson(after.brand)) != "";
  }
}

=== FILE: wrappers.dfy ===
/** Option type used wherever the source has `undefined`, `null` or a missing value. */
module Wrappers {

  datatype Option<+T> = None | Some(value: T) {

    /** The value in Some, or the given default. */
    function GetOr(default: T): T {
      match this
      case Some(v) => v
      case None => default
    }
  }
}
